=== FILE: README.md ===
# Account and session state machine of mern-auth-system

This project models the core of the mern-auth-system authentication API in Dafny:
the request handlers and middleware that act on one collection of user records.
The collection is a `map` from the string form of each `_id` to a `User` record.

- **Public routes.** Registration, login, refresh-token rotation, email
  verification, resending the verification link, and requesting and using a
  password-reset link.
- **Protected routes.** Each passes through the gates `protect` → `checkSession`
  (→ `authorize("admin")` for the admin routes) before reaching its handler:
  logout, current user, change password, and the admin handlers (list, read,
  re-role, delete, statistics).
- **Pure pieces.** The token codec, the user schema with a hand-written
  recogniser for its email pattern, the error-to-reply translation of
  `errorHandler`, the public projections of a user and the refresh-cookie
  options.

## Layout

Each handler is specified twice, and the two are tied together:

- A controller module (`AuthController`, `PasswordController`,
  `VerificationController`, `AdminController`) defines a function from the
  request and the collection to a `Step`. A `Step` holds:
  - the reply (status, body, cookie operation);
  - the collection afterwards;
  - the email the handler asked the mailer to send, if any.
- Lemmas next to each function state the outcomes the source promises.
- The class `AuthService.AuthSystem` holds the collection as a mutable field.
  Each of its methods loads the record, updates its fields step by step and
  saves, as the handler does. Each method is proved to produce exactly the
  `Step` of its controller function.
- `Integrity` proves that every handler keeps a well-formedness invariant on
  every stored record:
  - emails are unique and stored lower-cased;
  - ids are ObjectId strings;
  - each link token is stored together with its expiry;
  - the schema constraints hold;
  - a verified user holds no verification link.
- `Lifecycle` states properties that span several requests, such as single-use
  links, sessions ending at logout and reset, and admin self-protection.

Files:
- `common.dfy`: `Option`, `Result`.
- `text.dfy`: `trim`, `toLowerCase`, `split` and `join`.
- `config.dfy`: the configuration constants.
- `token.dfy`: the token codec.
- `password_hash.dfy`: the password hasher.
- `user.dfy`: the user schema.
- `store.dfy`: the collection and its lookups.
- `response.dfy`: replies and projections.
- `error_handler.dfy`: `AppError`, `errorHandler` and `notFound`.
- `middleware.dfy`: `protect`, `checkSession` and `authorize`.
- `handlers.dfy`: what the handlers share.
- `auth_controller.dfy`, `password_controller.dfy`, `verification_controller.dfy`
  and `admin_controller.dfy`: one per controller.
- `routes.dfy`: the middleware chains.
- `integrity.dfy`, `lifecycle.dfy`: the invariant and the multi-request properties.
- `auth_system.dfy`: the stateful class.

### Outside inputs, passed as parameters

- **Clock.** `now` is milliseconds, as `Date.now()` gives. Token times are
  whole seconds (`iat = now / 1000`), as jsonwebtoken computes them. Every
  read of the clock within one request is taken as the same instant `now`:
  the token and its 24-hour expiry at src/controllers/authController.ts:46-65,
  and the reset token and its one-hour expiry at
  src/controllers/passwordController.ts:37-41.
- **Database ids.** `newId` is the ObjectId the database assigns to a new record.
- **Email delivery.** `mailDelivered` says whether the mailer succeeded.
- **Validators.** `inputErrors` are the messages of the route's
  express-validator rules; a non-empty list gets the 400 `{ errors }` reply.
  The rules also sanitize the body before the handler runs: `name` is
  trimmed (src/routes/auth.ts:27) and `email` passes through
  `normalizeEmail()` (lines 28, 35 and 40). The `name` and `email`
  parameters are the values after these sanitizers.
- **Statistics window.** `recentSince` is the instant thirty days before the
  statistics request.
- **Random bytes.** `entropy` is the 32 bytes of `crypto.randomBytes`.
- **Environment.** `nodeEnvVar` is the value of NODE_ENV, or "" when unset.

### Repeated verification

A second verification with the same link fails at the lookup with 400
"Invalid or expired verification token"
(src/controllers/verificationController.ts:43-52), because the first success
clears the stored token (lines 60-63). The "Email already verified" branch
(lines 55-57) needs a verified record that still holds a link, and no
handler stores one (`Integrity`). See `Lifecycle.VerificationLinkSingleUse`.

## Model

| member | source | states |
|---|---|---|
| Config.ConfiguredNodeEnv | src/config/config.ts:29 | NODE_ENV falls back to "development"; the result is "production" exactly when the variable is "production" |
| Text.JoinSplit | src/middleware/auth.ts:19 | `split` loses nothing: joining the pieces with the separator gives back the original string |
| Text.TrimIdempotent | src/models/user.ts:21 | trimming a trimmed value changes nothing |
| Token.SignVerifyRoundTrip | src/utils/token.ts:17-49 | a token verifies under the secret it was signed with and yields its payload exactly while `now / 1000 < iat + ttl`, otherwise `TokenExpiredError` |
| Token.WrongSecretFails | src/utils/token.ts:41-49 | a token never verifies under any secret other than its own ("invalid signature") |
| Token.GeneratedTokensRoundTrip | src/utils/token.ts:17-110 | each of the four verify functions accepts the token of its generator, with the payload `{id}` or `{id, email}`, for its TTL (15 min, 7 days, 1 h, 24 h) and rejects it as expired afterwards |
| Token.GenerateTokensSameUser | src/utils/token.ts:52-57 | `generateTokens` yields an access token and a refresh token that both verify to the same id |
| Token.AccessAndRefreshDisjoint | src/utils/token.ts:17-49 | with distinct secrets, an access token fails `verifyRefreshToken` and a refresh token fails `verifyAccessToken` |
| Token.KindsSharingSecretAreInterchangeable | src/utils/token.ts:60-110 | reset, verification and access tokens share `jwtSecret`, so each passes the verify function of the others |
| Token.MintedTextDependsOnSecond | src/utils/token.ts:17-37 | two mints with the same secret and payload give the same text exactly when they fall in the same second |
| Token.HexEncode | src/utils/token.ts:83 | hex text has two lower-case hex digits per byte |
| Token.HexRoundTrip | src/utils/token.ts:83 | decoding the hex text gives the bytes back |
| Token.GenerateRandomToken | src/utils/token.ts:82-84 | 64 lower-case hex characters that decode to the 32 random bytes |
| Credentials.Hash | src/controllers/authController.ts:42-43 | a stored hash is at least 29 characters long, so it always satisfies the schema's minimum length |
| Credentials.MatchesOnlyItsPassword | src/controllers/authController.ts:107 | with the stand-in hash, `compare(p, hash(q))` holds exactly when `p == q` |
| UserModel.ParseRole | src/models/user.ts:39-43 | exactly "user" and "admin" are roles, and each parses back to its name |
| UserModel.Normalize | src/models/user.ts:23-28 | the stored email is the input lower-cased and then trimmed: it is lower-case, no longer than the input, and neither starts nor ends with whitespace |
| UserModel.NormalizeIdempotent | src/models/user.ts:23-28 | normalising a stored email changes nothing, so a stored email finds its own record |
| UserModel.WordRunCorrect | src/models/user.ts:29-32 | the recogniser for `\w+([\.-]?\w+)*` accepts exactly what the pattern matches |
| UserModel.DomainCorrect | src/models/user.ts:29-32 | the domain recogniser accepts exactly what `\w+([\.-]?\w+)*(\.\w{2,3})+` matches |
| UserModel.EmailRecogniserCorrect | src/models/user.ts:29-32 | `IsValidEmail` holds exactly for strings that match the whole anchored email pattern |
| UserModel.SchemaErrorsExact | src/models/user.ts:17-38 | each validator message is reported exactly when its constraint fails (required name, required and well-formed email, required password of length >= 8), and there are none exactly when all hold |
| UserModel.CreateUser | src/models/user.ts:17-72 | creation succeeds exactly when the trimmed name is non-empty, the normalised email is valid and the password has >= 8 characters. On success the record has the trimmed name, the normalised email, role "user", `isVerified` false, null refresh and reset fields, the given verification fields, and `createdAt` = now. On failure it returns the schema's messages |
| Store.CanonicalId | src/controllers/authController.ts:173 | `_id.toString()` is 24 lower-case hex digits and leaves a canonical id unchanged |
| Store.FindById | src/controllers/authController.ts:166 | a cast failure exactly for text that is not 24 hex digits; otherwise the record under the canonical id, or Missing when there is none |
| Store.FindByToken | src/controllers/passwordController.ts:91-96 | a record is found exactly when the id casts, the record exists, its email equals the payload's, its stored link equals the token and its expiry is strictly after now |
| Store.FindByEmail | src/controllers/authController.ts:36 | finds a record whose stored email is the normalised query, and finds none exactly when no record has that email |
| Store.FindByEmailUnique | src/models/user.ts:26 | with the unique index, the lookup returns the one holder of the email |
| Store.UpdateKeepsEmailsUnique | src/models/user.ts:26 | an update that keeps the email keeps emails unique |
| Store.RemoveKeepsEmailsUnique | src/models/user.ts:26 | removing a record keeps emails unique |
| Store.InsertKeepsEmailsUnique | src/models/user.ts:26 | inserting a fresh id with an unused email keeps emails unique |
| Response.FormatUserResponse | src/utils/response.ts:5-13 | the projection carries the given id and the stored name, email, role and `isVerified`, and nothing else |
| Response.FormatIgnoresSecrets | src/utils/response.ts:5-13 | records that agree on name, email, role and verification status project identically, so no password, token or expiry reaches the client |
| Response.FormatDeterminesVisibleFields | src/utils/response.ts:5-13 | equal projections mean equal name, email, role and verification status |
| Response.ViewOf | src/controllers/adminController.ts:15-16 | the admin view carries the id and every stored field except the password hash, the reset token and the refresh token, each unchanged |
| Response.ViewIgnoresSecrets | src/controllers/adminController.ts:16 | the admin view never depends on the password, the refresh token or the reset token |
| Response.RefreshCookie | src/utils/response.ts:17-27 | the cookie is "refreshToken", carries the token, is httpOnly and sameSite "strict" with max age 604,800,000 ms, and is secure exactly under NODE_ENV "production" |
| Response.ClearRemovesWhatSetWrites | src/utils/response.ts:17-33 | clearing removes the cookie name that setting writes |
| Errors.AppError | src/middleware/errorHandler.ts:3-14 | an `AppError` keeps its message and status and is operational |
| Errors.LastOverride | src/middleware/errorHandler.ts:31-59 | a replacement is made exactly when one of the five checks applies |
| Errors.UnfoldLastOverride | src/middleware/errorHandler.ts:31-59 | the checks are read last to first: TokenExpired, JsonWebToken, Validation, duplicate key, Cast |
| Errors.ErrorHandler | src/middleware/errorHandler.ts:18-66 | running the `if` chain over a working copy gives the reply of the last matching check (status 500 when there is none, "Server Error" for an empty message), with the stack exactly under NODE_ENV "development" |
| Errors.LaterCheckWins | src/middleware/errorHandler.ts:31-59 | whenever a check applies, the final replacement comes from that check or a later one |
| Errors.ReplyStatus | src/middleware/errorHandler.ts:61-63 | the status is never 0: one of 400/401/404 from the table, or the error's own status, or 500 |
| Errors.AppErrorPassesThrough | src/middleware/errorHandler.ts:61-65 | an `AppError` with a message and status reaches the client unchanged with `success: false` |
| Errors.DuplicateOverridesCast | src/middleware/errorHandler.ts:31-40 | an error that is both a cast error and a duplicate key is reported as a duplicate (400) |
| Errors.ValidationErrorReply | src/middleware/errorHandler.ts:43-48 | a validation error answers 400 with its sub-messages joined by ", " |
| Errors.NotFound | src/middleware/errorHandler.ts:79-86 | the not-found error has status 404 and a message ending with the URL |
| Errors.NotFoundReply | src/middleware/errorHandler.ts:79-86 | an unknown route answers 404 "Route not found - <url>" |
| Middleware.ExtractBearer | src/middleware/auth.ts:15-20 | a token is extracted only from a header starting with "Bearer", and it is non-empty and has no space |
| Middleware.BearerFirstField | src/middleware/auth.ts:15-20 | after "Bearer " the token is the first space-separated field of the rest, or none when that field is empty |
| Middleware.BearerRoundTrip | src/middleware/auth.ts:15-20 | `Bearer <t>` yields exactly `t` |
| Middleware.BearerIgnoresTrailingFields | src/middleware/auth.ts:19 | fields after the second space are ignored |
| Middleware.Protect | src/middleware/auth.ts:7-35 | a request passes exactly when a token is extracted and verifies under the access secret, with `req.user` set to its payload; otherwise 401, with no cookie change |
| Middleware.ProtectAcceptsAccessToken | src/middleware/auth.ts:27-31 | a live access token as `Bearer <t>` passes as its user |
| Middleware.ProtectRejectsRefreshToken | src/middleware/auth.ts:27-34 | a refresh token is refused with 401 "Not authorized, invalid token" when the secrets differ |
| Middleware.CheckSession | src/middleware/checkSession.ts:9-40 | calls `next` exactly when there is a caller whose record exists and holds a non-empty refresh token; otherwise 401, 404, 401 "Session expired", or 500 for an id that does not cast. It never throws |
| Middleware.Authorize | src/middleware/auth.ts:38-65 | calls `next` exactly when the caller's stored role is in the list; 403 for a found user with another role; throws exactly for an id that does not cast |
| Handlers.Raise | src/controllers/authController.ts:80-82 | `next(error)` stores nothing more and sends no mail |
| AuthController.RegisteredUserToken | src/controllers/authController.ts:59-65 | the saved record's verification token verifies, throughout its 24 hours, to the real id and the stored email; every other field is as created |
| AuthController.RegisterTakenEmail | src/controllers/authController.ts:36-39 | a taken email answers 400 "User already exists", stores nothing and sends nothing |
| AuthController.RegisterCreates | src/controllers/authController.ts:41-79 | a successful registration answers 201 with the success message and the new user's public projection, and inserts exactly one record: unverified, role "user", the schema defaults, a 24-hour verification window and the real token, which is also the one emailed. Emails stay unique |
| AuthController.RegisteredTokenIsNotPlaceholder | src/controllers/authController.ts:45-64 | the stored token is never the "temp" placeholder's |
| AuthController.RegisterIgnoresMailFailure | src/controllers/authController.ts:67-79 | a failed verification email does not change registration |
| AuthController.LoginOutcomes | src/controllers/authController.ts:100-119 | 200 exactly for a known email with the right password and a verified account. An unknown email and a wrong password get the same 401 and store nothing. An unverified account with the right password gets 403 and stores nothing |
| AuthController.LoginStoresSession | src/controllers/authController.ts:121-138 | a successful login stores exactly the new refresh token, sets it as the cookie, and returns an access token for the same id together with the user's public projection |
| AuthController.RefreshRejects | src/controllers/authController.ts:151-169 | 401 with nothing stored for a missing cookie, a token failing the refresh secret, a vanished user, or a stored token that differs |
| AuthController.RefreshRotates | src/controllers/authController.ts:166-185 | a successful refresh presented the stored token, answers with the access token minted for that user at `now`, and replaces exactly that stored token with the new one, which becomes the cookie |
| AuthController.RefreshIssuesAccessToken | src/controllers/authController.ts:143-185 | the access token a successful refresh returns verifies under the access secret to the refreshed user's id |
| AuthController.LogoutRevokes | src/controllers/authController.ts:199-213 | logout nulls only the caller's refresh token, changes no other field or user, and clears the cookie |
| AuthController.GetMe | src/controllers/authController.ts:220-245 | the current-user query stores nothing |
| AuthController.GetMeOutcomes | src/controllers/authController.ts:220-245 | no caller gives 401 "Not authorized"; an id that does not cast gives 404 "Resource not found"; a vanished user gives 404 "User not found"; otherwise 200 with the caller's public projection; nothing is stored or mailed |
| PasswordController.WithResetLinkToken | src/controllers/passwordController.ts:36-42 | the stored reset token verifies, throughout its hour, to the user's id and email; its expiry is one hour after `now`; both are set together and nothing else changes |
| PasswordController.ForgotUnknownEmail | src/controllers/passwordController.ts:26-34 | an unknown email is refused with 400 and nothing is stored or sent |
| PasswordController.ForgotKnownEmail | src/controllers/passwordController.ts:36-60 | the reset link is stored and mailed. If the mail fails, both reset fields are cleared together and the reply is 500 |
| PasswordController.ResetRejects | src/controllers/passwordController.ts:82-100 | 400 for a token that fails verification and 401 when no record holds it live under its id and email; neither changes anything |
| PasswordController.ResetSucceeds | src/controllers/passwordController.ts:102-119 | a reset stores the new hash and clears both reset fields and the refresh token, and changes nothing else |
| PasswordController.ChangePasswordOutcomes | src/controllers/passwordController.ts:131-166 | 401 without a caller, 404 for a vanished one, 400 "Current password is incorrect" on a mismatch. On success only the hash changes and the refresh token survives |
| VerificationController.VerifyRejects | src/controllers/verificationController.ts:32-52 | 400 for a token failing verification and 400 for one no record holds live under its id and email; nothing changes |
| VerificationController.VerifyMatched | src/controllers/verificationController.ts:55-63 | an already verified match gets 400 "Email already verified" and nothing changes. Otherwise the user becomes verified and both verification fields are cleared together |
| VerificationController.VerifyIgnoresWelcomeFailure | src/controllers/verificationController.ts:66-76 | a failed welcome email changes neither the reply nor the collection |
| VerificationController.ResendOutcomes | src/controllers/verificationController.ts:100-134 | an unknown email gets the generic 200 and a verified user 400, both changing nothing. An unverified user gets a new token and a 24-hour expiry, kept even when the mail fails (then 500) |
| AdminController.GetUserById | src/controllers/adminController.ts:30-51 | stores nothing; answers 200 with the record's admin view exactly when the id names a record, 404 "User not found" for a missing record and 404 "Resource not found" for an id that does not cast |
| AdminController.UpdateRoleChecksRoleFirst | src/controllers/adminController.ts:60-68 | a missing or unknown role gets 400 before any lookup, whatever the target, and nothing changes |
| AdminController.UpdateRoleOutcomes | src/controllers/adminController.ts:70-93 | 404 "Resource not found" for a target id that does not cast, 404 for an unknown target and 400 "Cannot change your own role" for the caller; otherwise only the target's role changes |
| AdminController.DeleteUserOutcomes | src/controllers/adminController.ts:109-124 | 404 "Resource not found" for a target id that does not cast, 404 for an unknown target and 400 for the caller's own record; otherwise exactly the target is removed and every other record stays |
| AdminController.UserStats | src/controllers/adminController.ts:141-159 | each count is the size of its set: all users, the admins, the regular users, and the users created since `recentSince`; the admins and the regular users add up to all users, and the recent ones are no more than all |
| AdminController.InsertKeepsOrder | src/controllers/adminController.ts:17 | inserting a view after every newer one keeps the list newest first |
| AdminController.InsertKeepsViews | src/controllers/adminController.ts:15-16 | inserting the projection of a user not yet listed keeps a listing of distinct stored users |
| AdminController.InsertAddsId | src/controllers/adminController.ts:15 | the insertion adds exactly that user's id |
| AdminController.ListUsers | src/controllers/adminController.ts:15-17 | the listing holds every user exactly once, projected without secrets, newest first |
| AdminController.GetAllUsers | src/controllers/adminController.ts:9-27 | 200 with `count` equal to the number of users and the listing above |
| Routes.Admit | src/routes/admin.ts:17 | a request reaches its handler exactly when `protect` passes, `checkSession` passes, and, on admin routes, `authorize("admin")` passes; the handler sees the token's payload |
| Integrity.SaveKeepsRecords | src/models/user.ts:17-72 | saving a well-formed record under an ObjectId string keeps every record well formed |
| Integrity.SaveKeepsWellFormed | src/models/user.ts:17-72 | re-saving a loaded record with its name and email unchanged, its links paired, a hash as password and no verification link once verified keeps the collection well formed |
| Integrity.RegisterSaves | src/controllers/authController.ts:50-65 | registration either stores nothing or inserts one well-formed record under a fresh id with an email no other record has |
| Integrity.RegisterKeepsWellFormed | src/controllers/authController.ts:21-83 | registration keeps the collection well formed |
| Integrity.LoginSaves | src/controllers/authController.ts:124-126 | login either stores nothing or only the caller's new refresh token |
| Integrity.LoginKeepsWellFormed | src/controllers/authController.ts:86-142 | login keeps the collection well formed |
| Integrity.RefreshSaves | src/controllers/authController.ts:176-178 | refresh either stores nothing or only the user's rotated refresh token |
| Integrity.RefreshKeepsWellFormed | src/controllers/authController.ts:145-190 | refresh keeps the collection well formed |
| Integrity.LogoutSaves | src/controllers/authController.ts:205 | logout either stores nothing or only nulls the caller's refresh token |
| Integrity.LogoutKeepsWellFormed | src/controllers/authController.ts:194-217 | logout keeps the collection well formed |
| Integrity.ForgotPasswordSaves | src/controllers/passwordController.ts:36-51 | forgotPassword either stores nothing or changes only the reset fields of one record, which stay paired |
| Integrity.ForgotPasswordKeepsWellFormed | src/controllers/passwordController.ts:12-64 | forgotPassword keeps the collection well formed |
| Integrity.ResetPasswordSaves | src/controllers/passwordController.ts:102-113 | resetPassword either stores nothing or the new hash with both reset fields and the refresh token cleared |
| Integrity.ResetPasswordKeepsWellFormed | src/controllers/passwordController.ts:68-123 | resetPassword keeps the collection well formed |
| Integrity.ChangePasswordSaves | src/controllers/passwordController.ts:157-161 | changePassword either stores nothing or only the caller's new hash |
| Integrity.ChangePasswordKeepsWellFormed | src/controllers/passwordController.ts:126-170 | changePassword keeps the collection well formed |
| Integrity.VerifyEmailSaves | src/controllers/verificationController.ts:60-63 | verifyEmail either stores nothing, or verifies an unverified record that held the token and clears both verification fields |
| Integrity.VerifyEmailKeepsWellFormed | src/controllers/verificationController.ts:17-80 | verifyEmail keeps the collection well formed |
| Integrity.ResendVerificationSaves | src/controllers/verificationController.ts:119-126 | resendVerification either stores nothing or a new token and expiry for an unverified record |
| Integrity.ResendVerificationKeepsWellFormed | src/controllers/verificationController.ts:87-144 | resendVerification keeps the collection well formed |
| Integrity.UpdateUserRoleSaves | src/controllers/adminController.ts:70-82 | updateUserRole either stores nothing or only a new role for a record other than the caller's |
| Integrity.UpdateUserRoleKeepsWellFormed | src/controllers/adminController.ts:54-97 | updateUserRole keeps the collection well formed |
| Integrity.DeleteUserSaves | src/controllers/adminController.ts:109-119 | deleteUser either stores nothing or removes one existing record other than the caller's |
| Integrity.DeleteUserKeepsWellFormed | src/controllers/adminController.ts:103-128 | deleteUser keeps the collection well formed |
| Integrity.ServedKeepsWellFormed | src/routes/admin.ts:17 | every protected request, whichever gate or handler answers it, keeps the collection well formed |
| Lifecycle.RegisteredUserMustVerify | src/controllers/authController.ts:50-119 | right after registering, login with the right password gets 403 and any other password 401, and neither stores anything |
| Lifecycle.RefreshTokenSingleUse | src/controllers/authController.ts:166-178 | once rotated in a later second than it was minted, a refresh token is refused with 401 and stores nothing. Rotated within the same second, the new token is the same text and the old one still rotates |
| Lifecycle.LogoutEndsSession | src/middleware/checkSession.ts:27-33 | after logout, `checkSession` answers 401 "Session expired. Please login again", every protected route is refused with that reply, and a refresh of the caller's record no longer succeeds |
| Lifecycle.ResetEndsSessionsAndLink | src/controllers/passwordController.ts:91-113 | after a reset the stored hash accepts exactly the new password, `checkSession` refuses the user, no refresh of the record succeeds, and the same link fails a second time without changing anything |
| Lifecycle.VerificationLinkSingleUse | src/controllers/verificationController.ts:43-63 | presenting a used verification link again gets 400 "Invalid or expired verification token" and changes nothing |
| Lifecycle.ResendRetiresOldLink | src/controllers/verificationController.ts:119-126 | after a resend, an earlier link that differs from the new one leaves the record as stored and unverified |
| Lifecycle.SessionsDecideCheck | src/middleware/checkSession.ts:20-35 | `checkSession` depends only on which ids exist and on their refresh tokens |
| Lifecycle.SessionsDecideRefresh | src/controllers/authController.ts:166-169 | the refresh reply depends only on which ids exist and on their refresh tokens |
| Lifecycle.ChangePasswordKeepsSessions | src/controllers/passwordController.ts:157-161 | after changePassword, `checkSession` and refresh answer every later request as before |
| Lifecycle.RoleChangeTakesEffect | src/middleware/auth.ts:49-56 | after a role update, the target passes `authorize("admin")` exactly when the new role is admin, and its session check is unchanged |
| Lifecycle.AdminKeepsOwnRole | src/controllers/adminController.ts:76-79 | an admin cannot change their own stored record through updateUserRole, so their passage through `authorize` stays as it was |
| Lifecycle.AdminKeepsOwnAccount | src/controllers/adminController.ts:115-117 | an admin cannot delete their own record, so their passage through `authorize` stays as it was |
| Lifecycle.LinkTokensPassProtect | src/utils/token.ts:59-98 | a live reset or verification token sent as `Bearer <t>` passes `protect` as its user, with the email in the payload |
| AuthService.AuthSystem.Save | src/controllers/authController.ts:65 | `save()` stores the document under its id and changes nothing else |
| AuthService.AuthSystem.Register | src/controllers/authController.ts:21-83 | the in-place registration gives exactly `AuthController.Register`'s reply, collection and mail, and keeps emails unique |
| AuthService.AuthSystem.Insert | src/controllers/authController.ts:50-65 | create-then-save of the real token gives exactly `AuthController.Insert`'s outcome |
| AuthService.AuthSystem.Login | src/controllers/authController.ts:86-142 | the in-place login gives exactly `AuthController.Login`'s outcome and keeps emails unique |
| AuthService.AuthSystem.Refresh | src/controllers/authController.ts:145-190 | the in-place rotation gives exactly `AuthController.Refresh`'s outcome |
| AuthService.AuthSystem.Logout | src/controllers/authController.ts:194-217 | `findByIdAndUpdate` gives exactly `AuthController.Logout`'s outcome |
| AuthService.AuthSystem.GetMe | src/controllers/authController.ts:220-245 | answers as `AuthController.GetMe` and stores nothing |
| AuthService.AuthSystem.ForgotPassword | src/controllers/passwordController.ts:12-64 | set, save, and on mail failure clear and save again: gives exactly `PasswordController.ForgotPassword`'s outcome |
| AuthService.AuthSystem.ResetPassword | src/controllers/passwordController.ts:68-123 | the in-place reset gives exactly `PasswordController.ResetPassword`'s outcome |
| AuthService.AuthSystem.ChangePassword | src/controllers/passwordController.ts:126-170 | the in-place change gives exactly `PasswordController.ChangePassword`'s outcome |
| AuthService.AuthSystem.VerifyEmail | src/controllers/verificationController.ts:17-80 | the in-place verification gives exactly `VerificationController.VerifyEmail`'s outcome |
| AuthService.AuthSystem.ResendVerification | src/controllers/verificationController.ts:87-144 | the in-place resend gives exactly `VerificationController.ResendVerification`'s outcome |
| AuthService.AuthSystem.GetUserById | src/controllers/adminController.ts:30-51 | answers as `AdminController.GetUserById` and stores nothing |
| AuthService.AuthSystem.UpdateUserRole | src/controllers/adminController.ts:54-97 | the in-place role change gives exactly `AdminController.UpdateUserRole`'s outcome |
| AuthService.AuthSystem.DeleteUser | src/controllers/adminController.ts:103-128 | `deleteOne()` gives exactly `AdminController.DeleteUser`'s outcome |
| AuthService.AuthSystem.Serve | src/routes/auth.ts:87-97 | a protected request runs the gate chain and then the handler, with an outcome satisfying `Routes.Served`, and keeps emails unique |

## Left out

- Email transport (nodemailer, the templates of src/utils/email.ts) is not part of this model. Each send is a `mailDelivered` flag; the email a handler asks for is recorded in the `Step`.
- bcrypt salts, the work factor and one-wayness: `Hash` is an injective stand-in, and `compare` is equality with it.
- Credentials.MatchesOnlyItsPassword: the stand-in hash is injective, while bcryptjs hashes only the first 72 bytes of a password, so two passwords that share those bytes both match; the truncation is not modelled.
- JSON Web Token cryptography, base64url and the parsing of "15m"/"7d": a token is a `Signed(secret, payload, iat, exp)` value, and its text comes from an abstract codec. That codec is assumed to round-trip and to produce non-empty text without spaces (`ValidCodec`).
- MongoDB and Mongoose: the collection is a map and every request is atomic. The non-atomic read-compare-save of refresh and the other handlers is a concurrency question not modelled. Neither are database failures other than cast errors and duplicate keys.
- ObjectIds are their 24-hex-digit string form. The 12-byte string form that Mongoose also casts is not modelled.
- The express-validator rule lists in src/routes/auth.ts: their outcome is the `inputErrors` parameter, and `normalizeEmail()`'s own rewriting of an address (for example removing dots from Gmail local parts) is not modelled; the handler receives its result. The rate limiter, the logger, the server start-up and the reading of environment variables (other than NODE_ENV) are not part of this model.
- Unicode: `trim` removes the listed white-space characters, and lower-casing covers ASCII letters only.
- Calendar arithmetic of the thirty-day window in getUserStats: the threshold is the `recentSince` parameter.
- Mongoose re-validation on `save()`: the model validates on create. `Integrity` proves that every later save keeps the schema constraints anyway.
- Non-string `role` values in updateUserRole: the role is an optional string.
- resendVerification's outer `catch` (a 500 "Server error") cannot be reached in the model, because no database failure is modelled.
- The path where `authorize` throws for an id that does not cast cannot be reached through the chain, because `checkSession` has already answered such a request with 500 (`Routes.Admit`).
- AdminController.ListUsers: users created at the same instant may come in any order. The database's order among them is not modelled, so `Routes.Served` accepts any `IsListing` reply for the list route.
- AuthService.AuthSystem.Register: the class invariant `Valid()` is email uniqueness only. The full record invariant `Integrity.WellFormed` is proved about the controller functions, which the methods are proved equal to.
- Integrity.RegisterKeepsWellFormed: requires the assigned `newId` to be a canonical ObjectId string, as the database guarantees.
- Lifecycle.AdminKeepsOwnRole: requires the caller's token id to be the canonical string of a stored id, as every minted token carries. The handler compares raw strings, so an id written in upper-case hex would not be recognised as the caller's.
- Lifecycle.AdminKeepsOwnAccount: the same requirement on the caller's id as `Lifecycle.AdminKeepsOwnRole`.
- Lifecycle.RefreshTokenSingleUse: single use is stated under the hypothesis that the rotation falls in a later second than the minting. Within one second the minted text repeats, and the lemma proves that the old token then still rotates.

=== FILE: admin_controller.dfy ===
/**
 * The admin handlers: listing, reading, re-roling and deleting users, and
 * the user statistics.
 */
module AdminController {
  import opened Common
  import opened Token
  import opened UserModel
  import opened Store
  import opened Response
  import opened Errors
  import opened Handlers

  /** `updateUserRole` on the user named by the path parameter `targetId`;
    * `role` is `req.body.role` (`None` when absent). */
  function UpdateUserRole(env: Env, users: Users, reqUser: Option<Claims>, targetId: string,
                          role: Option<string>): Step
  {
    if role.None? || role.value == "" then Raise(env, users, AppError("Role is required", 400))
    else if ParseRole(role.value).None? then Answer(users, Send(400, Notice("Invalid role")))
    else
      match FindById(users, targetId)
      case CastFailure => Raise(env, users, CastError(targetId))
      case Missing => Raise(env, users, AppError("User not found", 404))
      case Found(id, u) =>
        if Some(id) == CallerId(reqUser) then Raise(env, users, AppError("Cannot change your own role", 400))
        else
          var u' := u.(role := ParseRole(role.value).value);
          Answer(users[id := u'],
                 Send(200, RoleUpdated("User role updated to " + role.value, RoleView(id, u'.name, u'.email, u'.role))))
  }

  /** `deleteUser` */
  function DeleteUser(env: Env, users: Users, reqUser: Option<Claims>, targetId: string): Step {
    match FindById(users, targetId)
    case CastFailure => Raise(env, users, CastError(targetId))
    case Missing => Raise(env, users, AppError("User not found", 404))
    case Found(id, _) =>
      if Some(id) == CallerId(reqUser) then Raise(env, users, AppError("Cannot delete your own account", 400))
      else Answer(users - {id}, Send(200, Done("User deleted successfully")))
  }

  /** `getUserById` */
  function GetUserById(env: Env, users: Users, targetId: string): (s: Step)
    ensures s.users == users
    ensures s.reply.status == 200 <==> FindById(users, targetId).Found?
    ensures match FindById(users, targetId)
      case CastFailure => s.reply == Send(404, Failed("Resource not found", env.nodeEnvVar == "development"))
      case Missing => s.reply == Send(404, Failed("User not found", env.nodeEnvVar == "development"))
      case Found(id, u) => s.reply == Send(200, OneUser(ViewOf(id, u)))
  {
    match FindById(users, targetId)
    case CastFailure =>
      UnfoldLastOverride(CastError(targetId));
      Raise(env, users, CastError(targetId))
    case Missing =>
      AppErrorPassesThrough("User not found", 404, env.nodeEnvVar);
      Raise(env, users, AppError("User not found", 404))
    case Found(id, u) => Answer(users, Send(200, OneUser(ViewOf(id, u))))
  }

  /** A missing, empty or unknown role is refused with 400 before any
    * lookup, whatever the target, and nothing changes. */
  lemma UpdateRoleChecksRoleFirst(env: Env, users: Users, reqUser: Option<Claims>, targetId: string,
                                  role: Option<string>)
    requires role.None? || (role.value != "user" && role.value != "admin")
    ensures var s := UpdateUserRole(env, users, reqUser, targetId, role);
      s.users == users && s.reply.status == 400 &&
      s.reply.body.message == (if role.None? || role.value == "" then "Role is required" else "Invalid role")
  {
    AppErrorPassesThrough("Role is required", 400, env.nodeEnvVar);
  }

  /** With a valid role: 404 "Resource not found" for a target id that does
    * not cast, 404 for an unknown target, 400 for the caller's own record;
    * otherwise only the target's role changes. */
  lemma UpdateRoleOutcomes(env: Env, users: Users, reqUser: Option<Claims>, targetId: string, role: Role)
    ensures var s := UpdateUserRole(env, users, reqUser, targetId, Some(RoleName(role)));
      (!IsObjectIdText(targetId) ==>
         s.reply == Send(404, Failed("Resource not found", env.nodeEnvVar == "development")) && s.users == users) &&
      (IsObjectIdText(targetId) ==>
         var id := CanonicalId(targetId);
         (id !in users ==> s.reply.status == 404 && s.users == users) &&
         (id in users && CallerId(reqUser) == Some(id) ==>
            s.reply.status == 400 && s.reply.body.message == "Cannot change your own role" && s.users == users) &&
         (id in users && CallerId(reqUser) != Some(id) ==>
            s.reply.status == 200 && s.users == users[id := users[id].(role := role)]))
  {
    UnfoldLastOverride(CastError(targetId));
    AppErrorPassesThrough("User not found", 404, env.nodeEnvVar);
    AppErrorPassesThrough("Cannot change your own role", 400, env.nodeEnvVar);
  }

  /** deleteUser: 404 "Resource not found" for a target id that does not
    * cast, 404 for an unknown target, 400 for the caller's own record;
    * otherwise exactly the target is removed and every other user stays as
    * it was. */
  lemma DeleteUserOutcomes(env: Env, users: Users, reqUser: Option<Claims>, targetId: string)
    ensures var s := DeleteUser(env, users, reqUser, targetId);
      (!IsObjectIdText(targetId) ==>
         s.reply == Send(404, Failed("Resource not found", env.nodeEnvVar == "development")) && s.users == users) &&
      (IsObjectIdText(targetId) ==>
         var id := CanonicalId(targetId);
         (id !in users ==> s.reply.status == 404 && s.users == users) &&
         (id in users && CallerId(reqUser) == Some(id) ==>
            s.reply.status == 400 && s.reply.body.message == "Cannot delete your own account" && s.users == users) &&
         (id in users && CallerId(reqUser) != Some(id) ==>
            s.reply.status == 200 && s.users.Keys == users.Keys - {id} &&
            forall other :: other in s.users ==> s.users[other] == users[other]))
  {
    UnfoldLastOverride(CastError(targetId));
    AppErrorPassesThrough("User not found", 404, env.nodeEnvVar);
    AppErrorPassesThrough("Cannot delete your own account", 400, env.nodeEnvVar);
  }

  /** The ids of the users with a given role. */
  function WithRole(users: Users, r: Role): set<string> {
    set id | id in users && users[id].role == r
  }

  /** The ids of the users created at or after `since`. */
  function CreatedSince(users: Users, since: int): set<string> {
    set id | id in users && users[id].createdAt >= since
  }

  /** `getUserStats`; `recentSince` is the instant thirty days before the request. */
  function UserStats(users: Users, recentSince: int): (s: Stats)
    ensures s.totalUsers == |users|
    ensures s.adminUsers == |WithRole(users, AdminRole)| && s.regularUsers == |WithRole(users, UserRole)|
    ensures s.recentUsers == |CreatedSince(users, recentSince)|
    ensures s.adminUsers + s.regularUsers == s.totalUsers
    ensures s.recentUsers <= s.totalUsers
  {
    var admins := WithRole(users, AdminRole);
    var regular := WithRole(users, UserRole);
    var recent := CreatedSince(users, recentSince);
    assert admins + regular == users.Keys;
    assert admins * regular == {};
    assert recent <= users.Keys;
    SubsetCardinality(recent, users.Keys);
    Stats(|users|, |admins|, |regular|, |recent|)
  }

  lemma {:induction false} SubsetCardinality<T>(a: set<T>, b: set<T>)
    requires a <= b
    ensures |a| <= |b|
    decreases |b|
  {
    if a != {} {
      var x :| x in a;
      SubsetCardinality(a - {x}, b - {x});
    }
  }

  function GetUserStats(users: Users, recentSince: int): Reply {
    Send(200, Statistics(UserStats(users, recentSince)))
  }

  // ---- getAllUsers ----

  /** Newest first. */
  predicate NewestFirst(vs: seq<UserView>) {
    forall i, j :: 0 <= i < j < |vs| ==> vs[i].createdAt >= vs[j].createdAt
  }

  /** Each view is the projection of the stored user it names, and no user
    * appears twice. */
  predicate ViewsOf(users: Users, vs: seq<UserView>) {
    (forall i :: 0 <= i < |vs| ==> vs[i].id in users && vs[i] == ViewOf(vs[i].id, users[vs[i].id])) &&
    (forall i, j :: 0 <= i < j < |vs| ==> vs[i].id != vs[j].id)
  }

  function Ids(vs: seq<UserView>): set<string> {
    set i | 0 <= i < |vs| :: vs[i].id
  }

  /** Inserting `v` at a position after every newer view and before every
    * other keeps the list newest first. */
  lemma InsertKeepsOrder(vs: seq<UserView>, k: nat, v: UserView)
    requires NewestFirst(vs) && k <= |vs|
    requires forall i :: 0 <= i < k ==> vs[i].createdAt > v.createdAt
    requires k < |vs| ==> vs[k].createdAt <= v.createdAt
    ensures NewestFirst(vs[..k] + [v] + vs[k..])
  {
    var r := vs[..k] + [v] + vs[k..];
    forall i, j | 0 <= i < j < |r| ensures r[i].createdAt >= r[j].createdAt {
      if j < k {
        assert r[i] == vs[i] && r[j] == vs[j];
      } else if j == k {
        assert r[i] == vs[i];
      } else if i < k {
        assert r[i] == vs[i] && r[j] == vs[j - 1];
      } else if i == k {
        assert r[j] == vs[j - 1];
      } else {
        assert r[i] == vs[i - 1] && r[j] == vs[j - 1];
      }
    }
  }

  /** Inserting the projection of a user not yet listed keeps the list a
    * listing of distinct users. */
  lemma InsertKeepsViews(users: Users, vs: seq<UserView>, k: nat, v: UserView)
    requires ViewsOf(users, vs) && k <= |vs|
    requires v.id in users && v == ViewOf(v.id, users[v.id]) && v.id !in Ids(vs)
    ensures ViewsOf(users, vs[..k] + [v] + vs[k..])
  {
    var r := vs[..k] + [v] + vs[k..];
    assert forall i :: 0 <= i < |r| ==> r[i] == (if i < k then vs[i] else if i == k then v else vs[i - 1]);
    forall i | 0 <= i < |vs| ensures vs[i].id in Ids(vs) { }
  }

  /** ... and adds exactly that user's id. */
  lemma InsertAddsId(vs: seq<UserView>, k: nat, v: UserView)
    requires k <= |vs|
    ensures Ids(vs[..k] + [v] + vs[k..]) == Ids(vs) + {v.id}
  {
    var r := vs[..k] + [v] + vs[k..];
    forall x | x in Ids(vs) ensures x in Ids(r) {
      var i :| 0 <= i < |vs| && vs[i].id == x;
      if i < k { assert r[i] == vs[i]; } else { assert r[i + 1] == vs[i]; }
    }
    forall x | x in Ids(r) ensures x in Ids(vs) + {v.id} {
      var i :| 0 <= i < |r| && r[i].id == x;
      if i < k { assert r[i] == vs[i]; } else if i > k { assert r[i] == vs[i - 1]; }
    }
    assert r[k] == v;
  }

  /** Moving one id from the pending set to the listed set keeps the two a
    * partition of all ids. */
  lemma MoveToListed(listed: set<string>, pending: set<string>, id: string, all: set<string>)
    requires listed !! pending && listed + pending == all && id in pending
    ensures (listed + {id}) !! (pending - {id}) && (listed + {id}) + (pending - {id}) == all
    ensures |pending - {id}| == |pending| - 1
  {
  }

  /** `getAllUsers`: every user once, projected, newest first (the order of
    * users created at the same instant is the database's). */
  method ListUsers(users: Users) returns (vs: seq<UserView>)
    ensures NewestFirst(vs) && ViewsOf(users, vs)
    ensures Ids(vs) == users.Keys && |vs| == |users|
  {
    vs := [];
    var pending := users.Keys;
    while pending != {}
      invariant pending <= users.Keys
      invariant NewestFirst(vs) && ViewsOf(users, vs)
      invariant Ids(vs) !! pending && Ids(vs) + pending == users.Keys
      invariant |vs| + |pending| == |users|
      decreases |pending|
    {
      var id :| id in pending;
      var v := ViewOf(id, users[id]);
      var k := 0;
      while k < |vs| && vs[k].createdAt > v.createdAt
        invariant k <= |vs|
        invariant forall i :: 0 <= i < k ==> vs[i].createdAt > v.createdAt
      {
        k := k + 1;
      }
      assert v.id == id && id !in Ids(vs);
      InsertKeepsOrder(vs, k, v);
      InsertKeepsViews(users, vs, k, v);
      InsertAddsId(vs, k, v);
      MoveToListed(Ids(vs), pending, id, users.Keys);
      vs := vs[..k] + [v] + vs[k..];
      pending := pending - {id};
    }
  }

  /** A reply `getAllUsers` may send: 200 with every user once, projected,
    * newest first, and `count` the number of users. */
  predicate IsListing(users: Users, reply: Reply) {
    reply == Send(200, reply.body) && reply.body.UserList? &&
    reply.body.count == |users| == |reply.body.users| &&
    NewestFirst(reply.body.users) && ViewsOf(users, reply.body.users) && Ids(reply.body.users) == users.Keys
  }

  /** `getAllUsers` */
  method GetAllUsers(users: Users) returns (reply: Reply)
    ensures reply.status == 200 && reply.body.UserList?
    ensures reply.body.count == |users| == |reply.body.users|
    ensures NewestFirst(reply.body.users) && ViewsOf(users, reply.body.users)
    ensures Ids(reply.body.users) == users.Keys
    ensures IsListing(users, reply)
  {
    var vs := ListUsers(users);
    reply := Send(200, UserList(|vs|, vs));
  }
}

=== FILE: auth_controller.dfy ===
/**
 * Registration, login, refresh-token rotation, logout and the current-user
 * query, each as the request it answers and the collection it leaves.
 */
module AuthController {
  import opened Common
  import opened Text
  import opened Token
  import opened Credentials
  import opened UserModel
  import opened Store
  import opened Response
  import opened Errors
  import opened Handlers

  const RegisteredMessage := "Registration successful! Please check your email to verify your account."
  const UnverifiedMessage := "Please verify your email before logging in"

  /** The record `register` inserts: the validated schema record with the
    * verification token minted for its real id and stored email. */
  function RegisteredUser(env: Env, created: User, newId: string, now: int): User {
    created.(verificationToken := Some(GenerateVerificationToken(env.keys, newId, created.email, now)))
  }

  /** `register`. `newId` is the ObjectId the database assigns; `mailDelivered`
    * says whether the verification email went out. */
  function Register(env: Env, users: Users, inputErrors: seq<string>, name: string, email: string,
                    password: string, newId: string, now: int, mailDelivered: bool): Step
    requires EmailsUnique(users)
  {
    if inputErrors != [] then Rejected(users, inputErrors)
    else if FindByEmail(users, email).Some? then Raise(env, users, AppError("User already exists", 400))
    else
      var tempToken := GenerateVerificationToken(env.keys, "temp", email, now);
      match CreateUser(NewUser(name, email, Hash(password), tempToken, now + VerificationWindow), now)
      case Err(messages) => Raise(env, users, ValidationError(messages))
      case Ok(created) => Insert(env, users, created, newId, now)
  }

  /** `User.create` of a validated record under the id the database
    * assigns (a duplicate `_id` fails with a duplicate key error), then the
    * real verification token stored and emailed. */
  function Insert(env: Env, users: Users, created: User, newId: string, now: int): Step {
    if newId in users then Raise(env, users, DuplicateKeyError())
    else
      var u := RegisteredUser(env, created, newId, now);
      Step(Send(201, Registered(RegisteredMessage, FormatUserResponse(newId, u))),
           users[newId := u], Some(VerificationMail(u.email, u.verificationToken.value)))
  }

  /** `login` */
  function Login(env: Env, users: Users, inputErrors: seq<string>, email: string, password: string, now: int): Step
    requires EmailsUnique(users)
  {
    if inputErrors != [] then Rejected(users, inputErrors)
    else
      match FindByEmail(users, email)
      case None => Raise(env, users, AppError("Invalid credentials", 401))
      case Some(id) =>
        var u := users[id];
        if !Matches(password, u.password) then Raise(env, users, AppError("Invalid credentials", 401))
        else if !u.isVerified then Answer(users, Send(403, Unverified(UnverifiedMessage)))
        else
          var pair := GenerateTokens(env.keys, id, now);
          var u' := u.(refreshToken := Some(pair.refreshToken));
          Step(Reply(200, LoggedIn(pair.accessToken, FormatUserResponse(id, u')),
                     SetRefreshCookie(env.nodeEnvVar, pair.refreshToken)),
               users[id := u'], None)
  }

  /** `refreshToken`: rotate a refresh token presented in the cookie. */
  function Refresh(env: Env, users: Users, cookie: Option<string>, now: int): Step {
    if cookie.None? || cookie.value == "" then Raise(env, users, AppError("Refresh token not found", 401))
    else
      match VerifyRefreshToken(env.keys, cookie.value, now)
      case Err(_) => Raise(env, users, AppError("Invalid refresh token", 401))
      case Ok(claims) =>
        match FindById(users, claims.id)
        case CastFailure => Raise(env, users, CastError(claims.id))
        case Missing => Raise(env, users, AppError("Invalid refresh token", 401))
        case Found(id, u) =>
          if u.refreshToken != Some(cookie.value) then Raise(env, users, AppError("Invalid refresh token", 401))
          else
            var pair := GenerateTokens(env.keys, id, now);
            Step(Reply(200, Refreshed(pair.accessToken), SetRefreshCookie(env.nodeEnvVar, pair.refreshToken)),
                 users[id := u.(refreshToken := Some(pair.refreshToken))], None)
  }

  /** `logout`: `findByIdAndUpdate` nulls the refresh token of the caller, if
    * the caller still exists. */
  function Logout(env: Env, users: Users, reqUser: Option<Claims>): Step {
    if reqUser.None? then Raise(env, users, AppError("Not authorized", 401))
    else
      match FindById(users, reqUser.value.id)
      case CastFailure => Raise(env, users, CastError(reqUser.value.id))
      case Missing => Step(Reply(200, Done("Logged out successfully"), ClearRefreshCookie()), users, None)
      case Found(id, u) =>
        Step(Reply(200, Done("Logged out successfully"), ClearRefreshCookie()),
             users[id := u.(refreshToken := None)], None)
  }

  /** `getMe` */
  function GetMe(env: Env, users: Users, reqUser: Option<Claims>): (s: Step)
    ensures s.users == users
  {
    if reqUser.None? then Raise(env, users, AppError("Not authorized", 401))
    else
      match FindById(users, reqUser.value.id)
      case CastFailure => Raise(env, users, CastError(reqUser.value.id))
      case Missing => Raise(env, users, AppError("User not found", 404))
      case Found(id, u) => Answer(users, Send(200, Me(FormatUserResponse(id, u))))
  }

  // ---- properties of one request ----

  /** The re-minted token verifies, for the whole 24 hours, to the real id
    * and the stored email; every other field is as `User.create` left it. */
  lemma RegisteredUserToken(env: Env, created: User, newId: string, now: int, later: int)
    requires ValidCodec(env.keys.codec)
    requires later / 1000 < now / 1000 + VerificationTokenTtl
    ensures var u := RegisteredUser(env, created, newId, now);
      u.verificationToken.Some? &&
      VerifyVerificationToken(env.keys, u.verificationToken.value, later) == Ok(Claims(newId, Some(created.email))) &&
      u.(verificationToken := created.verificationToken) == created
  {
    GeneratedTokensRoundTrip(env.keys, newId, created.email, now, later);
  }

  /** Registering an email that is already taken answers 400 and stores nothing. */
  lemma RegisterTakenEmail(env: Env, users: Users, name: string, email: string, password: string,
                           newId: string, now: int, mailDelivered: bool)
    requires EmailsUnique(users)
    requires exists id :: id in users && users[id].email == Normalize(email)
    ensures var s := Register(env, users, [], name, email, password, newId, now, mailDelivered);
      s.users == users && s.mail.None? &&
      s.reply == ErrorReply(AppError("User already exists", 400), env.nodeEnvVar) && s.reply.status == 400
  {
    var id :| id in users && users[id].email == Normalize(email);
    FindByEmailUnique(users, email, id);
    AppErrorPassesThrough("User already exists", 400, env.nodeEnvVar);
  }

  /** A successful registration inserts one unverified user with the schema
    * defaults, a 24-hour verification window, and the token minted for its
    * real id and stored email, which is also the one emailed. */
  lemma RegisterCreates(env: Env, users: Users, name: string, email: string, password: string,
                        newId: string, now: int, mailDelivered: bool)
    requires EmailsUnique(users)
    requires FindByEmail(users, email).None? && newId !in users
    requires Trim(name) != "" && IsValidEmail(Normalize(email))
    ensures var s := Register(env, users, [], name, email, password, newId, now, mailDelivered);
      var token := GenerateVerificationToken(env.keys, newId, Normalize(email), now);
      s.reply.status == 201 && newId in s.users && s.users == users[newId := s.users[newId]] &&
      s.reply.body == Registered(RegisteredMessage, FormatUserResponse(newId, s.users[newId])) &&
      s.users[newId] == User(Trim(name), Normalize(email), Hash(password), UserRole, None, None, None, false,
                             Some(token), Some(now + VerificationWindow), now) &&
      s.mail == Some(VerificationMail(Normalize(email), token)) &&
      EmailsUnique(s.users)
  {
    var tempToken := GenerateVerificationToken(env.keys, "temp", email, now);
    var input := NewUser(name, email, Hash(password), tempToken, now + VerificationWindow);
    assert CreateUser(input, now).Ok?;
    InsertKeepsEmailsUnique(users, newId, RegisteredUser(env, CreateUser(input, now).value, newId, now));
  }

  /** The stored token is never the "temp" placeholder's: the payloads
    * differ, and the codec recovers the payload from the text. */
  lemma RegisteredTokenIsNotPlaceholder(env: Env, newId: string, email: string, stored: string, now: int)
    requires ValidCodec(env.keys.codec) && newId != "temp"
    ensures GenerateVerificationToken(env.keys, newId, stored, now) !=
            GenerateVerificationToken(env.keys, "temp", email, now)
  {
    var a := Signed(env.keys.jwtSecret, Claims(newId, Some(stored)), now / 1000, now / 1000 + VerificationTokenTtl);
    var b := Signed(env.keys.jwtSecret, Claims("temp", Some(email)), now / 1000, now / 1000 + VerificationTokenTtl);
    assert env.keys.codec.decode(env.keys.codec.encode(a)) == a;
    assert env.keys.codec.decode(env.keys.codec.encode(b)) == b;
  }

  /** Whether the verification email goes out has no effect on registration. */
  lemma RegisterIgnoresMailFailure(env: Env, users: Users, inputErrors: seq<string>, name: string,
                                   email: string, password: string, newId: string, now: int)
    requires EmailsUnique(users)
    ensures Register(env, users, inputErrors, name, email, password, newId, now, false) ==
            Register(env, users, inputErrors, name, email, password, newId, now, true)
  {
  }

  /** login succeeds exactly for a known email, the right password and a
    * verified account; an unknown email and a wrong password get the same
    * reply; an unverified account is told so only after its password
    * matched, and nothing is stored then. */
  lemma LoginOutcomes(env: Env, users: Users, email: string, password: string, now: int)
    requires EmailsUnique(users)
    ensures var s := Login(env, users, [], email, password, now);
      var found := FindByEmail(users, email);
      (s.reply.status == 200 <==>
         found.Some? && Matches(password, users[found.value].password) && users[found.value].isVerified) &&
      ((found.None? || !Matches(password, users[found.value].password)) ==>
         s.reply == ErrorReply(AppError("Invalid credentials", 401), env.nodeEnvVar) && s.users == users) &&
      (found.Some? && Matches(password, users[found.value].password) && !users[found.value].isVerified ==>
         s.reply == Send(403, Unverified(UnverifiedMessage)) && s.users == users)
  {
    AppErrorPassesThrough("Invalid credentials", 401, env.nodeEnvVar);
  }

  /** A login with a known email, its password and a verified account
    * succeeds: it stores a fresh refresh token for the user, sends it as the
    * cookie, and returns an access token for the same id. */
  lemma LoginStoresSession(env: Env, users: Users, email: string, password: string, now: int)
    requires EmailsUnique(users) && ValidCodec(env.keys.codec)
    requires var found := FindByEmail(users, email);
      found.Some? && Matches(password, users[found.value].password) && users[found.value].isVerified
    ensures var s := Login(env, users, [], email, password, now);
      var id := FindByEmail(users, email).value;
      var refresh := GenerateRefreshToken(env.keys, id, now);
      s.reply.status == 200 && s.reply.body.LoggedIn? &&
      s.users == users[id := users[id].(refreshToken := Some(refresh))] &&
      s.reply.body.user == FormatUserResponse(id, s.users[id]) &&
      s.reply.cookie == SetRefreshCookie(env.nodeEnvVar, refresh) &&
      VerifyAccessToken(env.keys, s.reply.body.token, now) == Ok(Claims(id, None)) &&
      EmailsUnique(s.users)
  {
    var id := FindByEmail(users, email).value;
    GenerateTokensSameUser(env.keys, id, now);
    UpdateKeepsEmailsUnique(users, id, users[id].(refreshToken := Some(GenerateRefreshToken(env.keys, id, now))));
  }

  /** refresh answers 401 and stores nothing when the cookie is missing, when
    * the token fails the refresh secret, when its user is gone, or when the
    * stored token is a different one. */
  lemma RefreshRejects(env: Env, users: Users, cookie: Option<string>, now: int)
    requires cookie.None? || cookie.value == "" || VerifyRefreshToken(env.keys, cookie.value, now).Err? ||
      (var id := VerifyRefreshToken(env.keys, cookie.value, now).value.id;
       IsObjectIdText(id) && (CanonicalId(id) !in users || users[CanonicalId(id)].refreshToken != cookie))
    ensures var s := Refresh(env, users, cookie, now);
      s.reply.status == 401 && s.users == users && s.reply.cookie.KeepCookie?
  {
    AppErrorPassesThrough("Refresh token not found", 401, env.nodeEnvVar);
    AppErrorPassesThrough("Invalid refresh token", 401, env.nodeEnvVar);
  }

  /** A successful refresh answers with a new access token for the token's
    * user and replaces exactly that user's stored refresh token with the newly
    * minted one, which is also the new cookie. */
  lemma RefreshRotates(env: Env, users: Users, cookie: Option<string>, now: int)
    requires Refresh(env, users, cookie, now).reply.status == 200
    ensures cookie.Some? && VerifyRefreshToken(env.keys, cookie.value, now).Ok? &&
      IsObjectIdText(VerifyRefreshToken(env.keys, cookie.value, now).value.id)
    ensures var id := CanonicalId(VerifyRefreshToken(env.keys, cookie.value, now).value.id);
      var s := Refresh(env, users, cookie, now);
      var rotated := GenerateRefreshToken(env.keys, id, now);
      id in users && users[id].refreshToken == cookie &&
      s.users == users[id := users[id].(refreshToken := Some(rotated))] &&
      s.reply.body == Refreshed(GenerateAccessToken(env.keys, id, now)) &&
      s.reply.cookie == SetRefreshCookie(env.nodeEnvVar, rotated)
  {
    if cookie.None? || cookie.value == "" {
      AppErrorPassesThrough("Refresh token not found", 401, env.nodeEnvVar);
    } else if VerifyRefreshToken(env.keys, cookie.value, now).Err? {
      AppErrorPassesThrough("Invalid refresh token", 401, env.nodeEnvVar);
    } else {
      var claims := VerifyRefreshToken(env.keys, cookie.value, now).value;
      UnfoldLastOverride(CastError(claims.id));
      AppErrorPassesThrough("Invalid refresh token", 401, env.nodeEnvVar);
    }
  }
  /** The access token a successful refresh returns passes `protect`'s
    * verification as the refreshed user. */
  lemma RefreshIssuesAccessToken(env: Env, users: Users, cookie: Option<string>, now: int)
    requires ValidCodec(env.keys.codec)
    requires Refresh(env, users, cookie, now).reply.status == 200
    ensures cookie.Some? && VerifyRefreshToken(env.keys, cookie.value, now).Ok? &&
      IsObjectIdText(VerifyRefreshToken(env.keys, cookie.value, now).value.id)
    ensures var s := Refresh(env, users, cookie, now);
      s.reply.body.Refreshed? &&
      VerifyAccessToken(env.keys, s.reply.body.token, now) ==
        Ok(Claims(CanonicalId(VerifyRefreshToken(env.keys, cookie.value, now).value.id), None))
  {
    RefreshRotates(env, users, cookie, now);
    GenerateTokensSameUser(env.keys, CanonicalId(VerifyRefreshToken(env.keys, cookie.value, now).value.id), now);
  }


  /** getMe: 401 without a caller, 404 for an id that does not cast or a
    * vanished user, otherwise 200 with the caller's public projection;
    * nothing is stored. */
  lemma GetMeOutcomes(env: Env, users: Users, reqUser: Option<Claims>)
    ensures var s := GetMe(env, users, reqUser);
      s.users == users && s.mail.None? &&
      (reqUser.None? ==> s.reply == Send(401, Failed("Not authorized", env.nodeEnvVar == "development"))) &&
      (reqUser.Some? ==>
         match FindById(users, reqUser.value.id)
         case CastFailure => s.reply == Send(404, Failed("Resource not found", env.nodeEnvVar == "development"))
         case Missing => s.reply == Send(404, Failed("User not found", env.nodeEnvVar == "development"))
         case Found(id, u) => s.reply == Send(200, Me(FormatUserResponse(id, u))))
  {
    AppErrorPassesThrough("Not authorized", 401, env.nodeEnvVar);
    AppErrorPassesThrough("User not found", 404, env.nodeEnvVar);
    if reqUser.Some? {
      UnfoldLastOverride(CastError(reqUser.value.id));
    }
  }

  /** logout of an existing caller nulls that caller's refresh token, leaves
    * every other field and user alone, and clears the cookie. */
  lemma LogoutRevokes(env: Env, users: Users, reqUser: Option<Claims>)
    requires reqUser.Some? && FindById(users, reqUser.value.id).Found?
    ensures var id := FindById(users, reqUser.value.id).id;
      var s := Logout(env, users, reqUser);
      s.users == users[id := users[id].(refreshToken := None)] &&
      s.reply == Reply(200, Done("Logged out successfully"), ClearRefreshCookie())
  {
  }
}

=== FILE: auth_system.dfy ===
/**
 * The service as one object: the user collection it updates in place, the
 * configuration it runs under, and one method per route. Each method loads
 * a record, assigns its fields one by one and saves it, as the handlers do
 * with a Mongoose document, and is proved to leave the collection and send
 * the reply its handler function describes.
 */
module AuthService {
  import opened Common
  import opened Token
  import opened Credentials
  import opened UserModel
  import opened Store
  import opened Response
  import opened Errors
  import opened Middleware
  import opened Handlers
  import opened Routes
  import AuthController
  import PasswordController
  import VerificationController
  import AdminController

  class AuthSystem {
    /** The `users` collection, by the string form of `_id`. */
    var users: Users
    /** Keys and NODE_ENV, read once at start-up. */
    const env: Env

    /** The unique index on `email` holds. */
    predicate Valid()
      reads this
    {
      EmailsUnique(users)
    }

    /** An empty collection. */
    constructor(env: Env)
      ensures this.env == env && users == map[] && Valid()
    {
      this.env := env;
      users := map[];
    }

    /** `user.save()` of a loaded (or newly created) document. */
    method Save(id: string, u: User)
      modifies this
      ensures users == old(users)[id := u]
    {
      users := users[id := u];
    }

    /** Saving the same document twice keeps the second version. */
    static lemma SaveTwice(users: Users, id: string, first: User, second: User)
      ensures users[id := first][id := second] == users[id := second]
    {
    }

    // ---- public routes ----

    /** POST /register. `newId` is the ObjectId the database assigns. The
      * verification email is handed to the mailer and its failure is only
      * logged, so `mailDelivered` has no effect. */
    method Register(inputErrors: seq<string>, name: string, email: string, password: string, newId: string,
                    now: int, mailDelivered: bool) returns (reply: Reply, mail: Option<Mail>)
      requires Valid()
      modifies this
      ensures Valid()
      ensures Step(reply, users, mail) ==
        AuthController.Register(env, old(users), inputErrors, name, email, password, newId, now, mailDelivered)
    {
      mail := None;
      if inputErrors != [] {
        reply := Send(400, InputErrors(inputErrors));
        return;
      }
      if FindByEmail(users, email).Some? {
        reply := ErrorReply(AppError("User already exists", 400), env.nodeEnvVar);
        return;
      }
      var tempToken := GenerateVerificationToken(env.keys, "temp", email, now);
      var created := CreateUser(NewUser(name, email, Hash(password), tempToken, now + VerificationWindow), now);
      if created.Err? {
        reply := ErrorReply(ValidationError(created.error), env.nodeEnvVar);
        return;
      }
      reply, mail := Insert(created.value, newId, now);
    }

    /** `User.create` and the second `save` of `register`. */
    method Insert(created: User, newId: string, now: int) returns (reply: Reply, mail: Option<Mail>)
      requires Valid()
      requires forall other :: other in users ==> users[other].email != created.email
      modifies this
      ensures Valid()
      ensures Step(reply, users, mail) == AuthController.Insert(env, old(users), created, newId, now)
    {
      mail := None;
      if newId in users {
        reply := ErrorReply(DuplicateKeyError(), env.nodeEnvVar);
        return;
      }
      var u := created;
      InsertKeepsEmailsUnique(users, newId, u);
      ghost var before := users;
      Save(newId, u);
      var actualToken := GenerateVerificationToken(env.keys, newId, u.email, now);
      u := u.(verificationToken := Some(actualToken));
      assert u == AuthController.RegisteredUser(env, created, newId, now);
      Save(newId, u);
      SaveTwice(before, newId, created, u);
      mail := Some(VerificationMail(u.email, actualToken));
      reply := Send(201, Registered(AuthController.RegisteredMessage, FormatUserResponse(newId, u)));
    }

    /** POST /login */
    method Login(inputErrors: seq<string>, email: string, password: string, now: int) returns (reply: Reply)
      requires Valid()
      modifies this
      ensures Valid()
      ensures Step(reply, users, None) == AuthController.Login(env, old(users), inputErrors, email, password, now)
    {
      if inputErrors != [] {
        reply := Send(400, InputErrors(inputErrors));
        return;
      }
      var found := FindByEmail(users, email);
      if found.None? {
        reply := ErrorReply(AppError("Invalid credentials", 401), env.nodeEnvVar);
        return;
      }
      var id := found.value;
      var u := users[id];
      if !Matches(password, u.password) {
        reply := ErrorReply(AppError("Invalid credentials", 401), env.nodeEnvVar);
        return;
      }
      if !u.isVerified {
        reply := Send(403, Unverified(AuthController.UnverifiedMessage));
        return;
      }
      var pair := GenerateTokens(env.keys, id, now);
      u := u.(refreshToken := Some(pair.refreshToken));
      UpdateKeepsEmailsUnique(users, id, u);
      Save(id, u);
      reply := Reply(200, LoggedIn(pair.accessToken, FormatUserResponse(id, u)),
                     SetRefreshCookie(env.nodeEnvVar, pair.refreshToken));
    }

    /** POST /refresh, with the `refreshToken` cookie. */
    method Refresh(cookie: Option<string>, now: int) returns (reply: Reply)
      requires Valid()
      modifies this
      ensures Valid()
      ensures Step(reply, users, None) == AuthController.Refresh(env, old(users), cookie, now)
    {
      if cookie.None? || cookie.value == "" {
        reply := ErrorReply(AppError("Refresh token not found", 401), env.nodeEnvVar);
        return;
      }
      var decoded := VerifyRefreshToken(env.keys, cookie.value, now);
      if decoded.Err? {
        reply := ErrorReply(AppError("Invalid refresh token", 401), env.nodeEnvVar);
        return;
      }
      var found := FindById(users, decoded.value.id);
      if found.CastFailure? {
        reply := ErrorReply(CastError(decoded.value.id), env.nodeEnvVar);
        return;
      }
      if found.Missing? || found.user.refreshToken != cookie {
        reply := ErrorReply(AppError("Invalid refresh token", 401), env.nodeEnvVar);
        return;
      }
      var id, u := found.id, found.user;
      var pair := GenerateTokens(env.keys, id, now);
      u := u.(refreshToken := Some(pair.refreshToken));
      UpdateKeepsEmailsUnique(users, id, u);
      Save(id, u);
      reply := Reply(200, Refreshed(pair.accessToken), SetRefreshCookie(env.nodeEnvVar, pair.refreshToken));
    }

    /** POST /forgot-password. `mailDelivered` is whether the reset email
      * went out; when it did not, the stored link is cleared again. */
    method ForgotPassword(inputErrors: seq<string>, email: string, now: int, mailDelivered: bool)
      returns (reply: Reply, mail: Option<Mail>)
      requires Valid()
      modifies this
      ensures Valid()
      ensures Step(reply, users, mail) ==
        PasswordController.ForgotPassword(env, old(users), inputErrors, email, now, mailDelivered)
    {
      mail := None;
      if inputErrors != [] {
        reply := Send(400, InputErrors(inputErrors));
        return;
      }
      var found := FindByEmail(users, email);
      if found.None? {
        reply := ErrorReply(AppError(PasswordController.ForgotUnknownMessage, 400), env.nodeEnvVar);
        return;
      }
      var id := found.value;
      var u := users[id];
      var resetToken := GenerateResetToken(env.keys, id, u.email, now);
      u := u.(resetPasswordToken := Some(resetToken));
      u := u.(resetPasswordExpire := Some(now + PasswordController.ResetWindow));
      assert u == PasswordController.WithResetLink(env, id, old(users)[id], now);
      UpdateKeepsEmailsUnique(users, id, u);
      ghost var before := users;
      Save(id, u);
      mail := Some(ResetMail(u.email, resetToken));
      if !mailDelivered {
        ghost var linked := u;
        u := u.(resetPasswordToken := None);
        u := u.(resetPasswordExpire := None);
        UpdateKeepsEmailsUnique(users, id, u);
        Save(id, u);
        SaveTwice(before, id, linked, u);
        reply := Send(500, Notice("Email could not be sent"));
        return;
      }
      reply := Send(200, Done("Password reset email sent"));
    }

    /** POST /reset-password */
    method ResetPassword(inputErrors: seq<string>, token: string, newPassword: string, now: int)
      returns (reply: Reply)
      requires Valid()
      modifies this
      ensures Valid()
      ensures Step(reply, users, None) ==
        PasswordController.ResetPassword(env, old(users), inputErrors, token, newPassword, now)
    {
      if inputErrors != [] {
        reply := Send(400, InputErrors(inputErrors));
        return;
      }
      var decoded := VerifyResetToken(env.keys, token, now);
      if decoded.Err? {
        reply := ErrorReply(AppError(PasswordController.InvalidResetMessage, 400), env.nodeEnvVar);
        return;
      }
      var found := FindByToken(users, decoded.value.id, decoded.value.email, ResetField, token, now);
      if found.CastFailure? {
        reply := ErrorReply(CastError(decoded.value.id), env.nodeEnvVar);
        return;
      }
      if found.Missing? {
        reply := ErrorReply(AppError(PasswordController.InvalidResetMessage, 401), env.nodeEnvVar);
        return;
      }
      var id, u := found.id, found.user;
      u := u.(password := Hash(newPassword));
      u := u.(resetPasswordToken := None);
      u := u.(resetPasswordExpire := None);
      u := u.(refreshToken := None);
      UpdateKeepsEmailsUnique(users, id, u);
      Save(id, u);
      reply := Send(200, Done("Password reset successful. Please login with your new password."));
    }

    /** POST /verify-email. `mailDelivered` is whether the welcome email went
      * out; its failure is only logged. */
    method VerifyEmail(inputErrors: seq<string>, token: string, now: int, mailDelivered: bool)
      returns (reply: Reply, mail: Option<Mail>)
      requires Valid()
      modifies this
      ensures Valid()
      ensures Step(reply, users, mail) ==
        VerificationController.VerifyEmail(env, old(users), inputErrors, token, now, mailDelivered)
    {
      mail := None;
      if inputErrors != [] {
        reply := Send(400, InputErrors(inputErrors));
        return;
      }
      var decoded := VerifyVerificationToken(env.keys, token, now);
      if decoded.Err? {
        reply := Send(400, Notice(VerificationController.InvalidVerificationMessage));
        return;
      }
      var found := FindByToken(users, decoded.value.id, decoded.value.email, VerificationField, token, now);
      if found.CastFailure? {
        reply := ErrorReply(CastError(decoded.value.id), env.nodeEnvVar);
        return;
      }
      if found.Missing? {
        reply := ErrorReply(AppError(VerificationController.InvalidVerificationMessage, 400), env.nodeEnvVar);
        return;
      }
      var id, u := found.id, found.user;
      if u.isVerified {
        reply := ErrorReply(AppError("Email already verified", 400), env.nodeEnvVar);
        return;
      }
      u := u.(isVerified := true);
      u := u.(verificationToken := None);
      u := u.(verificationTokenExpire := None);
      UpdateKeepsEmailsUnique(users, id, u);
      Save(id, u);
      mail := Some(WelcomeMail(u.email, u.name));
      reply := Send(200, Done("Email verified successfully! You can now login."));
    }

    /** POST /resend-verification. `mailDelivered` is whether the email went
      * out; the new link stays stored either way. */
    method ResendVerification(inputErrors: seq<string>, email: string, now: int, mailDelivered: bool)
      returns (reply: Reply, mail: Option<Mail>)
      requires Valid()
      modifies this
      ensures Valid()
      ensures Step(reply, users, mail) ==
        VerificationController.ResendVerification(env, old(users), inputErrors, email, now, mailDelivered)
    {
      mail := None;
      if inputErrors != [] {
        reply := Send(400, InputErrors(inputErrors));
        return;
      }
      var found := FindByEmail(users, email);
      if found.None? {
        reply := Send(200, Done(VerificationController.ResendUnknownMessage));
        return;
      }
      var id := found.value;
      var u := users[id];
      if u.isVerified {
        reply := Send(400, Notice("Email already verified"));
        return;
      }
      var verificationToken := GenerateVerificationToken(env.keys, id, u.email, now);
      u := u.(verificationToken := Some(verificationToken));
      u := u.(verificationTokenExpire := Some(now + VerificationWindow));
      UpdateKeepsEmailsUnique(users, id, u);
      Save(id, u);
      mail := Some(ResentVerificationMail(u.email, verificationToken));
      if !mailDelivered {
        reply := Send(500, Notice("Email could not be sent"));
        return;
      }
      reply := Send(200, Done("Verification email sent"));
    }

    // ---- protected routes ----

    /** POST /logout, GET /me, POST /change-password and the admin routes:
      * the gates run first, and the handler only when all of them call
      * `next()`. */
    method Serve(authorization: Option<string>, now: int, route: ProtectedRoute) returns (reply: Reply)
      requires Valid()
      modifies this
      ensures Valid()
      ensures Served(env, old(users), authorization, now, route, Step(reply, users, None))
    {
      var admitted := Admit(env, users, authorization, now, AdminOnly(route));
      if admitted.Err? {
        reply := admitted.error;
        return;
      }
      var caller := admitted.value;
      match route
      case LogoutRoute => reply := Logout(caller);
      case MeRoute => reply := GetMe(caller);
      case ChangePasswordRoute(errs, current, newPassword) =>
        reply := ChangePassword(caller, errs, current, newPassword);
      case ListUsersRoute => reply := AdminController.GetAllUsers(users);
      case UserByIdRoute(targetId) => reply := GetUserById(targetId);
      case UpdateRoleRoute(targetId, role) => reply := UpdateUserRole(caller, targetId, role);
      case DeleteUserRoute(targetId) => reply := DeleteUser(caller, targetId);
      case StatsRoute(recentSince) => reply := AdminController.GetUserStats(users, recentSince);
    }

    /** `logout`: `findByIdAndUpdate(id, { refreshToken: null })`. */
    method Logout(caller: Claims) returns (reply: Reply)
      requires Valid()
      modifies this
      ensures Valid()
      ensures Step(reply, users, None) == AuthController.Logout(env, old(users), Some(caller))
    {
      var found := FindById(users, caller.id);
      if found.CastFailure? {
        reply := ErrorReply(CastError(caller.id), env.nodeEnvVar);
        return;
      }
      if found.Found? {
        var u := found.user.(refreshToken := None);
        UpdateKeepsEmailsUnique(users, found.id, u);
        Save(found.id, u);
      }
      reply := Reply(200, Done("Logged out successfully"), ClearRefreshCookie());
    }

    /** `getMe` */
    method GetMe(caller: Claims) returns (reply: Reply)
      ensures Step(reply, users, None) == AuthController.GetMe(env, users, Some(caller))
    {
      var found := FindById(users, caller.id);
      match found
      case CastFailure => reply := ErrorReply(CastError(caller.id), env.nodeEnvVar);
      case Missing => reply := ErrorReply(AppError("User not found", 404), env.nodeEnvVar);
      case Found(id, u) => reply := Send(200, Me(FormatUserResponse(id, u)));
    }

    /** `changePassword`: only the password hash is reassigned. */
    method ChangePassword(caller: Claims, inputErrors: seq<string>, currentPassword: string, newPassword: string)
      returns (reply: Reply)
      requires Valid()
      modifies this
      ensures Valid()
      ensures Step(reply, users, None) ==
        PasswordController.ChangePassword(env, old(users), Some(caller), inputErrors, currentPassword, newPassword)
    {
      if inputErrors != [] {
        reply := Send(400, InputErrors(inputErrors));
        return;
      }
      var found := FindById(users, caller.id);
      if found.CastFailure? {
        reply := ErrorReply(CastError(caller.id), env.nodeEnvVar);
        return;
      }
      if found.Missing? {
        reply := ErrorReply(AppError("User not found", 404), env.nodeEnvVar);
        return;
      }
      var id, u := found.id, found.user;
      if !Matches(currentPassword, u.password) {
        reply := ErrorReply(AppError("Current password is incorrect", 400), env.nodeEnvVar);
        return;
      }
      u := u.(password := Hash(newPassword));
      UpdateKeepsEmailsUnique(users, id, u);
      Save(id, u);
      reply := Send(200, Done("Password changed successfully"));
    }

    /** `getUserById` */
    method GetUserById(targetId: string) returns (reply: Reply)
      ensures Step(reply, users, None) == AdminController.GetUserById(env, users, targetId)
    {
      match FindById(users, targetId)
      case CastFailure => reply := ErrorReply(CastError(targetId), env.nodeEnvVar);
      case Missing => reply := ErrorReply(AppError("User not found", 404), env.nodeEnvVar);
      case Found(id, u) => reply := Send(200, OneUser(ViewOf(id, u)));
    }

    /** `updateUserRole`: the role is checked before the lookup, and only the
      * target's `role` is reassigned. */
    method UpdateUserRole(caller: Claims, targetId: string, role: Option<string>) returns (reply: Reply)
      requires Valid()
      modifies this
      ensures Valid()
      ensures Step(reply, users, None) ==
        AdminController.UpdateUserRole(env, old(users), Some(caller), targetId, role)
    {
      if role.None? || role.value == "" {
        reply := ErrorReply(AppError("Role is required", 400), env.nodeEnvVar);
        return;
      }
      var parsed := ParseRole(role.value);
      if parsed.None? {
        reply := Send(400, Notice("Invalid role"));
        return;
      }
      var found := FindById(users, targetId);
      if found.CastFailure? {
        reply := ErrorReply(CastError(targetId), env.nodeEnvVar);
        return;
      }
      if found.Missing? {
        reply := ErrorReply(AppError("User not found", 404), env.nodeEnvVar);
        return;
      }
      var id, u := found.id, found.user;
      if id == caller.id {
        reply := ErrorReply(AppError("Cannot change your own role", 400), env.nodeEnvVar);
        return;
      }
      u := u.(role := parsed.value);
      UpdateKeepsEmailsUnique(users, id, u);
      Save(id, u);
      reply := Send(200, RoleUpdated("User role updated to " + role.value, RoleView(id, u.name, u.email, u.role)));
    }

    /** `deleteUser`: `user.deleteOne()` removes exactly the target. */
    method DeleteUser(caller: Claims, targetId: string) returns (reply: Reply)
      requires Valid()
      modifies this
      ensures Valid()
      ensures Step(reply, users, None) == AdminController.DeleteUser(env, old(users), Some(caller), targetId)
    {
      var found := FindById(users, targetId);
      if found.CastFailure? {
        reply := ErrorReply(CastError(targetId), env.nodeEnvVar);
        return;
      }
      if found.Missing? {
        reply := ErrorReply(AppError("User not found", 404), env.nodeEnvVar);
        return;
      }
      if found.id == caller.id {
        reply := ErrorReply(AppError("Cannot delete your own account", 400), env.nodeEnvVar);
        return;
      }
      RemoveKeepsEmailsUnique(users, found.id);
      users := users - {found.id};
      reply := Send(200, Done("User deleted successfully"));
    }
  }
}

=== FILE: common.dfy ===
/** Small wrappers shared by every module of the model. */
module Common {

  /** A value that may be absent: `null`/`undefined` in the source. */
  datatype Option<+T> = None | Some(value: T) {
    function GetOr(default: T): T {
      match this
      case Some(v) => v
      case None => default
    }
  }

  /** The outcome of a computation that can fail with an error value. */
  datatype Result<+T, +E> = Ok(value: T) | Err(error: E)
}

=== FILE: config.dfy ===
/**
 * The constants of the configuration object. Reading them from the
 * environment is not part of this model, except for NODE_ENV, whose value is
 * passed in as a string ("" when the variable is unset).
 */
module Config {

  /** Max age of the refresh cookie: seven days in milliseconds. */
  const CookieMaxAge: int := 7 * 24 * 60 * 60 * 1000

  /** Token lifetimes, in seconds ("15m", "7d", "1h" as jsonwebtoken reads them). */
  const AccessTokenTtl: int := 15 * 60
  const RefreshTokenTtl: int := 7 * 24 * 60 * 60
  const ResetTokenTtl: int := 60 * 60

  /** `config.nodeEnv`: NODE_ENV, or "development" when it is unset or empty. */
  function ConfiguredNodeEnv(nodeEnvVar: string): (r: string)
    ensures r == "development" || r == nodeEnvVar
    ensures r == "production" <==> nodeEnvVar == "production"
  {
    if nodeEnvVar == "" then "development" else nodeEnvVar
  }
}

=== FILE: error_handler.dfy ===
/**
 * `AppError`, the error-handling middleware that turns any error passed to
 * `next` into a JSON reply, and the not-found handler.
 */
module Errors {
  import opened Common
  import opened Text
  import opened Response

  /** An error object as the handler sees it: its `name`, `message`, the own
    * `statusCode` and `code` properties when present, `isOperational`, and,
    * for a validation error, the messages of its sub-errors in order. */
  datatype ErrorValue = ErrorValue(
    name: string,
    message: string,
    statusCode: Option<int>,
    code: Option<int>,
    isOperational: bool,
    subMessages: seq<string>)

  /** `new AppError(message, statusCode)`: a plain `Error` carrying a status. */
  function AppError(message: string, statusCode: int): (e: ErrorValue)
    ensures e.message == message && e.statusCode == Some(statusCode) && e.isOperational
    ensures e.name == "Error" && e.code.None?
  {
    ErrorValue("Error", message, Some(statusCode), None, true, [])
  }

  /** Mongoose's error for a value that does not cast to an ObjectId. */
  function CastError(value: string): ErrorValue {
    ErrorValue("CastError", "Cast to ObjectId failed for value \"" + value + "\"", None, None, false, [])
  }

  /** MongoDB's duplicate key error. */
  function DuplicateKeyError(): ErrorValue {
    ErrorValue("MongoServerError", "E11000 duplicate key error", None, Some(11000), false, [])
  }

  /** Mongoose's validation error, with one message per failing path. */
  function ValidationError(messages: seq<string>): ErrorValue {
    ErrorValue("ValidationError", "User validation failed", None, None, false, messages)
  }

  // ---- the translation, as a table ----

  /** The replacement a recognised error gets: a message and a status. */
  datatype Override = Override(message: string, statusCode: int)

  /** The replacement each check in the handler makes, indexed in the order
    * the checks run. */
  function CheckAt(i: nat, err: ErrorValue): Option<Override>
    requires i < 5
  {
    if i == 0 then (if err.name == "CastError" then Some(Override("Resource not found", 404)) else None)
    else if i == 1 then (if err.code == Some(11000) then Some(Override("Duplicate field value entered", 400)) else None)
    else if i == 2 then (if err.name == "ValidationError" then Some(Override(JoinWith(err.subMessages, ", "), 400)) else None)
    else if i == 3 then (if err.name == "JsonWebTokenError" then Some(Override("Invalid token", 401)) else None)
    else (if err.name == "TokenExpiredError" then Some(Override("Token expired", 401)) else None)
  }

  /** The replacement made by the last of the first `n` checks that applies. */
  function LastOverride(err: ErrorValue, n: nat): (r: Option<Override>)
    requires n <= 5
    ensures r.Some? <==> exists i :: 0 <= i < n && CheckAt(i, err).Some?
  {
    if n == 0 then None
    else if CheckAt(n - 1, err).Some? then CheckAt(n - 1, err)
    else LastOverride(err, n - 1)
  }

  /** The table read backwards: the last check that applies decides. */
  lemma UnfoldLastOverride(err: ErrorValue)
    ensures LastOverride(err, 5) ==
      if CheckAt(4, err).Some? then CheckAt(4, err)
      else if CheckAt(3, err).Some? then CheckAt(3, err)
      else if CheckAt(2, err).Some? then CheckAt(2, err)
      else if CheckAt(1, err).Some? then CheckAt(1, err)
      else CheckAt(0, err)
  {
    assert LastOverride(err, 1) == CheckAt(0, err);
    assert LastOverride(err, 2) == if CheckAt(1, err).Some? then CheckAt(1, err) else LastOverride(err, 1);
    assert LastOverride(err, 3) == if CheckAt(2, err).Some? then CheckAt(2, err) else LastOverride(err, 2);
    assert LastOverride(err, 4) == if CheckAt(3, err).Some? then CheckAt(3, err) else LastOverride(err, 3);
  }

  /** The reply the handler sends for `err`: the replacement of the last
    * check that applies, or the error itself; status 500 when there is no
    * (or a zero) status, "Server Error" when the message is empty, and the
    * stack only under NODE_ENV "development". */
  function ErrorReply(err: ErrorValue, nodeEnvVar: string): Reply {
    var status := match LastOverride(err, 5)
      case Some(o) => o.statusCode
      case None => err.statusCode.GetOr(0);
    var message := match LastOverride(err, 5)
      case Some(o) => o.message
      case None => err.message;
    Send(if status == 0 then 500 else status,
         Failed(if message == "" then "Server Error" else message, nodeEnvVar == "development"))
  }

  /** `errorHandler`: copy the error, then run the checks in order, each
    * replacing the working error with a fresh `AppError` when it applies. */
  method ErrorHandler(err: ErrorValue, nodeEnvVar: string) returns (reply: Reply)
    ensures reply == ErrorReply(err, nodeEnvVar)
    ensures !reply.body.withStack <==> nodeEnvVar != "development"
  {
    UnfoldLastOverride(err);
    var error := err;
    if err.name == "CastError" {
      error := AppError("Resource not found", 404);
    }
    if err.code == Some(11000) {
      error := AppError("Duplicate field value entered", 400);
    }
    if err.name == "ValidationError" {
      error := AppError(JoinWith(err.subMessages, ", "), 400);
    }
    if err.name == "JsonWebTokenError" {
      error := AppError("Invalid token", 401);
    }
    if err.name == "TokenExpiredError" {
      error := AppError("Token expired", 401);
    }
    var status := error.statusCode.GetOr(0);
    var message := error.message;
    reply := Send(if status == 0 then 500 else status,
                  Failed(if message == "" then "Server Error" else message, nodeEnvVar == "development"));
  }

  /** Later checks override earlier ones: whenever check `j` applies, the
    * final replacement comes from `j` or from a check after it. */
  lemma {:induction false} LaterCheckWins(err: ErrorValue, n: nat, j: nat)
    requires j < n <= 5 && CheckAt(j, err).Some?
    ensures exists i :: j <= i < n && LastOverride(err, n) == CheckAt(i, err)
  {
    if CheckAt(n - 1, err).Some? {
      assert LastOverride(err, n) == CheckAt(n - 1, err);
    } else {
      assert j < n - 1;
      LaterCheckWins(err, n - 1, j);
      var i :| j <= i < n - 1 && LastOverride(err, n - 1) == CheckAt(i, err);
      assert LastOverride(err, n) == CheckAt(i, err);
    }
  }

  /** The status is always an HTTP error status: one of the table's, the
    * error's own non-zero status, or 500. */
  lemma ReplyStatus(err: ErrorValue, nodeEnvVar: string)
    ensures var s := ErrorReply(err, nodeEnvVar).status;
      s != 0 &&
      (LastOverride(err, 5).Some? ==> s in {400, 401, 404}) &&
      (LastOverride(err, 5).None? ==> s == (if err.statusCode.GetOr(0) == 0 then 500 else err.statusCode.value))
  {
    UnfoldLastOverride(err);
  }

  /** An `AppError` none of the checks recognise reaches the client as it
    * was thrown. */
  lemma AppErrorPassesThrough(message: string, statusCode: int, nodeEnvVar: string)
    requires message != "" && statusCode != 0
    ensures ErrorReply(AppError(message, statusCode), nodeEnvVar) ==
      Send(statusCode, Failed(message, nodeEnvVar == "development"))
  {
    UnfoldLastOverride(AppError(message, statusCode));
  }

  /** A duplicate key error is reported as such even when it also looks like
    * a cast error, because its check runs later. */
  lemma DuplicateOverridesCast(value: string, nodeEnvVar: string)
    ensures var e := CastError(value).(code := Some(11000));
      ErrorReply(e, nodeEnvVar).status == 400 &&
      ErrorReply(e, nodeEnvVar).body.message == "Duplicate field value entered"
  {
    var e := CastError(value).(code := Some(11000));
    UnfoldLastOverride(e);
  }

  /** A validation error answers 400 with its sub-messages joined by ", ". */
  lemma ValidationErrorReply(messages: seq<string>, nodeEnvVar: string)
    requires JoinWith(messages, ", ") != ""
    ensures ErrorReply(ValidationError(messages), nodeEnvVar) ==
      Send(400, Failed(JoinWith(messages, ", "), nodeEnvVar == "development"))
  {
    var e := ValidationError(messages);
    UnfoldLastOverride(e);
  }

  /** `notFound`: the error for a route nobody handles. */
  function NotFound(originalUrl: string): (e: ErrorValue)
    ensures e.statusCode == Some(404) && EndsWith(e.message, originalUrl)
  {
    AppError("Route not found - " + originalUrl, 404)
  }

  /** An unknown route answers 404 naming the URL. */
  lemma NotFoundReply(originalUrl: string, nodeEnvVar: string)
    ensures ErrorReply(NotFound(originalUrl), nodeEnvVar) ==
      Send(404, Failed("Route not found - " + originalUrl, nodeEnvVar == "development"))
  {
    AppErrorPassesThrough("Route not found - " + originalUrl, 404, nodeEnvVar);
  }
}

=== FILE: handlers.dfy ===
/**
 * What every handler shares: the configuration it runs under, the emails it
 * hands to the mailer, and the outcome of one request.
 */
module Handlers {
  import opened Common
  import opened Token
  import opened Store
  import opened Response
  import opened Errors

  /** Lifetime of a stored verification link: 24 hours in milliseconds. */
  const VerificationWindow: int := 24 * 60 * 60 * 1000

  /** The signing keys and NODE_ENV ("" when unset). */
  datatype Env = Env(keys: Keys, nodeEnvVar: string)

  /** An email a handler asks the mailer to send. */
  datatype Mail =
    | VerificationMail(to: string, token: string)
    | ResentVerificationMail(to: string, token: string)
    | ResetMail(to: string, token: string)
    | WelcomeMail(to: string, name: string)

  /** One request: the reply, the user collection afterwards, and the email
    * the handler tried to send, if any. */
  datatype Step = Step(reply: Reply, users: Users, mail: Option<Mail>)

  /** A handler's `next(error)`: the error handler answers, after whatever
    * the handler had already stored. */
  function Raise(env: Env, users: Users, err: ErrorValue): (s: Step)
    ensures s.users == users && s.mail.None?
  {
    Step(ErrorReply(err, env.nodeEnvVar), users, None)
  }

  /** A reply sent by the handler itself, storing nothing. */
  function Answer(users: Users, reply: Reply): (s: Step)
    ensures s.users == users && s.mail.None?
  {
    Step(reply, users, None)
  }

  /** The 400 `{ errors }` reply for requests the route's validators refused. */
  function Rejected(users: Users, inputErrors: seq<string>): Step {
    Answer(users, Send(400, InputErrors(inputErrors)))
  }

  /** The claimed id of the caller, `req.user?.id`. */
  function CallerId(reqUser: Option<Claims>): Option<string> {
    match reqUser
    case None => None
    case Some(c) => Some(c.id)
  }
}

=== FILE: integrity.dfy ===
/**
 * The shape every stored record keeps under every request: ids are
 * ObjectId strings, emails are unique and stored lower-cased, each link
 * token is stored together with its expiry, the record satisfies the
 * schema, and a verified user holds no verification link.
 */
module Integrity {
  import opened Common
  import opened Text
  import opened Token
  import opened Credentials
  import opened UserModel
  import opened Store
  import opened Response
  import opened Errors
  import opened Middleware
  import opened Handlers
  import opened Routes
  import AuthController
  import PasswordController
  import VerificationController
  import AdminController

  /** A link token and its expiry are set and cleared together. */
  predicate PairedLinks(u: User) {
    (u.resetPasswordToken.Some? <==> u.resetPasswordExpire.Some?) &&
    (u.verificationToken.Some? <==> u.verificationTokenExpire.Some?)
  }

  /** The schema's constraints, on the stored values: the email is stored
    * lower-cased (and, being valid, holds no whitespace to trim). */
  predicate SchemaValid(u: User) {
    Trim(u.name) != "" && IsLower(u.email) && IsValidEmail(u.email) && |u.password| >= 8
  }

  predicate RecordWellFormed(u: User) {
    PairedLinks(u) && SchemaValid(u) && (u.isVerified ==> u.verificationToken.None?)
  }

  /** Every record is stored under an ObjectId string and is well formed. */
  predicate RecordsWellFormed(users: Users) {
    forall id :: id in users ==> IsCanonicalId(id) && RecordWellFormed(users[id])
  }

  predicate WellFormed(users: Users) {
    EmailsUnique(users) && RecordsWellFormed(users)
  }

  /** A loaded record saved with its name and email unchanged stays well
    * formed when its links stay paired, its password stays a hash and it
    * gains no verification link once verified. */
  lemma RecordKept(loaded: User, u: User)
    requires RecordWellFormed(loaded)
    requires u.name == loaded.name && u.email == loaded.email
    requires PairedLinks(u) && |u.password| >= 8 && (u.isVerified ==> u.verificationToken.None?)
    ensures RecordWellFormed(u)
  {
  }

  lemma SaveKeepsRecords(users: Users, id: string, u: User)
    requires RecordsWellFormed(users) && IsCanonicalId(id) && RecordWellFormed(u)
    ensures RecordsWellFormed(users[id := u])
  {
    forall k | k in users[id := u] ensures IsCanonicalId(k) && RecordWellFormed(users[id := u][k]) {
      if k != id {
        assert k in users;
      }
    }
  }

  /** Saving a loaded record again keeps the collection well formed. */
  lemma SaveKeepsWellFormed(users: Users, id: string, u: User)
    requires WellFormed(users) && id in users
    requires u.name == users[id].name && u.email == users[id].email
    requires PairedLinks(u) && |u.password| >= 8 && (u.isVerified ==> u.verificationToken.None?)
    ensures WellFormed(users[id := u])
  {
    RecordKept(users[id], u);
    UpdateKeepsEmailsUnique(users, id, u);
    SaveKeepsRecords(users, id, u);
  }

  // ---- one lemma per handler: what it saves, then that the shape survives ----

  /** `register` stores nothing or inserts one well-formed record under the
    * new id, with an email no other user holds. */
  lemma RegisterSaves(env: Env, users: Users, inputErrors: seq<string>, name: string, email: string,
                      password: string, newId: string, now: int, mailDelivered: bool)
    returns (saved: bool, u: User)
    requires EmailsUnique(users)
    ensures var s := AuthController.Register(env, users, inputErrors, name, email, password, newId, now,
                                             mailDelivered);
      if saved then
        newId !in users && s.users == users[newId := u] && RecordWellFormed(u) &&
        forall other :: other in users ==> users[other].email != u.email
      else s.users == users
  {
    saved, u := false, User("", "", "", UserRole, None, None, None, false, None, None, 0);
    if inputErrors == [] && FindByEmail(users, email).None? && newId !in users &&
       Trim(name) != "" && IsValidEmail(Normalize(email)) {
      AuthController.RegisterCreates(env, users, name, email, password, newId, now, mailDelivered);
      saved, u := true, AuthController.Register(env, users, [], name, email, password, newId, now,
                                                mailDelivered).users[newId];
      TrimIdempotent(name);
    }
  }

  /** `register` keeps the shape, given that the database assigns ObjectIds. */
  lemma RegisterKeepsWellFormed(env: Env, users: Users, inputErrors: seq<string>, name: string, email: string,
                                password: string, newId: string, now: int, mailDelivered: bool)
    requires WellFormed(users) && IsCanonicalId(newId)
    ensures WellFormed(AuthController.Register(env, users, inputErrors, name, email, password, newId, now,
                                               mailDelivered).users)
  {
    var saved, u := RegisterSaves(env, users, inputErrors, name, email, password, newId, now, mailDelivered);
    if saved {
      InsertKeepsEmailsUnique(users, newId, u);
      SaveKeepsRecords(users, newId, u);
    }
  }

  /** `login` stores nothing or the user's new refresh token. */
  lemma LoginSaves(env: Env, users: Users, inputErrors: seq<string>, email: string, password: string, now: int)
    returns (saved: bool, id: string)
    requires EmailsUnique(users)
    ensures var s := AuthController.Login(env, users, inputErrors, email, password, now);
      if saved then
        id in users && s.users == users[id := users[id].(refreshToken := Some(GenerateTokens(env.keys, id, now).refreshToken))]
      else s.users == users
  {
    saved, id := false, "";
    var found := FindByEmail(users, email);
    if inputErrors == [] && found.Some? && Matches(password, users[found.value].password) &&
       users[found.value].isVerified {
      saved, id := true, found.value;
    }
  }

  lemma LoginKeepsWellFormed(env: Env, users: Users, inputErrors: seq<string>, email: string, password: string,
                             now: int)
    requires WellFormed(users)
    ensures WellFormed(AuthController.Login(env, users, inputErrors, email, password, now).users)
  {
    var saved, id := LoginSaves(env, users, inputErrors, email, password, now);
    if saved {
      SaveKeepsWellFormed(users, id, users[id].(refreshToken := Some(GenerateTokens(env.keys, id, now).refreshToken)));
    }
  }

  /** `refreshToken` stores nothing or the rotated refresh token. */
  lemma RefreshSaves(env: Env, users: Users, cookie: Option<string>, now: int) returns (saved: bool, id: string)
    ensures var s := AuthController.Refresh(env, users, cookie, now);
      if saved then
        id in users && s.users == users[id := users[id].(refreshToken := Some(GenerateTokens(env.keys, id, now).refreshToken))]
      else s.users == users
  {
    saved, id := false, "";
    if cookie.Some? && cookie.value != "" && VerifyRefreshToken(env.keys, cookie.value, now).Ok? {
      var r := FindById(users, VerifyRefreshToken(env.keys, cookie.value, now).value.id);
      if r.Found? && r.user.refreshToken == cookie {
        saved, id := true, r.id;
      }
    }
  }

  lemma RefreshKeepsWellFormed(env: Env, users: Users, cookie: Option<string>, now: int)
    requires WellFormed(users)
    ensures WellFormed(AuthController.Refresh(env, users, cookie, now).users)
  {
    var saved, id := RefreshSaves(env, users, cookie, now);
    if saved {
      SaveKeepsWellFormed(users, id, users[id].(refreshToken := Some(GenerateTokens(env.keys, id, now).refreshToken)));
    }
  }

  /** `logout` stores nothing or the caller's record without a refresh token. */
  lemma LogoutSaves(env: Env, users: Users, reqUser: Option<Claims>) returns (saved: bool, id: string)
    ensures var s := AuthController.Logout(env, users, reqUser);
      if saved then id in users && s.users == users[id := users[id].(refreshToken := None)]
      else s.users == users
  {
    saved, id := false, "";
    if reqUser.Some? {
      var r := FindById(users, reqUser.value.id);
      if r.Found? {
        saved, id := true, r.id;
      }
    }
  }

  lemma LogoutKeepsWellFormed(env: Env, users: Users, reqUser: Option<Claims>)
    requires WellFormed(users)
    ensures WellFormed(AuthController.Logout(env, users, reqUser).users)
  {
    var saved, id := LogoutSaves(env, users, reqUser);
    if saved {
      SaveKeepsWellFormed(users, id, users[id].(refreshToken := None));
    }
  }

  /** `forgotPassword` stores nothing, or a reset link together with its
    * expiry, or (when the mail failed) both cleared. */
  lemma ForgotPasswordSaves(env: Env, users: Users, inputErrors: seq<string>, email: string, now: int,
                            mailDelivered: bool)
    returns (saved: bool, id: string, u: User)
    requires EmailsUnique(users)
    ensures var s := PasswordController.ForgotPassword(env, users, inputErrors, email, now, mailDelivered);
      if saved then
        id in users && s.users == users[id := u] &&
        u == users[id].(resetPasswordToken := u.resetPasswordToken, resetPasswordExpire := u.resetPasswordExpire) &&
        (u.resetPasswordToken.Some? <==> u.resetPasswordExpire.Some?)
      else s.users == users
  {
    saved, id, u := false, "", User("", "", "", UserRole, None, None, None, false, None, None, 0);
    var found := FindByEmail(users, email);
    if inputErrors == [] && found.Some? {
      var v := PasswordController.WithResetLink(env, found.value, users[found.value], now);
      saved, id := true, found.value;
      u := if mailDelivered then v else v.(resetPasswordToken := None, resetPasswordExpire := None);
    }
  }

  lemma ForgotPasswordKeepsWellFormed(env: Env, users: Users, inputErrors: seq<string>, email: string, now: int,
                                      mailDelivered: bool)
    requires WellFormed(users)
    ensures WellFormed(PasswordController.ForgotPassword(env, users, inputErrors, email, now, mailDelivered).users)
  {
    var saved, id, u := ForgotPasswordSaves(env, users, inputErrors, email, now, mailDelivered);
    if saved {
      SaveKeepsWellFormed(users, id, u);
    }
  }

  /** `resetPassword` stores nothing or the new hash with the reset link and
    * the session cleared. */
  lemma ResetPasswordSaves(env: Env, users: Users, inputErrors: seq<string>, token: string, newPassword: string,
                           now: int)
    returns (saved: bool, id: string)
    ensures var s := PasswordController.ResetPassword(env, users, inputErrors, token, newPassword, now);
      if saved then
        id in users &&
        s.users == users[id := users[id].(password := Hash(newPassword), resetPasswordToken := None,
                                          resetPasswordExpire := None, refreshToken := None)]
      else s.users == users
  {
    saved, id := false, "";
    var v := VerifyResetToken(env.keys, token, now);
    if inputErrors == [] && v.Ok? {
      var r := FindByToken(users, v.value.id, v.value.email, ResetField, token, now);
      if r.Found? {
        saved, id := true, r.id;
      }
    }
  }

  lemma ResetPasswordKeepsWellFormed(env: Env, users: Users, inputErrors: seq<string>, token: string,
                                     newPassword: string, now: int)
    requires WellFormed(users)
    ensures WellFormed(PasswordController.ResetPassword(env, users, inputErrors, token, newPassword, now).users)
  {
    var saved, id := ResetPasswordSaves(env, users, inputErrors, token, newPassword, now);
    if saved {
      SaveKeepsWellFormed(users, id, users[id].(password := Hash(newPassword), resetPasswordToken := None,
                                                resetPasswordExpire := None, refreshToken := None));
    }
  }

  /** `changePassword` stores nothing or the caller's record with a new hash. */
  lemma ChangePasswordSaves(env: Env, users: Users, reqUser: Option<Claims>, inputErrors: seq<string>,
                            currentPassword: string, newPassword: string)
    returns (saved: bool, id: string)
    ensures var s := PasswordController.ChangePassword(env, users, reqUser, inputErrors, currentPassword, newPassword);
      if saved then id in users && s.users == users[id := users[id].(password := Hash(newPassword))]
      else s.users == users
  {
    saved, id := false, "";
    if reqUser.Some? && inputErrors == [] {
      var r := FindById(users, reqUser.value.id);
      if r.Found? && Matches(currentPassword, r.user.password) {
        saved, id := true, r.id;
      }
    }
  }

  lemma ChangePasswordKeepsWellFormed(env: Env, users: Users, reqUser: Option<Claims>, inputErrors: seq<string>,
                                      currentPassword: string, newPassword: string)
    requires WellFormed(users)
    ensures WellFormed(PasswordController.ChangePassword(env, users, reqUser, inputErrors, currentPassword,
                                                         newPassword).users)
  {
    var saved, id := ChangePasswordSaves(env, users, reqUser, inputErrors, currentPassword, newPassword);
    if saved {
      SaveKeepsWellFormed(users, id, users[id].(password := Hash(newPassword)));
    }
  }

  /** `verifyEmail` stores nothing, or verifies the unverified user holding
    * the link and clears it. */
  lemma VerifyEmailSaves(env: Env, users: Users, inputErrors: seq<string>, token: string, now: int,
                         mailDelivered: bool)
    returns (saved: bool, id: string)
    ensures var s := VerificationController.VerifyEmail(env, users, inputErrors, token, now, mailDelivered);
      if saved then
        id in users && users[id].verificationToken == Some(token) && !users[id].isVerified &&
        s.users == users[id := users[id].(isVerified := true, verificationToken := None,
                                          verificationTokenExpire := None)]
      else s.users == users
  {
    saved, id := false, "";
    var v := VerifyVerificationToken(env.keys, token, now);
    if inputErrors == [] && v.Ok? {
      var r := FindByToken(users, v.value.id, v.value.email, VerificationField, token, now);
      if r.Found? && !r.user.isVerified {
        saved, id := true, r.id;
      }
    }
  }

  lemma VerifyEmailKeepsWellFormed(env: Env, users: Users, inputErrors: seq<string>, token: string, now: int,
                                   mailDelivered: bool)
    requires WellFormed(users)
    ensures WellFormed(VerificationController.VerifyEmail(env, users, inputErrors, token, now, mailDelivered).users)
  {
    var saved, id := VerifyEmailSaves(env, users, inputErrors, token, now, mailDelivered);
    if saved {
      SaveKeepsWellFormed(users, id, users[id].(isVerified := true, verificationToken := None,
                                                verificationTokenExpire := None));
    }
  }

  /** `resendVerification` stores nothing or a new link with its expiry for
    * an unverified user. */
  lemma ResendVerificationSaves(env: Env, users: Users, inputErrors: seq<string>, email: string, now: int,
                                mailDelivered: bool)
    returns (saved: bool, id: string)
    requires EmailsUnique(users)
    ensures var s := VerificationController.ResendVerification(env, users, inputErrors, email, now, mailDelivered);
      if saved then
        id in users && !users[id].isVerified &&
        s.users == users[id := users[id].(verificationToken := Some(GenerateVerificationToken(env.keys, id, users[id].email, now)),
                                          verificationTokenExpire := Some(now + VerificationWindow))]
      else s.users == users
  {
    saved, id := false, "";
    var found := FindByEmail(users, email);
    if inputErrors == [] && found.Some? && !users[found.value].isVerified {
      saved, id := true, found.value;
    }
  }

  lemma ResendVerificationKeepsWellFormed(env: Env, users: Users, inputErrors: seq<string>, email: string,
                                          now: int, mailDelivered: bool)
    requires WellFormed(users)
    ensures WellFormed(VerificationController.ResendVerification(env, users, inputErrors, email, now,
                                                                 mailDelivered).users)
  {
    var saved, id := ResendVerificationSaves(env, users, inputErrors, email, now, mailDelivered);
    if saved {
      SaveKeepsWellFormed(users, id, users[id].(verificationToken := Some(GenerateVerificationToken(env.keys, id, users[id].email, now)),
                                                verificationTokenExpire := Some(now + VerificationWindow)));
    }
  }

  /** `updateUserRole` stores nothing or a new role for a user other than
    * the caller. */
  lemma UpdateUserRoleSaves(env: Env, users: Users, reqUser: Option<Claims>, targetId: string, role: Option<string>)
    returns (saved: bool, id: string, newRole: Role)
    ensures var s := AdminController.UpdateUserRole(env, users, reqUser, targetId, role);
      if saved then id in users && Some(id) != CallerId(reqUser) && s.users == users[id := users[id].(role := newRole)]
      else s.users == users
  {
    saved, id, newRole := false, "", UserRole;
    if role.Some? && role.value != "" && ParseRole(role.value).Some? {
      var r := FindById(users, targetId);
      if r.Found? && Some(r.id) != CallerId(reqUser) {
        saved, id, newRole := true, r.id, ParseRole(role.value).value;
      }
    }
  }

  lemma UpdateUserRoleKeepsWellFormed(env: Env, users: Users, reqUser: Option<Claims>, targetId: string,
                                      role: Option<string>)
    requires WellFormed(users)
    ensures WellFormed(AdminController.UpdateUserRole(env, users, reqUser, targetId, role).users)
  {
    var saved, id, newRole := UpdateUserRoleSaves(env, users, reqUser, targetId, role);
    if saved {
      SaveKeepsWellFormed(users, id, users[id].(role := newRole));
    }
  }

  /** `deleteUser` removes nothing or one user other than the caller. */
  lemma DeleteUserSaves(env: Env, users: Users, reqUser: Option<Claims>, targetId: string)
    returns (removed: bool, id: string)
    ensures var s := AdminController.DeleteUser(env, users, reqUser, targetId);
      if removed then id in users && Some(id) != CallerId(reqUser) && s.users == users - {id} else s.users == users
  {
    removed, id := false, "";
    var r := FindById(users, targetId);
    if r.Found? && Some(r.id) != CallerId(reqUser) {
      removed, id := true, r.id;
    }
  }

  lemma DeleteUserKeepsWellFormed(env: Env, users: Users, reqUser: Option<Claims>, targetId: string)
    requires WellFormed(users)
    ensures WellFormed(AdminController.DeleteUser(env, users, reqUser, targetId).users)
  {
    var removed, id := DeleteUserSaves(env, users, reqUser, targetId);
    if removed {
      RemoveKeepsEmailsUnique(users, id);
      assert RecordsWellFormed(users - {id});
    }
  }

  /** Every protected request, whichever gate answers it, keeps the shape. */
  lemma ServedKeepsWellFormed(env: Env, users: Users, authorization: Option<string>, now: int,
                              route: ProtectedRoute, s: Step)
    requires WellFormed(users) && Served(env, users, authorization, now, route, s)
    ensures WellFormed(s.users)
  {
    var admitted := Admit(env, users, authorization, now, AdminOnly(route));
    if admitted.Ok? {
      var caller := Some(admitted.value);
      match route
      case LogoutRoute => LogoutKeepsWellFormed(env, users, caller);
      case MeRoute =>
      case ChangePasswordRoute(errs, current, newPassword) =>
        ChangePasswordKeepsWellFormed(env, users, caller, errs, current, newPassword);
      case ListUsersRoute =>
      case UserByIdRoute(_) =>
      case UpdateRoleRoute(targetId, role) => UpdateUserRoleKeepsWellFormed(env, users, caller, targetId, role);
      case DeleteUserRoute(targetId) => DeleteUserKeepsWellFormed(env, users, caller, targetId);
      case StatsRoute(_) =>
    }
  }
}

=== FILE: lifecycle.dfy ===
/**
 * Properties that span several requests: what one handler stores decides
 * how the gates and the other handlers answer afterwards. Sessions end at
 * logout and at a password reset, links are single-use, a role change is
 * seen by the next `authorize`, and an admin cannot lock themselves out.
 */
module Lifecycle {
  import opened Common
  import opened Text
  import opened Token
  import opened Credentials
  import opened UserModel
  import opened Store
  import opened Response
  import opened Errors
  import opened Middleware
  import opened Handlers
  import opened Routes
  import AuthController
  import PasswordController
  import VerificationController
  import AdminController
  import Integrity

  const SessionExpiredReply := Send(401, Notice("Session expired. Please login again"))

  /** The payload a token text verifies to does not depend on the clock. */
  lemma ClaimsDoNotDependOnTime(codec: Codec, secret: string, text: string, t1: int, t2: int)
    requires Verify(codec, secret, text, t1).Ok? && Verify(codec, secret, text, t2).Ok?
    ensures Verify(codec, secret, text, t1).value == Verify(codec, secret, text, t2).value
  {
  }

  // ---- registration ----

  /** A user who just registered cannot log in before verifying: the right
    * password gets 403, any other password the generic 401. */
  lemma RegisteredUserMustVerify(env: Env, users: Users, name: string, email: string, password: string,
                                 newId: string, now: int, mailDelivered: bool, attempt: string, later: int)
    requires EmailsUnique(users)
    requires FindByEmail(users, email).None? && newId !in users
    requires Trim(name) != "" && IsValidEmail(Normalize(email))
    ensures EmailsUnique(AuthController.Register(env, users, [], name, email, password, newId, now, mailDelivered).users)
    ensures var s := AuthController.Register(env, users, [], name, email, password, newId, now, mailDelivered);
      var t := AuthController.Login(env, s.users, [], email, attempt, later);
      t.users == s.users &&
      (attempt == password ==> t.reply == Send(403, Unverified(AuthController.UnverifiedMessage))) &&
      (attempt != password ==> t.reply == ErrorReply(AppError("Invalid credentials", 401), env.nodeEnvVar))
  {
    var s := AuthController.Register(env, users, [], name, email, password, newId, now, mailDelivered);
    AuthController.RegisterCreates(env, users, name, email, password, newId, now, mailDelivered);
    FindByEmailUnique(s.users, email, newId);
    MatchesOnlyItsPassword(attempt, password);
    AuthController.LoginOutcomes(env, s.users, email, attempt, later);
  }

  // ---- refresh-token rotation ----

  /** A refresh token minted by the service is single-use exactly when the
    * rotation falls in a later second than its minting: the rotated token is
    * then a different text and the old one is refused from then on; minted
    * within the same second, the rotated token is the same text and the old
    * one still rotates. */
  lemma RefreshTokenSingleUse(env: Env, users: Users, id: string, issuedAt: int, now: int, later: int)
    requires ValidCodec(env.keys.codec) && IsCanonicalId(id)
    requires AuthController.Refresh(env, users, Some(GenerateRefreshToken(env.keys, id, issuedAt)), now).reply.status == 200
    ensures var cookie := GenerateRefreshToken(env.keys, id, issuedAt);
      var s := AuthController.Refresh(env, users, Some(cookie), now);
      (issuedAt / 1000 != now / 1000 ==>
         var replay := AuthController.Refresh(env, s.users, Some(cookie), later);
         replay.reply.status == 401 && replay.users == s.users) &&
      (issuedAt / 1000 == now / 1000 ==> AuthController.Refresh(env, s.users, Some(cookie), now).reply.status == 200)
  {
    var cookie := GenerateRefreshToken(env.keys, id, issuedAt);
    var s := AuthController.Refresh(env, users, Some(cookie), now);
    AuthController.RefreshRotates(env, users, Some(cookie), now);
    GeneratedTokensRoundTrip(env.keys, id, "", issuedAt, now);
    GeneratedTokensRoundTrip(env.keys, id, "", issuedAt, later);
    var rotated := GenerateRefreshToken(env.keys, id, now);
    assert s.users == users[id := users[id].(refreshToken := Some(rotated))];
    MintedTextDependsOnSecond(env.keys.codec, env.keys.jwtRefreshSecret, Claims(id, None), issuedAt, now,
                              Config.RefreshTokenTtl);
    if issuedAt / 1000 != now / 1000 {
      assert s.users[id].refreshToken != Some(cookie);
      AuthController.RefreshRejects(env, s.users, Some(cookie), later);
    } else {
      assert s.users[id].refreshToken == Some(cookie);
    }
  }

  // ---- logout ----

  /** After logout the caller's access token no longer gets through:
    * `checkSession` answers 401 "Session expired", every protected route
    * is refused with that reply, and no refresh of the record succeeds. */
  lemma LogoutEndsSession(env: Env, users: Users, caller: Claims, authorization: Option<string>, later: int,
                          route: ProtectedRoute, t: Step, cookie: string)
    requires FindById(users, caller.id).Found?
    ensures var s := AuthController.Logout(env, users, Some(caller));
      CheckSession(s.users, Some(caller)) == Halt(SessionExpiredReply) &&
      (Protect(env.keys, authorization, later) == Ok(caller) ==>
         Served(env, s.users, authorization, later, route, t) ==> t == Answer(s.users, SessionExpiredReply))
    ensures var s := AuthController.Logout(env, users, Some(caller));
      var r := AuthController.Refresh(env, s.users, Some(cookie), later);
      r.reply.status == 200 ==>
        VerifyRefreshToken(env.keys, cookie, later).Ok? &&
        IsObjectIdText(VerifyRefreshToken(env.keys, cookie, later).value.id) &&
        CanonicalId(VerifyRefreshToken(env.keys, cookie, later).value.id) != FindById(users, caller.id).id
  {
    var id := FindById(users, caller.id).id;
    var s := AuthController.Logout(env, users, Some(caller));
    AuthController.LogoutRevokes(env, users, Some(caller));
    assert s.users[id].refreshToken.None?;
    if AuthController.Refresh(env, s.users, Some(cookie), later).reply.status == 200 {
      AuthController.RefreshRotates(env, s.users, Some(cookie), later);
    }
  }

  // ---- password reset ----

  /** A successful reset ends every session of the user (the access token
    * is refused by `checkSession`, no refresh of the record succeeds), the
    * stored hash accepts exactly the new password, and the link cannot be
    * used a second time. */
  lemma ResetEndsSessionsAndLink(env: Env, users: Users, token: string, newPassword: string, now: int,
                                 caller: Claims, cookie: string, attempt: string, other: string, later: int)
    requires VerifyResetToken(env.keys, token, now).Ok?
    requires var c := VerifyResetToken(env.keys, token, now).value;
      FindByToken(users, c.id, c.email, ResetField, token, now).Found?
    ensures var id := CanonicalId(VerifyResetToken(env.keys, token, now).value.id);
      var s := PasswordController.ResetPassword(env, users, [], token, newPassword, now);
      (Matches(attempt, s.users[id].password) <==> attempt == newPassword) &&
      (FindById(s.users, caller.id).Found? && FindById(s.users, caller.id).id == id ==>
         CheckSession(s.users, Some(caller)) == Halt(SessionExpiredReply))
    ensures var id := CanonicalId(VerifyResetToken(env.keys, token, now).value.id);
      var s := PasswordController.ResetPassword(env, users, [], token, newPassword, now);
      var r := AuthController.Refresh(env, s.users, Some(cookie), later);
      r.reply.status == 200 ==>
        VerifyRefreshToken(env.keys, cookie, later).Ok? &&
        IsObjectIdText(VerifyRefreshToken(env.keys, cookie, later).value.id) &&
        CanonicalId(VerifyRefreshToken(env.keys, cookie, later).value.id) != id
    ensures var s := PasswordController.ResetPassword(env, users, [], token, newPassword, now);
      var again := PasswordController.ResetPassword(env, s.users, [], token, other, later);
      again.reply.status != 200 && again.users == s.users
  {
    var c := VerifyResetToken(env.keys, token, now).value;
    var id := CanonicalId(c.id);
    var s := PasswordController.ResetPassword(env, users, [], token, newPassword, now);
    PasswordController.ResetSucceeds(env, users, token, newPassword, now);
    assert s.users[id].refreshToken.None? && s.users[id].resetPasswordToken.None?;
    MatchesOnlyItsPassword(attempt, newPassword);
    if AuthController.Refresh(env, s.users, Some(cookie), later).reply.status == 200 {
      AuthController.RefreshRotates(env, s.users, Some(cookie), later);
    }
    PasswordController.ResetRejects(env, s.users, token, other, later);
    var v := VerifyResetToken(env.keys, token, later);
    if v.Ok? {
      ClaimsDoNotDependOnTime(env.keys.codec, env.keys.jwtSecret, token, now, later);
      assert !HoldsLiveToken(s.users[id], ResetField, token, later);
    }
  }

  // ---- email verification ----

  /** A verification link works once: presenting it again, at any time,
    * fails at the lookup with 400 and changes nothing. */
  lemma VerificationLinkSingleUse(env: Env, users: Users, token: string, now: int, mailDelivered: bool,
                                  later: int, mailAgain: bool)
    requires VerifyVerificationToken(env.keys, token, now).Ok?
    requires var c := VerifyVerificationToken(env.keys, token, now).value;
      var r := FindByToken(users, c.id, c.email, VerificationField, token, now);
      r.Found? && !r.user.isVerified
    ensures var s := VerificationController.VerifyEmail(env, users, [], token, now, mailDelivered);
      var again := VerificationController.VerifyEmail(env, s.users, [], token, later, mailAgain);
      again.reply.status == 400 && again.reply.body.message == VerificationController.InvalidVerificationMessage &&
      again.users == s.users
  {
    var c := VerifyVerificationToken(env.keys, token, now).value;
    var id := CanonicalId(c.id);
    var s := VerificationController.VerifyEmail(env, users, [], token, now, mailDelivered);
    VerificationController.VerifyMatched(env, users, token, now, mailDelivered);
    assert s.users[id].verificationToken.None?;
    VerificationController.VerifyRejects(env, s.users, token, later, mailAgain);
    if VerifyVerificationToken(env.keys, token, later).Ok? {
      ClaimsDoNotDependOnTime(env.keys.codec, env.keys.jwtSecret, token, now, later);
      assert !HoldsLiveToken(s.users[id], VerificationField, token, later);
    }
  }

  /** After a resend, an earlier link that differs from the new one no
    * longer verifies the account: whatever it does, the user's record is
    * left as the resend stored it, still unverified. */
  lemma ResendRetiresOldLink(env: Env, users: Users, email: string, now: int, mailDelivered: bool,
                             oldToken: string, later: int, mailAgain: bool)
    requires EmailsUnique(users)
    requires FindByEmail(users, email).Some? && !users[FindByEmail(users, email).value].isVerified
    requires var id := FindByEmail(users, email).value;
      oldToken != GenerateVerificationToken(env.keys, id, users[id].email, now)
    ensures var id := FindByEmail(users, email).value;
      var s := VerificationController.ResendVerification(env, users, [], email, now, mailDelivered);
      var t := VerificationController.VerifyEmail(env, s.users, [], oldToken, later, mailAgain);
      id in t.users && t.users[id] == s.users[id] && !t.users[id].isVerified
  {
    var id := FindByEmail(users, email).value;
    var s := VerificationController.ResendVerification(env, users, [], email, now, mailDelivered);
    VerificationController.ResendOutcomes(env, users, email, now, mailDelivered);
    assert s.users[id].verificationToken != Some(oldToken);
    var saved, matched := Integrity.VerifyEmailSaves(env, s.users, [], oldToken, later, mailAgain);
    if saved {
      assert matched != id;
    }
  }

  // ---- change password ----

  /** Two collections that agree on which ids exist and on every stored
    * refresh token. */
  predicate SameSessions(users: Users, users': Users) {
    users'.Keys == users.Keys && forall id :: id in users ==> users'[id].refreshToken == users[id].refreshToken
  }

  /** `checkSession` reads no field of a record but its refresh token. */
  lemma SessionsDecideCheck(users: Users, users': Users, reqUser: Option<Claims>)
    requires SameSessions(users, users')
    ensures CheckSession(users', reqUser) == CheckSession(users, reqUser)
  {
    if reqUser.Some? && FindById(users, reqUser.value.id).Found? {
      assert FindById(users', reqUser.value.id).Found?;
    }
  }

  /** Neither does `refreshToken`: its reply depends on the stored token alone. */
  lemma SessionsDecideRefresh(env: Env, users: Users, users': Users, cookie: Option<string>, later: int)
    requires SameSessions(users, users')
    ensures AuthController.Refresh(env, users', cookie, later).reply == AuthController.Refresh(env, users, cookie, later).reply
  {
    if cookie.Some? && cookie.value != "" && VerifyRefreshToken(env.keys, cookie.value, later).Ok? {
      var r := FindById(users, VerifyRefreshToken(env.keys, cookie.value, later).value.id);
      if r.Found? {
        assert FindById(users', VerifyRefreshToken(env.keys, cookie.value, later).value.id).Found?;
      }
    }
  }

  /** Changing the password keeps every session: `checkSession` and
    * `refreshToken` answer every later request as before. */
  lemma ChangePasswordKeepsSessions(env: Env, users: Users, reqUser: Option<Claims>, inputErrors: seq<string>,
                                    current: string, newPassword: string, other: Option<Claims>,
                                    cookie: Option<string>, later: int)
    ensures var s := PasswordController.ChangePassword(env, users, reqUser, inputErrors, current, newPassword);
      CheckSession(s.users, other) == CheckSession(users, other) &&
      AuthController.Refresh(env, s.users, cookie, later).reply == AuthController.Refresh(env, users, cookie, later).reply
  {
    var s := PasswordController.ChangePassword(env, users, reqUser, inputErrors, current, newPassword);
    var saved, id := Integrity.ChangePasswordSaves(env, users, reqUser, inputErrors, current, newPassword);
    if saved {
      SessionsDecideCheck(users, s.users, other);
      SessionsDecideRefresh(env, users, s.users, cookie, later);
    }
  }

  // ---- roles ----

  /** `authorize` reads the stored role, so a role change by an admin
    * decides the target's very next admin request. */
  lemma RoleChangeTakesEffect(env: Env, users: Users, admin: Option<Claims>, targetId: string, role: Role,
                              target: Claims)
    requires IsObjectIdText(targetId) && CanonicalId(targetId) in users
    requires CallerId(admin) != Some(CanonicalId(targetId))
    requires IsObjectIdText(target.id) && CanonicalId(target.id) == CanonicalId(targetId)
    ensures var s := AdminController.UpdateUserRole(env, users, admin, targetId, Some(RoleName(role)));
      (Authorize(s.users, ["admin"], Some(target)).Next? <==> role == AdminRole) &&
      CheckSession(s.users, Some(target)) == CheckSession(users, Some(target))
  {
    AdminController.UpdateRoleOutcomes(env, users, admin, targetId, role);
  }

  /** An admin whose token carries the stored id cannot change their own
    * role: whatever they ask, their record stays as it was, and so does
    * their passage through `authorize`. */
  lemma AdminKeepsOwnRole(env: Env, users: Users, caller: Claims, targetId: string, role: Option<string>)
    requires IsCanonicalId(caller.id) && caller.id in users
    ensures var s := AdminController.UpdateUserRole(env, users, Some(caller), targetId, role);
      caller.id in s.users && s.users[caller.id] == users[caller.id] &&
      Authorize(s.users, ["admin"], Some(caller)) == Authorize(users, ["admin"], Some(caller))
  {
    var s := AdminController.UpdateUserRole(env, users, Some(caller), targetId, role);
    var saved, id, newRole := Integrity.UpdateUserRoleSaves(env, users, Some(caller), targetId, role);
    assert CanonicalId(caller.id) == caller.id;
  }

  /** Nor can such an admin delete their own account. */
  lemma AdminKeepsOwnAccount(env: Env, users: Users, caller: Claims, targetId: string)
    requires IsCanonicalId(caller.id) && caller.id in users
    ensures var s := AdminController.DeleteUser(env, users, Some(caller), targetId);
      caller.id in s.users && s.users[caller.id] == users[caller.id] &&
      Authorize(s.users, ["admin"], Some(caller)) == Authorize(users, ["admin"], Some(caller))
  {
    var s := AdminController.DeleteUser(env, users, Some(caller), targetId);
    var removed, id := Integrity.DeleteUserSaves(env, users, Some(caller), targetId);
    assert CanonicalId(caller.id) == caller.id;
  }

  // ---- tokens sharing the access secret ----

  /** Reset and verification links are signed with the access secret, so
    * either one, sent as `Bearer <link token>`, passes `protect` as its
    * user (with the email in the payload) while it is unexpired. */
  lemma LinkTokensPassProtect(keys: Keys, id: string, email: string, issuedAt: int)
    requires ValidCodec(keys.codec)
    ensures Protect(keys, Some("Bearer " + GenerateResetToken(keys, id, email, issuedAt)), issuedAt) ==
      Ok(Claims(id, Some(email)))
    ensures Protect(keys, Some("Bearer " + GenerateVerificationToken(keys, id, email, issuedAt)), issuedAt) ==
      Ok(Claims(id, Some(email)))
  {
    KindsSharingSecretAreInterchangeable(keys, id, email, issuedAt);
    var reset := GenerateResetToken(keys, id, email, issuedAt);
    var verification := GenerateVerificationToken(keys, id, email, issuedAt);
    assert reset != "" && ' ' !in reset;
    assert verification != "" && ' ' !in verification;
    BearerRoundTrip(reset);
    BearerRoundTrip(verification);
  }
}

=== FILE: middleware.dfy ===
/**
 * The request gates in front of the protected handlers: `protect` (Bearer
 * extraction and access-token check), `checkSession` (the stored refresh
 * token still exists) and `authorize(...roles)` (the stored role is allowed).
 */
module Middleware {
  import opened Common
  import opened Text
  import opened Token
  import opened UserModel
  import opened Store
  import opened Response
  import opened Errors

  /** What a gate does with the request: pass it on with `next()`, answer it
    * itself, or fail with an error nobody catches. */
  datatype Gate = Next | Halt(reply: Reply) | Throw(error: ErrorValue)

  /** The token of an `Authorization` header: when the header starts with
    * "Bearer", its second space-separated field, if that is non-empty. */
  function ExtractBearer(authorization: Option<string>): (r: Option<string>)
    ensures r.Some? ==> authorization.Some? && StartsWith(authorization.value, "Bearer")
    ensures r.Some? ==> r.value != "" && ' ' !in r.value
  {
    if authorization.Some? && StartsWith(authorization.value, "Bearer") then
      var fields := Split(authorization.value, ' ');
      if |fields| >= 2 && fields[1] != "" then Some(fields[1]) else None
    else
      None
  }

  /** `Split` of a string without the separator is that string alone. */
  lemma SplitWithoutSeparator(s: string, sep: char)
    requires sep !in s
    ensures Split(s, sep) == [s]
  {
  }

  /** After "Bearer" and a space, the token is the first field of the rest. */
  lemma BearerFirstField(rest: string)
    ensures var field := Split(rest, ' ')[0];
      ExtractBearer(Some("Bearer" + [' '] + rest)) == if field != "" then Some(field) else None
  {
    var h := "Bearer" + [' '] + rest;
    assert Split(h, ' ') == ["Bearer"] + Split(rest, ' ') by {
      SplitAfterFirst("Bearer", ' ', rest);
    }
    assert StartsWith(h, "Bearer") by {
      assert h[..6] == "Bearer";
    }
  }

  /** A well-formed header gives back exactly the token it carries. */
  lemma BearerRoundTrip(token: string)
    requires token != "" && ' ' !in token
    ensures ExtractBearer(Some("Bearer " + token)) == Some(token)
  {
    assert "Bearer " + token == "Bearer" + [' '] + token;
    SplitWithoutSeparator(token, ' ');
    BearerFirstField(token);
  }

  /** Anything after a second space is ignored: `Bearer <t> <more>` still
    * yields `<t>`. */
  lemma BearerIgnoresTrailingFields(token: string, more: string)
    requires token != "" && ' ' !in token
    ensures ExtractBearer(Some("Bearer " + token + " " + more)) == Some(token)
  {
    var rest := token + [' '] + more;
    assert "Bearer " + token + " " + more == "Bearer" + [' '] + rest;
    SplitAfterFirst(token, ' ', more);
    BearerFirstField(rest);
  }

  /** `protect`: the decoded payload becomes `req.user` when the extracted
    * token verifies under the access secret; otherwise a 401 reply. */
  function Protect(keys: Keys, authorization: Option<string>, now: int): (r: Result<Claims, Reply>)
    ensures r.Ok? <==> (ExtractBearer(authorization).Some? &&
                        VerifyAccessToken(keys, ExtractBearer(authorization).value, now).Ok?)
    ensures r.Ok? ==> r.value == VerifyAccessToken(keys, ExtractBearer(authorization).value, now).value
    ensures r.Err? ==> r.error.status == 401 && r.error.cookie.KeepCookie?
  {
    match ExtractBearer(authorization)
    case None => Err(Send(401, Notice("Not authorized, no token")))
    case Some(token) =>
      match VerifyAccessToken(keys, token, now)
      case Ok(claims) => Ok(claims)
      case Err(_) => Err(Send(401, Notice("Not authorized, invalid token")))
  }

  /** A live access token sent as `Bearer <token>` lets the request through
    * as its user. */
  lemma ProtectAcceptsAccessToken(keys: Keys, id: string, issuedAt: int, now: int)
    requires ValidCodec(keys.codec)
    requires now / 1000 < issuedAt / 1000 + Config.AccessTokenTtl
    ensures Protect(keys, Some("Bearer " + GenerateAccessToken(keys, id, issuedAt)), now) == Ok(Claims(id, None))
  {
    var t := Signed(keys.jwtSecret, Claims(id, None), issuedAt / 1000, issuedAt / 1000 + Config.AccessTokenTtl);
    assert keys.codec.decode(keys.codec.encode(t)) == t;
    BearerRoundTrip(GenerateAccessToken(keys, id, issuedAt));
  }

  /** A refresh token is no access token when the two secrets differ. */
  lemma ProtectRejectsRefreshToken(keys: Keys, id: string, issuedAt: int, now: int)
    requires ValidCodec(keys.codec) && keys.jwtSecret != keys.jwtRefreshSecret
    ensures Protect(keys, Some("Bearer " + GenerateRefreshToken(keys, id, issuedAt)), now) ==
      Err(Send(401, Notice("Not authorized, invalid token")))
  {
    var t := Signed(keys.jwtRefreshSecret, Claims(id, None), issuedAt / 1000, issuedAt / 1000 + Config.RefreshTokenTtl);
    assert keys.codec.decode(keys.codec.encode(t)) == t;
    BearerRoundTrip(GenerateRefreshToken(keys, id, issuedAt));
  }

  /** A stored session is live while its refresh token is a non-empty string. */
  predicate HasSession(u: User) {
    u.refreshToken.Some? && u.refreshToken.value != ""
  }

  /** `checkSession`: the caller's record must still hold a refresh token.
    * A cast error of the id lands in its catch and answers 500. */
  function CheckSession(users: Users, reqUser: Option<Claims>): (g: Gate)
    ensures g.Next? <==> (reqUser.Some? && FindById(users, reqUser.value.id).Found? &&
                          HasSession(FindById(users, reqUser.value.id).user))
    ensures !g.Throw?
  {
    if reqUser.None? then Halt(Send(401, Notice("Not authorized")))
    else
      match FindById(users, reqUser.value.id)
      case CastFailure => Halt(Send(500, Notice("Server error")))
      case Missing => Halt(Send(404, Notice("User not found")))
      case Found(_, u) =>
        if !HasSession(u) then Halt(Send(401, Notice("Session expired. Please login again")))
        else Next
  }

  /** `authorize(...roles)`: the caller's stored role must be one of `roles`.
    * A cast error of the id is not caught here. */
  function Authorize(users: Users, roles: seq<string>, reqUser: Option<Claims>): (g: Gate)
    ensures g.Next? <==> (reqUser.Some? && FindById(users, reqUser.value.id).Found? &&
                          RoleName(FindById(users, reqUser.value.id).user.role) in roles)
    ensures g.Halt? && reqUser.Some? && FindById(users, reqUser.value.id).Found? ==> g.reply.status == 403
    ensures g.Throw? <==> reqUser.Some? && !IsObjectIdText(reqUser.value.id)
  {
    if reqUser.None? then Halt(Send(401, Notice("Not authorized")))
    else
      match FindById(users, reqUser.value.id)
      case CastFailure => Throw(CastError(reqUser.value.id))
      case Missing => Halt(Send(404, Notice("User not found")))
      case Found(_, u) =>
        if RoleName(u.role) !in roles then
          Halt(Send(403, Notice("User role '" + RoleName(u.role) + "' is not authorized to access this route")))
        else Next
  }
}

=== FILE: password_controller.dfy ===
/**
 * The password flows: requesting a reset link, resetting with it, and
 * changing the password while logged in.
 */
module PasswordController {
  import opened Common
  import opened Token
  import opened Credentials
  import opened UserModel
  import opened Store
  import opened Response
  import opened Errors
  import opened Handlers

  /** Lifetime of a stored reset link: one hour in milliseconds. */
  const ResetWindow: int := 60 * 60 * 1000

  const ForgotUnknownMessage := "If that email exists, a reset link has been sent"
  const InvalidResetMessage := "Invalid or expired reset token"

  /** `u` with a reset link stored: the token for its id and email, expiring
    * an hour from `now`. */
  function WithResetLink(env: Env, id: string, u: User, now: int): User {
    u.(resetPasswordToken := Some(GenerateResetToken(env.keys, id, u.email, now)),
       resetPasswordExpire := Some(now + ResetWindow))
  }

  /** `forgotPassword`. `mailDelivered` says whether the reset email went out;
    * when it did not, both reset fields are cleared again. */
  function ForgotPassword(env: Env, users: Users, inputErrors: seq<string>, email: string, now: int,
                          mailDelivered: bool): Step
    requires EmailsUnique(users)
  {
    if inputErrors != [] then Rejected(users, inputErrors)
    else
      match FindByEmail(users, email)
      case None => Raise(env, users, AppError(ForgotUnknownMessage, 400))
      case Some(id) =>
        var u := WithResetLink(env, id, users[id], now);
        var mail := Some(ResetMail(u.email, u.resetPasswordToken.value));
        if !mailDelivered then
          Step(Send(500, Notice("Email could not be sent")),
               users[id := u.(resetPasswordToken := None, resetPasswordExpire := None)], mail)
        else
          Step(Send(200, Done("Password reset email sent")), users[id := u], mail)
  }

  /** `resetPassword` */
  function ResetPassword(env: Env, users: Users, inputErrors: seq<string>, token: string, newPassword: string,
                         now: int): Step
  {
    if inputErrors != [] then Rejected(users, inputErrors)
    else
      match VerifyResetToken(env.keys, token, now)
      case Err(_) => Raise(env, users, AppError(InvalidResetMessage, 400))
      case Ok(claims) =>
        match FindByToken(users, claims.id, claims.email, ResetField, token, now)
        case CastFailure => Raise(env, users, CastError(claims.id))
        case Missing => Raise(env, users, AppError(InvalidResetMessage, 401))
        case Found(id, u) =>
          var u' := u.(password := Hash(newPassword), resetPasswordToken := None, resetPasswordExpire := None,
                       refreshToken := None);
          Step(Send(200, Done("Password reset successful. Please login with your new password.")),
               users[id := u'], None)
  }

  /** `changePassword` */
  function ChangePassword(env: Env, users: Users, reqUser: Option<Claims>, inputErrors: seq<string>,
                          currentPassword: string, newPassword: string): Step
  {
    if reqUser.None? then Answer(users, Send(401, Notice("Not authorized")))
    else if inputErrors != [] then Rejected(users, inputErrors)
    else
      match FindById(users, reqUser.value.id)
      case CastFailure => Raise(env, users, CastError(reqUser.value.id))
      case Missing => Raise(env, users, AppError("User not found", 404))
      case Found(id, u) =>
        if !Matches(currentPassword, u.password) then Raise(env, users, AppError("Current password is incorrect", 400))
        else Step(Send(200, Done("Password changed successfully")), users[id := u.(password := Hash(newPassword))], None)
  }

  // ---- properties of one request ----

  /** The stored link verifies, for its hour, to the user's id and email;
    * both reset fields are set together and nothing else changes. */
  lemma WithResetLinkToken(env: Env, id: string, u: User, now: int, later: int)
    requires ValidCodec(env.keys.codec)
    requires later / 1000 < now / 1000 + Config.ResetTokenTtl
    ensures var v := WithResetLink(env, id, u, now);
      v.resetPasswordToken.Some? && v.resetPasswordExpire == Some(now + ResetWindow) &&
      VerifyResetToken(env.keys, v.resetPasswordToken.value, later) == Ok(Claims(id, Some(u.email))) &&
      v.(resetPasswordToken := u.resetPasswordToken, resetPasswordExpire := u.resetPasswordExpire) == u
  {
    GeneratedTokensRoundTrip(env.keys, id, u.email, now, later);
  }

  /** An unknown email is refused with 400 (no "always success" here) and
    * nothing is stored or sent. */
  lemma ForgotUnknownEmail(env: Env, users: Users, email: string, now: int, mailDelivered: bool)
    requires EmailsUnique(users)
    requires forall id :: id in users ==> users[id].email != Normalize(email)
    ensures var s := ForgotPassword(env, users, [], email, now, mailDelivered);
      s.users == users && s.mail.None? && s.reply.status == 400 &&
      s.reply.body == Failed(ForgotUnknownMessage, env.nodeEnvVar == "development")
  {
    AppErrorPassesThrough(ForgotUnknownMessage, 400, env.nodeEnvVar);
  }

  /** For a known email the token bound to (id, email) and its one-hour
    * expiry are set together and mailed; if the mail fails, both are cleared
    * together, so no live reset link remains, and the reply is 500. */
  lemma ForgotKnownEmail(env: Env, users: Users, email: string, now: int, mailDelivered: bool)
    requires EmailsUnique(users)
    requires FindByEmail(users, email).Some?
    ensures var id := FindByEmail(users, email).value;
      var u := users[id];
      var token := GenerateResetToken(env.keys, id, u.email, now);
      var s := ForgotPassword(env, users, [], email, now, mailDelivered);
      s.mail == Some(ResetMail(u.email, token)) &&
      (mailDelivered ==>
         s.reply.status == 200 &&
         s.users == users[id := u.(resetPasswordToken := Some(token), resetPasswordExpire := Some(now + ResetWindow))]) &&
      (!mailDelivered ==>
         s.reply == Send(500, Notice("Email could not be sent")) &&
         s.users == users[id := u.(resetPasswordToken := None, resetPasswordExpire := None)])
  {
  }

  /** resetPassword answers 400 for a token that fails verification and 401
    * when no user holds it live under the token's id and email; neither
    * changes anything. */
  lemma ResetRejects(env: Env, users: Users, token: string, newPassword: string, now: int)
    ensures var s := ResetPassword(env, users, [], token, newPassword, now);
      var v := VerifyResetToken(env.keys, token, now);
      (v.Err? ==> s.reply.status == 400 && s.users == users) &&
      (v.Ok? && IsObjectIdText(v.value.id) &&
       FindByToken(users, v.value.id, v.value.email, ResetField, token, now).Missing? ==>
         s.reply.status == 401 && s.users == users)
  {
    AppErrorPassesThrough(InvalidResetMessage, 400, env.nodeEnvVar);
    AppErrorPassesThrough(InvalidResetMessage, 401, env.nodeEnvVar);
  }

  /** A successful reset stores the new hash, clears both reset fields and
    * the refresh token, and touches nothing else. */
  lemma ResetSucceeds(env: Env, users: Users, token: string, newPassword: string, now: int)
    requires VerifyResetToken(env.keys, token, now).Ok?
    requires var c := VerifyResetToken(env.keys, token, now).value;
      FindByToken(users, c.id, c.email, ResetField, token, now).Found?
    ensures var c := VerifyResetToken(env.keys, token, now).value;
      var id := CanonicalId(c.id);
      var s := ResetPassword(env, users, [], token, newPassword, now);
      s.reply.status == 200 &&
      s.users == users[id := users[id].(password := Hash(newPassword), resetPasswordToken := None,
                                        resetPasswordExpire := None, refreshToken := None)]
  {
  }

  /** changePassword: 401 without a caller, 404 for a vanished one, 400 for
    * a wrong current password; on success only the password hash changes,
    * and the session (the refresh token) survives. */
  lemma ChangePasswordOutcomes(env: Env, users: Users, reqUser: Option<Claims>, current: string, newPassword: string)
    ensures var s := ChangePassword(env, users, reqUser, [], current, newPassword);
      (reqUser.None? ==> s.reply == Send(401, Notice("Not authorized")) && s.users == users) &&
      (reqUser.Some? && FindById(users, reqUser.value.id).Missing? ==> s.reply.status == 404 && s.users == users) &&
      (reqUser.Some? && FindById(users, reqUser.value.id).Found? ==>
         var id := FindById(users, reqUser.value.id).id;
         (!Matches(current, users[id].password) ==>
            s.reply.status == 400 && s.reply.body.message == "Current password is incorrect" && s.users == users) &&
         (Matches(current, users[id].password) ==>
            s.reply.status == 200 && s.users == users[id := users[id].(password := Hash(newPassword))] &&
            s.users[id].refreshToken == users[id].refreshToken))
  {
    AppErrorPassesThrough("User not found", 404, env.nodeEnvVar);
    AppErrorPassesThrough("Current password is incorrect", 400, env.nodeEnvVar);
  }
}

=== FILE: password_hash.dfy ===
/**
 * The credential hasher (bcryptjs). Salts, the work factor and one-wayness
 * are not modelled: `Hash` is an injective stand-in shaped like a bcrypt
 * string (a 29-character "$2a$10$" + salt prefix followed by the digest).
 */
module Credentials {

  const HashPrefix: string := "$2a$10$" + "N9qo8uLOickgx2ZMRZoMye"

  /** `bcrypt.hash(password, salt)`: always longer than the schema's minimum
    * password length, as a real 60-character bcrypt string is. */
  function Hash(password: string): (h: string)
    ensures |h| >= 29
  {
    HashPrefix + password
  }

  /** `bcrypt.compare(password, hash)`. */
  predicate Matches(password: string, hash: string) {
    hash == Hash(password)
  }

  /** A stored hash accepts exactly the password it was made from. */
  lemma MatchesOnlyItsPassword(password: string, original: string)
    ensures Matches(password, Hash(original)) <==> password == original
  {
    if Hash(original) == Hash(password) {
      assert Hash(original)[|HashPrefix|..] == original;
      assert Hash(password)[|HashPrefix|..] == password;
    }
  }
}

=== FILE: response.dfy ===
/**
 * What a handler sends back: a status, a JSON body and what happens to the
 * refresh cookie. Also the public projection of a user and the cookie
 * options of the refresh token.
 */
module Response {
  import opened Common
  import opened UserModel
  import Config

  /** `formatUserResponse`: the fields a client may see. */
  datatype PublicUser = PublicUser(id: string, name: string, email: string, role: Role, isVerified: bool)

  /** A user as the admin queries return it: every field except `password`,
    * `refreshToken` and `resetPasswordToken`. */
  datatype UserView = UserView(
    id: string,
    name: string,
    email: string,
    role: Role,
    resetPasswordExpire: Option<int>,
    isVerified: bool,
    verificationToken: Option<string>,
    verificationTokenExpire: Option<int>,
    createdAt: int)

  /** The `user` object of a successful role update. */
  datatype RoleView = RoleView(id: string, name: string, email: string, role: Role)

  datatype Stats = Stats(totalUsers: nat, adminUsers: nat, regularUsers: nat, recentUsers: nat)

  /** The JSON bodies the handlers and middleware send. */
  datatype Body =
    | Notice(message: string)                       // { message }
    | Done(message: string)                         // { success: true, message }
    | Failed(message: string, withStack: bool)      // errorHandler: { success: false, message, stack? }
    | InputErrors(errors: seq<string>)              // { errors } from the request validators
    | Unverified(message: string)                   // { message, requiresVerification: true }
    | Registered(message: string, user: PublicUser)
    | LoggedIn(token: string, user: PublicUser)
    | Refreshed(token: string)
    | Me(user: PublicUser)
    | RoleUpdated(message: string, updated: RoleView)
    | UserList(count: nat, users: seq<UserView>)
    | OneUser(view: UserView)
    | Statistics(stats: Stats)

  datatype Cookie = Cookie(
    name: string,
    value: string,
    httpOnly: bool,
    secure: bool,
    sameSite: string,
    maxAge: int)

  /** What the response does to the client's cookies. */
  datatype CookieOp = KeepCookie | SetCookie(cookie: Cookie) | ClearCookie(name: string)

  datatype Reply = Reply(status: int, body: Body, cookie: CookieOp)

  /** A reply that leaves the cookies alone. */
  function Send(status: int, body: Body): Reply {
    Reply(status, body, KeepCookie)
  }

  /** `formatUserResponse(user)`, where `id` is `user._id.toString()`. */
  function FormatUserResponse(id: string, u: User): (p: PublicUser)
    ensures p.id == id && p.name == u.name && p.email == u.email && p.role == u.role && p.isVerified == u.isVerified
  {
    PublicUser(id, u.name, u.email, u.role, u.isVerified)
  }

  /** The projection depends only on id, name, email, role and verification
    * status: no password, token or expiry can reach the client through it. */
  lemma FormatIgnoresSecrets(id: string, u: User, v: User)
    requires u.name == v.name && u.email == v.email && u.role == v.role && u.isVerified == v.isVerified
    ensures FormatUserResponse(id, u) == FormatUserResponse(id, v)
  {
  }

  /** Two users with the same projection agree on every visible field. */
  lemma FormatDeterminesVisibleFields(id: string, u: User, v: User)
    requires FormatUserResponse(id, u) == FormatUserResponse(id, v)
    ensures u.name == v.name && u.email == v.email && u.role == v.role && u.isVerified == v.isVerified
  {
  }

  /** The admin projection of a stored user. */
  function ViewOf(id: string, u: User): (v: UserView)
    ensures v.id == id && v.name == u.name && v.email == u.email && v.role == u.role
    ensures v.resetPasswordExpire == u.resetPasswordExpire && v.isVerified == u.isVerified
    ensures v.verificationToken == u.verificationToken && v.verificationTokenExpire == u.verificationTokenExpire
    ensures v.createdAt == u.createdAt
  {
    UserView(id, u.name, u.email, u.role, u.resetPasswordExpire, u.isVerified,
             u.verificationToken, u.verificationTokenExpire, u.createdAt)
  }

  /** The admin projection never carries the password, the refresh token or
    * the reset token: users differing only there look the same. */
  lemma ViewIgnoresSecrets(id: string, u: User, password: string, refresh: Option<string>, reset: Option<string>)
    ensures ViewOf(id, u) == ViewOf(id, u.(password := password, refreshToken := refresh, resetPasswordToken := reset))
  {
  }

  const RefreshCookieName := "refreshToken"

  /** The options of `setRefreshTokenCookie`; `nodeEnvVar` is NODE_ENV as
    * set in the environment ("" when unset). */
  function RefreshCookie(nodeEnvVar: string, token: string): (c: Cookie)
    ensures c.name == RefreshCookieName && c.value == token
    ensures c.httpOnly && c.sameSite == "strict" && c.maxAge == Config.CookieMaxAge
    ensures c.secure <==> nodeEnvVar == "production"
  {
    Cookie(RefreshCookieName, token, true, Config.ConfiguredNodeEnv(nodeEnvVar) == "production",
           "strict", Config.CookieMaxAge)
  }

  /** `setRefreshTokenCookie(res, token)` */
  function SetRefreshCookie(nodeEnvVar: string, token: string): CookieOp {
    SetCookie(RefreshCookie(nodeEnvVar, token))
  }

  /** `clearRefreshTokenCookie(res)` */
  function ClearRefreshCookie(): CookieOp {
    ClearCookie(RefreshCookieName)
  }

  /** Clearing removes the very cookie that setting writes. */
  lemma ClearRemovesWhatSetWrites(nodeEnvVar: string, token: string)
    ensures ClearRefreshCookie().name == SetRefreshCookie(nodeEnvVar, token).cookie.name
  {
  }
}

=== FILE: routes.dfy ===
/**
 * The middleware chains in front of the protected handlers:
 * `protect, checkSession` for logout, me and change-password, and
 * `protect, checkSession, authorize("admin")` for every admin route.
 */
module Routes {
  import opened Common
  import opened Token
  import opened UserModel
  import opened Store
  import opened Response
  import opened Errors
  import opened Middleware
  import opened Handlers
  import AuthController
  import PasswordController
  import AdminController

  /** A request behind the chain, with what its handler reads from the body
    * and the path. */
  datatype ProtectedRoute =
    | LogoutRoute
    | MeRoute
    | ChangePasswordRoute(inputErrors: seq<string>, currentPassword: string, newPassword: string)
    | ListUsersRoute
    | UserByIdRoute(targetId: string)
    | UpdateRoleRoute(targetId: string, role: Option<string>)
    | DeleteUserRoute(targetId: string)
    | StatsRoute(recentSince: int)

  /** The routes mounted under `router.use(protect, checkSession, authorize("admin"))`. */
  predicate AdminOnly(route: ProtectedRoute) {
    route.ListUsersRoute? || route.UserByIdRoute? || route.UpdateRoleRoute? ||
    route.DeleteUserRoute? || route.StatsRoute?
  }

  /** Running the chain: the caller's claims when every gate calls `next()`,
    * otherwise the reply of the gate that answered. `authorize` only throws
    * for an id that does not cast, and `checkSession` has already answered
    * such a request with 500. */
  function Admit(env: Env, users: Users, authorization: Option<string>, now: int, adminOnly: bool)
    : (r: Result<Claims, Reply>)
    ensures r.Ok? <==>
      (Protect(env.keys, authorization, now).Ok? &&
       CheckSession(users, Some(Protect(env.keys, authorization, now).value)).Next? &&
       (adminOnly ==> Authorize(users, ["admin"], Some(Protect(env.keys, authorization, now).value)).Next?))
    ensures r.Ok? ==> r.value == Protect(env.keys, authorization, now).value
  {
    match Protect(env.keys, authorization, now)
    case Err(reply) => Err(reply)
    case Ok(claims) =>
      match CheckSession(users, Some(claims))
      case Halt(reply) => Err(reply)
      case Throw(_) => assert false; Err(Send(500, Notice("Server error")))
      case Next =>
        if !adminOnly then Ok(claims)
        else
          match Authorize(users, ["admin"], Some(claims))
          case Halt(reply) => Err(reply)
          case Throw(_) => assert false; Err(Send(500, Notice("Server error")))
          case Next => Ok(claims)
  }

  /** The handler a route ends in, called with `req.user` set; the listing,
    * whose order among users created at the same instant is the database's,
    * is described by `AdminController.IsListing` instead. */
  function Dispatch(env: Env, users: Users, caller: Claims, route: ProtectedRoute): Step
    requires !route.ListUsersRoute?
  {
    match route
    case LogoutRoute => AuthController.Logout(env, users, Some(caller))
    case MeRoute => AuthController.GetMe(env, users, Some(caller))
    case ChangePasswordRoute(errs, current, newPassword) =>
      PasswordController.ChangePassword(env, users, Some(caller), errs, current, newPassword)
    case UserByIdRoute(targetId) => AdminController.GetUserById(env, users, targetId)
    case UpdateRoleRoute(targetId, role) => AdminController.UpdateUserRole(env, users, Some(caller), targetId, role)
    case DeleteUserRoute(targetId) => AdminController.DeleteUser(env, users, Some(caller), targetId)
    case StatsRoute(recentSince) => Answer(users, AdminController.GetUserStats(users, recentSince))
  }

  /** `s` is an outcome of a protected request, from the `Authorization`
    * header to the reply. */
  predicate Served(env: Env, users: Users, authorization: Option<string>, now: int, route: ProtectedRoute, s: Step) {
    match Admit(env, users, authorization, now, AdminOnly(route))
    case Err(reply) => s == Answer(users, reply)
    case Ok(caller) =>
      if route.ListUsersRoute? then s.users == users && s.mail.None? && AdminController.IsListing(users, s.reply)
      else s == Dispatch(env, users, caller, route)
  }
}

=== FILE: store.dfy ===
/**
 * The user collection as a map from the string form of each `_id` to the
 * stored record, with the two lookups the handlers use: by id (which first
 * casts the id to an ObjectId) and by email (which first applies the email
 * setters to the query value).
 */
module Store {
  import opened Common
  import opened Text
  import opened UserModel

  type Users = map<string, User>

  predicate IsHexDigit(c: char) {
    '0' <= c <= '9' || 'a' <= c <= 'f' || 'A' <= c <= 'F'
  }

  /** Text Mongoose casts to an ObjectId: 24 hexadecimal digits. */
  predicate IsObjectIdText(s: string) {
    |s| == 24 && forall i :: 0 <= i < |s| ==> IsHexDigit(s[i])
  }

  /** The string form of an ObjectId: 24 lower-case hexadecimal digits. */
  predicate IsCanonicalId(s: string) {
    IsObjectIdText(s) && IsLower(s)
  }

  /** `new ObjectId(s).toString()` */
  function CanonicalId(s: string): (r: string)
    requires IsObjectIdText(s)
    ensures IsCanonicalId(r)
    ensures IsCanonicalId(s) ==> r == s
  {
    assert IsLower(s) ==> ToLower(s) == s by {
      if IsLower(s) { LowerOfLower(s); }
    }
    var r := ToLower(s);
    assert forall i :: 0 <= i < |r| ==> IsHexDigit(r[i]) by {
      forall i | 0 <= i < |r| ensures IsHexDigit(r[i]) { assert IsHexDigit(s[i]); }
    }
    r
  }

  /** The result of `findById`. */
  datatype Lookup = Found(id: string, user: User) | Missing | CastFailure

  /** `User.findById(id)`: a cast error for text that is not an ObjectId,
    * otherwise the user stored under its canonical form, if any. */
  function FindById(users: Users, id: string): (r: Lookup)
    ensures r.CastFailure? <==> !IsObjectIdText(id)
    ensures r.Found? ==> r.id == CanonicalId(id) && r.id in users && r.user == users[r.id]
    ensures r.Missing? ==> CanonicalId(id) !in users
  {
    if !IsObjectIdText(id) then CastFailure
    else
      var key := CanonicalId(id);
      if key in users then Found(key, users[key]) else Missing
  }

  /** The two single-use links a user record can hold. */
  datatype TokenField = ResetField | VerificationField

  function StoredToken(u: User, field: TokenField): Option<string> {
    match field
    case ResetField => u.resetPasswordToken
    case VerificationField => u.verificationToken
  }

  function StoredExpiry(u: User, field: TokenField): Option<int> {
    match field
    case ResetField => u.resetPasswordExpire
    case VerificationField => u.verificationTokenExpire
  }

  /** The stored link of `u` is `token` and expires after `now`. */
  predicate HoldsLiveToken(u: User, field: TokenField, token: string, now: int) {
    StoredToken(u, field) == Some(token) && StoredExpiry(u, field).Some? && StoredExpiry(u, field).value > now
  }

  /** `User.findOne({ _id: id, email, <field>: token, <field>Expire: { $gt: now } })`:
    * the id is cast as in `findById`; a payload without an email matches no one.
    * The payload email is compared as it stands, without the `lowercase` and
    * `trim` setters the query applies: a match also needs the stored token to
    * equal `token`, and every stored link is minted from the record's stored,
    * already normalised email, so the setters cannot change the outcome. */
  function FindByToken(users: Users, id: string, email: Option<string>, field: TokenField, token: string, now: int): (r: Lookup)
    ensures r.CastFailure? <==> !IsObjectIdText(id)
    ensures r.Found? <==> (IsObjectIdText(id) && CanonicalId(id) in users &&
                           Some(users[CanonicalId(id)].email) == email &&
                           HoldsLiveToken(users[CanonicalId(id)], field, token, now))
    ensures r.Found? ==> r.id == CanonicalId(id) && r.user == users[r.id]
  {
    match FindById(users, id)
    case CastFailure => CastFailure
    case Missing => Missing
    case Found(key, u) =>
      if Some(u.email) == email && HoldsLiveToken(u, field, token, now) then Found(key, u) else Missing
  }

  /** The `unique` index on `email`: no two users share an email. */
  predicate EmailsUnique(users: Users) {
    forall a, b :: a in users && b in users && users[a].email == users[b].email ==> a == b
  }

  /** `User.findOne({ email })`: the id of the user whose stored email equals
    * the normalised query value. */
  function FindByEmail(users: Users, email: string): (r: Option<string>)
    requires EmailsUnique(users)
    ensures r.Some? ==> r.value in users && users[r.value].email == Normalize(email)
    ensures r.None? <==> forall id :: id in users ==> users[id].email != Normalize(email)
  {
    var e := Normalize(email);
    if exists id :: id in users && users[id].email == e then
      var id :| id in users && users[id].email == e;
      Some(id)
    else
      None
  }

  /** At most one user answers a given email: the lookup finds exactly the
    * holder of the normalised address. */
  lemma FindByEmailUnique(users: Users, email: string, id: string)
    requires EmailsUnique(users)
    requires id in users && users[id].email == Normalize(email)
    ensures FindByEmail(users, email) == Some(id)
  {
  }

  /** Updating a user without touching its email keeps emails unique. */
  lemma UpdateKeepsEmailsUnique(users: Users, id: string, u: User)
    requires EmailsUnique(users) && id in users && u.email == users[id].email
    ensures EmailsUnique(users[id := u])
  {
  }

  /** Removing a user keeps emails unique. */
  lemma RemoveKeepsEmailsUnique(users: Users, id: string)
    requires EmailsUnique(users)
    ensures EmailsUnique(users - {id})
  {
  }

  /** Adding a user under a new id with an unused email keeps emails unique. */
  lemma InsertKeepsEmailsUnique(users: Users, id: string, u: User)
    requires EmailsUnique(users) && id !in users
    requires forall other :: other in users ==> users[other].email != u.email
    ensures EmailsUnique(users[id := u])
  {
  }
}

=== FILE: text.dfy ===
/**
 * String helpers that the source takes from JavaScript's String API:
 * `trim`, `toLowerCase`, `startsWith`, `endsWith`, `split(" ")` and
 * `Array.prototype.join`.
 */
module Text {

  /** The white space `String.prototype.trim` removes (the Unicode space
    * separators beyond these are not part of this model). */
  predicate IsWhitespace(c: char) {
    c == ' ' || c == '\t' || c == '\n' || c == '\r' || c == '\U{B}' || c == '\U{C}'
    || c == '\U{A0}' || c == '\U{FEFF}' || c == '\U{2028}' || c == '\U{2029}'
  }

  /** Drops leading white space. */
  function TrimStart(s: string): (r: string)
    ensures |r| <= |s| && r == s[|s| - |r|..]
    ensures forall i :: 0 <= i < |s| - |r| ==> IsWhitespace(s[i])
    ensures r == [] || !IsWhitespace(r[0])
  {
    if s != [] && IsWhitespace(s[0]) then
      var r := TrimStart(s[1..]);
      assert forall i :: 1 <= i < |s| - |r| ==> s[i] == s[1..][i - 1];
      assert s[1..][|s| - 1 - |r|..] == s[|s| - |r|..];
      r
    else s
  }

  /** Drops trailing white space. */
  function TrimEnd(s: string): (r: string)
    ensures |r| <= |s| && r == s[..|r|]
    ensures forall i :: |r| <= i < |s| ==> IsWhitespace(s[i])
    ensures r == [] || !IsWhitespace(r[|r| - 1])
  {
    if s != [] && IsWhitespace(s[|s| - 1]) then
      var r := TrimEnd(s[..|s| - 1]);
      assert forall i :: |r| <= i < |s| - 1 ==> s[i] == s[..|s| - 1][i];
      assert s[..|s| - 1][..|r|] == s[..|r|];
      r
    else s
  }

  /** `s.trim()`: neither end of the result is white space. */
  function Trim(s: string): (r: string)
    ensures |r| <= |s|
    ensures r == [] || (!IsWhitespace(r[0]) && !IsWhitespace(r[|r| - 1]))
  {
    TrimEnd(TrimStart(s))
  }

  /** Trimming twice is trimming once. */
  lemma TrimIdempotent(s: string)
    ensures Trim(Trim(s)) == Trim(s)
  {
    var t := Trim(s);
    assert TrimStart(t) == t;
    assert TrimEnd(t) == t;
  }

  predicate IsUpperAscii(c: char) { 'A' <= c <= 'Z' }

  function LowerChar(c: char): (d: char)
    ensures !IsUpperAscii(d)
    ensures !IsUpperAscii(c) ==> d == c
  {
    if IsUpperAscii(c) then (c as int + 32) as char else c
  }

  /** `s.toLowerCase()` on the ASCII letters. */
  function ToLower(s: string): (r: string)
    ensures |r| == |s|
    ensures forall i :: 0 <= i < |s| ==> r[i] == LowerChar(s[i])
  {
    seq(|s|, i requires 0 <= i < |s| => LowerChar(s[i]))
  }

  predicate IsLower(s: string) {
    forall i :: 0 <= i < |s| ==> !IsUpperAscii(s[i])
  }

  /** Lower-casing a string with no upper-case letter leaves it alone. */
  lemma LowerOfLower(s: string)
    requires IsLower(s)
    ensures ToLower(s) == s
  {
  }

  /** Trimming keeps a lower-case string lower-case: it only drops characters. */
  lemma TrimKeepsLower(s: string)
    requires IsLower(s)
    ensures IsLower(Trim(s))
  {
    var t := TrimStart(s);
    var r := TrimEnd(t);
    var k := |s| - |t|;
    assert t == s[k..];
    forall i | 0 <= i < |r| ensures !IsUpperAscii(r[i]) {
      assert r[i] == t[i];
      assert t[i] == s[k + i];
    }
  }

  predicate StartsWith(s: string, prefix: string) {
    |prefix| <= |s| && s[..|prefix|] == prefix
  }

  predicate EndsWith(s: string, suffix: string) {
    |suffix| <= |s| && s[|s| - |suffix|..] == suffix
  }

  /** Index of the first occurrence of `c` in `s`. */
  function IndexOf(s: string, c: char): (i: nat)
    requires c in s
    ensures i < |s| && s[i] == c && c !in s[..i]
  {
    if s[0] == c then 0
    else
      assert c in s[1..] by { assert s == [s[0]] + s[1..]; }
      var j := IndexOf(s[1..], c);
      assert s[..j + 1] == [s[0]] + s[1..][..j];
      j + 1
  }

  /** `s.split(sep)` for a one-character separator: the maximal runs between
    * separators, including empty ones. */
  function Split(s: string, sep: char): (parts: seq<string>)
    ensures |parts| >= 1
    ensures forall k :: 0 <= k < |parts| ==> sep !in parts[k]
    decreases |s|
  {
    if sep !in s then [s]
    else
      var i := IndexOf(s, sep);
      [s[..i]] + Split(s[i + 1..], sep)
  }

  /** `parts.join(sep)` for a one-character separator. */
  function Join(parts: seq<string>, sep: char): string {
    if parts == [] then ""
    else if |parts| == 1 then parts[0]
    else parts[0] + [sep] + Join(parts[1..], sep)
  }

  /** Joining the pieces of a split gives back the original string. */
  lemma {:induction false} JoinSplit(s: string, sep: char)
    ensures Join(Split(s, sep), sep) == s
    decreases |s|
  {
    if sep in s {
      var i := IndexOf(s, sep);
      var rest := Split(s[i + 1..], sep);
      assert Split(s, sep) == [s[..i]] + rest;
      assert ([s[..i]] + rest)[1..] == rest;
      assert Join(Split(s, sep), sep) == s[..i] + [sep] + Join(rest, sep);
      JoinSplit(s[i + 1..], sep);
      assert s == s[..i] + [sep] + s[i + 1..];
    }
  }

  /** Splitting `a + [sep] + b`, where `a` holds no separator, gives `a` first
    * and then the pieces of `b`. */
  lemma SplitAfterFirst(a: string, sep: char, b: string)
    requires sep !in a
    ensures Split(a + [sep] + b, sep) == [a] + Split(b, sep)
  {
    var s := a + [sep] + b;
    assert s[|a|] == sep;
    assert s[..|a|] == a;
    var i := IndexOf(s, sep);
    assert s[..i] == a;
    assert s[i + 1..] == b;
  }

  /** `parts.join(sep)` for a string separator, as `Array.prototype.join`. */
  function JoinWith(parts: seq<string>, sep: string): string {
    if parts == [] then ""
    else if |parts| == 1 then parts[0]
    else parts[0] + sep + JoinWith(parts[1..], sep)
  }
}

=== FILE: token.dfy ===
/**
 * The token codec: access, refresh, password-reset and email-verification
 * tokens. A signed token is the value `Signed(secret, claims, iat, exp)`; its
 * text is produced by an abstract codec standing for jsonwebtoken's
 * serialisation and HMAC signature. Times inside a token are whole seconds
 * (the NumericDate of section 4.1.4 of RFC 7519); the clock is milliseconds.
 */
module Token {
  import opened Common
  import Config

  /** The payload: `{id}` for access and refresh tokens, `{id, email}` for
    * reset and verification tokens. */
  datatype Claims = Claims(id: string, email: Option<string>)

  datatype Jwt =
    | Signed(secret: string, claims: Claims, iat: int, exp: int)
    | Malformed

  /** Text form of tokens: `decode` parses a text and recovers the key it was
    * signed with; anything that is not a token decodes to `Malformed`. */
  datatype Codec = Codec(encode: Jwt -> string, decode: string -> Jwt)

  /** What the model assumes of jsonwebtoken's serialisation: parsing the
    * text of a signed token gives it back, and the text is a non-empty
    * string without spaces (three base64url segments joined by dots). */
  ghost predicate ValidCodec(c: Codec) {
    forall t: Jwt {:trigger c.encode(t)} :: t.Signed? ==>
      c.decode(c.encode(t)) == t && c.encode(t) != "" && ' ' !in c.encode(t)
  }

  /** The two signing secrets (`jwtSecret`, `jwtRefreshSecret`) and the codec. */
  datatype Keys = Keys(jwtSecret: string, jwtRefreshSecret: string, codec: Codec)

  /** Errors of `jwt.verify`. */
  datatype JwtError = JsonWebTokenError(message: string) | TokenExpiredError

  /** The verification-token lifetime is not taken from the configuration:
    * it is written as "24h" where the token is generated. */
  const VerificationTokenTtl: int := 24 * 60 * 60

  /** `jwt.sign(payload, secret, {expiresIn})` at clock `nowMs`: `iat` is the
    * current second, `exp` is `iat + ttl`. */
  function Sign(codec: Codec, secret: string, claims: Claims, nowMs: int, ttl: int): string {
    codec.encode(Signed(secret, claims, nowMs / 1000, nowMs / 1000 + ttl))
  }

  /** `jwt.verify(text, secret)` at clock `nowMs`: the signature is checked
    * first, then the expiry (a token is expired from second `exp` on). */
  function Verify(codec: Codec, secret: string, text: string, nowMs: int): Result<Claims, JwtError> {
    match codec.decode(text)
    case Malformed => Err(JsonWebTokenError("jwt malformed"))
    case Signed(s, claims, iat, exp) =>
      if s != secret then Err(JsonWebTokenError("invalid signature"))
      else if nowMs / 1000 >= exp then Err(TokenExpiredError)
      else Ok(claims)
  }

  function GenerateAccessToken(keys: Keys, userId: string, nowMs: int): string {
    Sign(keys.codec, keys.jwtSecret, Claims(userId, None), nowMs, Config.AccessTokenTtl)
  }

  function GenerateRefreshToken(keys: Keys, userId: string, nowMs: int): string {
    Sign(keys.codec, keys.jwtRefreshSecret, Claims(userId, None), nowMs, Config.RefreshTokenTtl)
  }

  function VerifyAccessToken(keys: Keys, text: string, nowMs: int): Result<Claims, JwtError> {
    Verify(keys.codec, keys.jwtSecret, text, nowMs)
  }

  function VerifyRefreshToken(keys: Keys, text: string, nowMs: int): Result<Claims, JwtError> {
    Verify(keys.codec, keys.jwtRefreshSecret, text, nowMs)
  }

  datatype TokenPair = TokenPair(accessToken: string, refreshToken: string)

  /** Both tokens of a session, for the same user id. */
  function GenerateTokens(keys: Keys, userId: string, nowMs: int): TokenPair {
    TokenPair(GenerateAccessToken(keys, userId, nowMs), GenerateRefreshToken(keys, userId, nowMs))
  }

  /** The pair carries the same user id in both tokens, each under its own secret. */
  lemma GenerateTokensSameUser(keys: Keys, userId: string, nowMs: int)
    requires ValidCodec(keys.codec)
    ensures VerifyAccessToken(keys, GenerateTokens(keys, userId, nowMs).accessToken, nowMs) == Ok(Claims(userId, None))
    ensures VerifyRefreshToken(keys, GenerateTokens(keys, userId, nowMs).refreshToken, nowMs) == Ok(Claims(userId, None))
  {
    SignVerifyRoundTrip(keys.codec, keys.jwtSecret, Claims(userId, None), nowMs, Config.AccessTokenTtl, nowMs);
    SignVerifyRoundTrip(keys.codec, keys.jwtRefreshSecret, Claims(userId, None), nowMs, Config.RefreshTokenTtl, nowMs);
  }

  function GenerateResetToken(keys: Keys, userId: string, email: string, nowMs: int): string {
    Sign(keys.codec, keys.jwtSecret, Claims(userId, Some(email)), nowMs, Config.ResetTokenTtl)
  }

  function VerifyResetToken(keys: Keys, text: string, nowMs: int): Result<Claims, JwtError> {
    Verify(keys.codec, keys.jwtSecret, text, nowMs)
  }

  function GenerateVerificationToken(keys: Keys, userId: string, email: string, nowMs: int): string {
    Sign(keys.codec, keys.jwtSecret, Claims(userId, Some(email)), nowMs, VerificationTokenTtl)
  }

  function VerifyVerificationToken(keys: Keys, text: string, nowMs: int): Result<Claims, JwtError> {
    Verify(keys.codec, keys.jwtSecret, text, nowMs)
  }

  /** Round trip: a token verifies under the secret it was signed with, and
    * gives back its payload, exactly while its expiry second lies ahead. */
  lemma SignVerifyRoundTrip(codec: Codec, secret: string, claims: Claims, nowMs: int, ttl: int, laterMs: int)
    requires ValidCodec(codec)
    ensures Verify(codec, secret, Sign(codec, secret, claims, nowMs, ttl), laterMs) ==
      if laterMs / 1000 < nowMs / 1000 + ttl then Ok(claims) else Err(TokenExpiredError)
  {
    var t := Signed(secret, claims, nowMs / 1000, nowMs / 1000 + ttl);
    assert codec.decode(codec.encode(t)) == t;
  }

  /** A token never verifies under a secret other than its own. */
  lemma WrongSecretFails(codec: Codec, secret: string, other: string, claims: Claims, nowMs: int, ttl: int, laterMs: int)
    requires ValidCodec(codec)
    requires secret != other
    ensures Verify(codec, other, Sign(codec, secret, claims, nowMs, ttl), laterMs) ==
      Err(JsonWebTokenError("invalid signature"))
  {
    var t := Signed(secret, claims, nowMs / 1000, nowMs / 1000 + ttl);
    assert codec.decode(codec.encode(t)) == t;
  }

  /** Each generated token verifies with its own verify function, giving back
    * its payload, for the whole of its lifetime and not after. */
  lemma GeneratedTokensRoundTrip(keys: Keys, userId: string, email: string, nowMs: int, laterMs: int)
    requires ValidCodec(keys.codec)
    ensures VerifyAccessToken(keys, GenerateAccessToken(keys, userId, nowMs), laterMs) ==
      if laterMs / 1000 < nowMs / 1000 + Config.AccessTokenTtl then Ok(Claims(userId, None)) else Err(TokenExpiredError)
    ensures VerifyRefreshToken(keys, GenerateRefreshToken(keys, userId, nowMs), laterMs) ==
      if laterMs / 1000 < nowMs / 1000 + Config.RefreshTokenTtl then Ok(Claims(userId, None)) else Err(TokenExpiredError)
    ensures VerifyResetToken(keys, GenerateResetToken(keys, userId, email, nowMs), laterMs) ==
      if laterMs / 1000 < nowMs / 1000 + Config.ResetTokenTtl then Ok(Claims(userId, Some(email))) else Err(TokenExpiredError)
    ensures VerifyVerificationToken(keys, GenerateVerificationToken(keys, userId, email, nowMs), laterMs) ==
      if laterMs / 1000 < nowMs / 1000 + VerificationTokenTtl then Ok(Claims(userId, Some(email))) else Err(TokenExpiredError)
  {
    SignVerifyRoundTrip(keys.codec, keys.jwtSecret, Claims(userId, None), nowMs, Config.AccessTokenTtl, laterMs);
    SignVerifyRoundTrip(keys.codec, keys.jwtRefreshSecret, Claims(userId, None), nowMs, Config.RefreshTokenTtl, laterMs);
    SignVerifyRoundTrip(keys.codec, keys.jwtSecret, Claims(userId, Some(email)), nowMs, Config.ResetTokenTtl, laterMs);
    SignVerifyRoundTrip(keys.codec, keys.jwtSecret, Claims(userId, Some(email)), nowMs, VerificationTokenTtl, laterMs);
  }

  /** With distinct secrets, access and refresh tokens are never mistaken for
    * one another. */
  lemma AccessAndRefreshDisjoint(keys: Keys, userId: string, nowMs: int, laterMs: int)
    requires ValidCodec(keys.codec)
    requires keys.jwtSecret != keys.jwtRefreshSecret
    ensures VerifyRefreshToken(keys, GenerateAccessToken(keys, userId, nowMs), laterMs).Err?
    ensures VerifyAccessToken(keys, GenerateRefreshToken(keys, userId, nowMs), laterMs).Err?
  {
    WrongSecretFails(keys.codec, keys.jwtSecret, keys.jwtRefreshSecret, Claims(userId, None), nowMs, Config.AccessTokenTtl, laterMs);
    WrongSecretFails(keys.codec, keys.jwtRefreshSecret, keys.jwtSecret, Claims(userId, None), nowMs, Config.RefreshTokenTtl, laterMs);
  }

  /** Access, reset and verification tokens share `jwtSecret`, so the codec
    * does not tell them apart: a reset or verification token passes
    * `verifyAccessToken`, and an access token passes `verifyResetToken` and
    * `verifyVerificationToken` (with no email in its payload). */
  lemma KindsSharingSecretAreInterchangeable(keys: Keys, userId: string, email: string, nowMs: int)
    requires ValidCodec(keys.codec)
    ensures VerifyAccessToken(keys, GenerateResetToken(keys, userId, email, nowMs), nowMs) == Ok(Claims(userId, Some(email)))
    ensures VerifyAccessToken(keys, GenerateVerificationToken(keys, userId, email, nowMs), nowMs) == Ok(Claims(userId, Some(email)))
    ensures VerifyResetToken(keys, GenerateVerificationToken(keys, userId, email, nowMs), nowMs) == Ok(Claims(userId, Some(email)))
    ensures VerifyResetToken(keys, GenerateAccessToken(keys, userId, nowMs), nowMs) == Ok(Claims(userId, None))
    ensures VerifyVerificationToken(keys, GenerateAccessToken(keys, userId, nowMs), nowMs) == Ok(Claims(userId, None))
  {
    SignVerifyRoundTrip(keys.codec, keys.jwtSecret, Claims(userId, Some(email)), nowMs, Config.ResetTokenTtl, nowMs);
    SignVerifyRoundTrip(keys.codec, keys.jwtSecret, Claims(userId, Some(email)), nowMs, VerificationTokenTtl, nowMs);
    SignVerifyRoundTrip(keys.codec, keys.jwtSecret, Claims(userId, None), nowMs, Config.AccessTokenTtl, nowMs);
  }

  /** A token is a function of secret, payload and issue second: two mints in
    * the same second give the same text, mints in different seconds differ. */
  lemma MintedTextDependsOnSecond(codec: Codec, secret: string, claims: Claims, t1: int, t2: int, ttl: int)
    requires ValidCodec(codec)
    ensures Sign(codec, secret, claims, t1, ttl) == Sign(codec, secret, claims, t2, ttl) <==> t1 / 1000 == t2 / 1000
  {
    var a := Signed(secret, claims, t1 / 1000, t1 / 1000 + ttl);
    var b := Signed(secret, claims, t2 / 1000, t2 / 1000 + ttl);
    assert codec.decode(codec.encode(a)) == a;
    assert codec.decode(codec.encode(b)) == b;
  }

  // ---- generateRandomToken: 32 random bytes as lower-case hex ----

  newtype byte = x: int | 0 <= x < 256

  predicate IsLowerHexDigit(c: char) {
    '0' <= c <= '9' || 'a' <= c <= 'f'
  }

  function HexDigit(n: int): (c: char)
    requires 0 <= n < 16
    ensures IsLowerHexDigit(c)
  {
    if n < 10 then ('0' as int + n) as char else ('a' as int + n - 10) as char
  }

  function HexValue(c: char): (n: int)
    requires IsLowerHexDigit(c)
    ensures 0 <= n < 16
  {
    if c <= '9' then c as int - '0' as int else c as int - 'a' as int + 10
  }

  /** `Buffer.toString("hex")`: two lower-case digits per byte, high nibble first. */
  function HexEncode(bytes: seq<byte>): (r: string)
    ensures |r| == 2 * |bytes|
    ensures forall i :: 0 <= i < |r| ==> IsLowerHexDigit(r[i])
  {
    if bytes == [] then ""
    else [HexDigit(bytes[0] as int / 16), HexDigit(bytes[0] as int % 16)] + HexEncode(bytes[1..])
  }

  /** Reads lower-case hex back into bytes, two digits per byte. */
  function HexDecode(s: string): seq<byte>
    requires |s| % 2 == 0
    requires forall i :: 0 <= i < |s| ==> IsLowerHexDigit(s[i])
  {
    if s == [] then []
    else [(16 * HexValue(s[0]) + HexValue(s[1])) as byte] + HexDecode(s[2..])
  }

  /** Hex encoding loses nothing: decoding it gives the bytes back. */
  lemma {:induction false} HexRoundTrip(bytes: seq<byte>)
    ensures HexDecode(HexEncode(bytes)) == bytes
  {
    if bytes != [] {
      var b := bytes[0] as int;
      assert HexValue(HexDigit(b / 16)) == b / 16;
      assert HexValue(HexDigit(b % 16)) == b % 16;
      HexRoundTrip(bytes[1..]);
      assert HexEncode(bytes)[2..] == HexEncode(bytes[1..]);
    }
  }

  /** `generateRandomToken()`, with the 32 bytes of `crypto.randomBytes`
    * passed in: 64 lower-case hex characters that encode those bytes. */
  function GenerateRandomToken(entropy: seq<byte>): (r: string)
    requires |entropy| == 32
    ensures |r| == 64
    ensures forall i :: 0 <= i < |r| ==> IsLowerHexDigit(r[i])
    ensures HexDecode(r) == entropy
  {
    HexRoundTrip(entropy);
    HexEncode(entropy)
  }
}

=== FILE: user.dfy ===
/**
 * The user record and its schema: field shapes, defaults, the role enum and
 * the constraints on name, email and password, including the email pattern
 * `^\w+([\.-]?\w+)*@\w+([\.-]?\w+)*(\.\w{2,3})+$`.
 */
module UserModel {
  import opened Common
  import opened Text

  datatype Role = UserRole | AdminRole

  /** The enum value as stored. */
  function RoleName(r: Role): string {
    match r
    case UserRole => "user"
    case AdminRole => "admin"
  }

  /** Reads a role from its name; exactly "user" and "admin" are roles. */
  function ParseRole(s: string): (r: Option<Role>)
    ensures r.Some? <==> s == "user" || s == "admin"
    ensures r.Some? ==> RoleName(r.value) == s
  {
    if s == "user" then Some(UserRole)
    else if s == "admin" then Some(AdminRole)
    else None
  }

  /** A stored user. `password` holds the hash; the nullable fields are
    * `None` when null or unset; expiries and `createdAt` are milliseconds. */
  datatype User = User(
    name: string,
    email: string,
    password: string,
    role: Role,
    refreshToken: Option<string>,
    resetPasswordToken: Option<string>,
    resetPasswordExpire: Option<int>,
    isVerified: bool,
    verificationToken: Option<string>,
    verificationTokenExpire: Option<int>,
    createdAt: int)

  /** The email setters, in schema order: `lowercase`, then `trim`. Mongoose
    * applies them both to stored values and to `findOne({ email })` filters. */
  function Normalize(email: string): (r: string)
    ensures r == Trim(ToLower(email))
    ensures IsLower(r) && |r| <= |email|
    ensures r == [] || (!IsWhitespace(r[0]) && !IsWhitespace(r[|r| - 1]))
  {
    var l := ToLower(email);
    TrimKeepsLower(l);
    Trim(l)
  }

  /** Normalising twice is normalising once, so a stored email is found by itself. */
  lemma NormalizeIdempotent(email: string)
    ensures Normalize(Normalize(email)) == Normalize(email)
  {
    var n := Normalize(email);
    LowerOfLower(n);
    TrimIdempotent(ToLower(email));
  }

  // ---- the email pattern, as the regular expression reads ----

  /** `\w`: ASCII letters, digits and underscore. */
  predicate IsWordChar(c: char) {
    'a' <= c <= 'z' || 'A' <= c <= 'Z' || '0' <= c <= '9' || c == '_'
  }

  predicate IsSeparator(c: char) {
    c == '.' || c == '-'
  }

  predicate AllWord(s: string) {
    forall i :: 0 <= i < |s| ==> IsWordChar(s[i])
  }

  /** One repetition of `([\.-]?\w+)`. */
  ghost predicate IsGroup(g: string) {
    (|g| >= 1 && AllWord(g)) || (|g| >= 2 && IsSeparator(g[0]) && AllWord(g[1..]))
  }

  /** `([\.-]?\w+)*` */
  ghost predicate Groups(s: string)
    decreases |s|
  {
    s == [] || exists k :: 1 <= k <= |s| && IsGroup(s[..k]) && Groups(s[k..])
  }

  /** `\w+([\.-]?\w+)*` */
  ghost predicate WordRunPattern(s: string) {
    exists k :: 1 <= k <= |s| && AllWord(s[..k]) && Groups(s[k..])
  }

  /** `(\.\w{2,3})+` */
  ghost predicate TldPattern(s: string)
    decreases |s|
  {
    exists k :: 3 <= k <= 4 && k <= |s| && s[0] == '.' && AllWord(s[1..k]) &&
      (k == |s| || TldPattern(s[k..]))
  }

  /** `\w+([\.-]?\w+)*(\.\w{2,3})+` */
  ghost predicate DomainPattern(d: string) {
    exists k :: 0 <= k <= |d| && WordRunPattern(d[..k]) && TldPattern(d[k..])
  }

  /** The whole pattern, anchored at both ends. */
  ghost predicate EmailPattern(s: string) {
    exists i :: 0 <= i < |s| && s[i] == '@' && WordRunPattern(s[..i]) && DomainPattern(s[i + 1..])
  }

  // ---- the hand-written recogniser ----

  /** Word characters with single dots or dashes between them: starts with a
    * word character and every separator is followed by one. */
  predicate IsWordRun(s: string) {
    |s| >= 1 && IsWordChar(s[0]) && SeparatorsFollowed(s)
  }

  predicate SeparatorsFollowed(s: string) {
    forall i :: 0 <= i < |s| ==> OkAt(s, i)
  }

  /** Position `i` holds a word character, or a separator followed by one. */
  predicate OkAt(s: string, i: int)
    requires 0 <= i < |s|
  {
    IsWordChar(s[i]) || (IsSeparator(s[i]) && i + 1 < |s| && IsWordChar(s[i + 1]))
  }

  lemma SeparatorsFollowedSuffix(s: string, k: nat)
    requires SeparatorsFollowed(s) && k <= |s|
    ensures SeparatorsFollowed(s[k..])
  {
    forall i | 0 <= i < |s[k..]| ensures OkAt(s[k..], i) {
      assert OkAt(s, k + i);
      assert s[k..][i] == s[k + i];
      if k + i + 1 < |s| { assert s[k..][i + 1] == s[k + i + 1]; }
    }
  }

  /** Index of the last occurrence of `c` in `s`. */
  function LastIndexOf(s: string, c: char): (i: nat)
    requires c in s
    ensures i < |s| && s[i] == c && c !in s[i + 1..]
  {
    if s[|s| - 1] == c then |s| - 1
    else
      assert c in s[..|s| - 1] by { assert s == s[..|s| - 1] + [s[|s| - 1]]; }
      var j := LastIndexOf(s[..|s| - 1], c);
      assert s[j + 1..] == s[..|s| - 1][j + 1..] + [s[|s| - 1]];
      j
  }

  /** Any position holding `c` with no `c` after it is the last index of `c`. */
  lemma LastIndexOfIs(s: string, c: char, j: nat)
    requires j < |s| && s[j] == c && c !in s[j + 1..]
    ensures c in s && LastIndexOf(s, c) == j
  {
  }

  /** A word run holds no '@'. */
  lemma NoAtInWordRun(w: string)
    requires IsWordRun(w)
    ensures '@' !in w
  {
    forall i | 0 <= i < |w| ensures w[i] != '@' { assert OkAt(w, i); }
  }

  /** The domain: a word run, then a last dot followed by two or three word
    * characters. */
  predicate IsDomain(d: string) {
    '.' in d &&
    var j := LastIndexOf(d, '.');
    IsWordRun(d[..j]) && 2 <= |d| - (j + 1) <= 3 && AllWord(d[j + 1..])
  }

  /** Recognises the email pattern by splitting at the first '@'. */
  predicate IsValidEmail(s: string) {
    '@' in s &&
    var i := IndexOf(s, '@');
    IsWordRun(s[..i]) && IsDomain(s[i + 1..])
  }

  // ---- the recogniser decides the pattern ----

  lemma {:induction false} GroupsFromSeparators(t: string)
    requires SeparatorsFollowed(t)
    ensures Groups(t)
    decreases |t|
  {
    if t != [] {
      assert OkAt(t, 0);
      var k := if IsWordChar(t[0]) then 1 else 2;
      assert k == 2 ==> t[..k][1..] == [t[1]];
      assert IsGroup(t[..k]);
      SeparatorsFollowedSuffix(t, k);
      GroupsFromSeparators(t[k..]);
    }
  }

  lemma {:induction false} SeparatorsFromGroups(t: string)
    requires Groups(t)
    ensures SeparatorsFollowed(t)
    decreases |t|
  {
    if t != [] {
      var k :| 1 <= k <= |t| && IsGroup(t[..k]) && Groups(t[k..]);
      SeparatorsFromGroups(t[k..]);
      forall i | 0 <= i < |t| ensures OkAt(t, i) {
        if i < k {
          assert t[..k][i] == t[i];
          if !IsWordChar(t[i]) {
            assert i == 0;
            assert t[..k][1..][0] == t[1];
          }
        } else {
          assert OkAt(t[k..], i - k);
          assert t[k..][i - k] == t[i];
          if i + 1 < |t| { assert t[k..][i - k + 1] == t[i + 1]; }
        }
      }
    }
  }

  /** The recogniser for `\w+([\.-]?\w+)*` accepts exactly what the pattern matches. */
  lemma WordRunCorrect(s: string)
    ensures IsWordRun(s) <==> WordRunPattern(s)
  {
    if IsWordRun(s) {
      assert AllWord(s[..1]);
      SeparatorsFollowedSuffix(s, 1);
      GroupsFromSeparators(s[1..]);
    }
    if WordRunPattern(s) {
      var k :| 1 <= k <= |s| && AllWord(s[..k]) && Groups(s[k..]);
      SeparatorsFromGroups(s[k..]);
      assert s[..k][0] == s[0];
      forall i | 0 <= i < |s| ensures OkAt(s, i) {
        if i < k {
          assert s[..k][i] == s[i];
        } else {
          assert OkAt(s[k..], i - k);
          assert s[k..][i - k] == s[i];
          if i + 1 < |s| { assert s[k..][i - k + 1] == s[i + 1]; }
        }
      }
    }
  }

  /** Appending a dot and a non-empty word to a word run gives a word run. */
  lemma ExtendWordRun(w: string, x: string)
    requires IsWordRun(w) && |x| >= 1 && AllWord(x)
    ensures IsWordRun(w + ['.'] + x)
  {
    var r := w + ['.'] + x;
    assert OkAt(w, |w| - 1);
    forall i | 0 <= i < |r| ensures OkAt(r, i) {
      if i < |w| {
        assert OkAt(w, i);
        assert r[i] == w[i];
        if i + 1 < |w| { assert r[i + 1] == w[i + 1]; }
      } else if i > |w| {
        assert r[i] == x[i - |w| - 1];
      } else {
        assert r[i + 1] == x[0];
      }
    }
  }

  /** `t` has a dot at `j` followed by two or three word characters that end
    * it, and everything before `j`, appended to `w`, is a word run. */
  predicate TailShapeAt(t: string, w: string, j: int) {
    0 <= j < |t| && t[j] == '.' && IsWordRun(w + t[..j]) &&
    2 <= |t| - (j + 1) <= 3 && AllWord(t[j + 1..])
  }

  lemma NoDotInWord(s: string)
    requires AllWord(s)
    ensures '.' !in s
  {
    forall i | 0 <= i < |s| ensures s[i] != '.' { assert IsWordChar(s[i]); }
  }

  lemma TailShapeShift(t: string, w: string, k: nat, j: nat)
    requires k <= |t| && TailShapeAt(t[k..], w + t[..k], j)
    ensures TailShapeAt(t, w, k + j)
  {
    var rest := t[k..];
    assert t[k + j + 1..] == rest[j + 1..];
    assert t[..k + j] == t[..k] + rest[..j];
    assert w + t[..k + j] == w + t[..k] + rest[..j];
  }

  /** A top-level-domain tail has the shape the recogniser checks, after any word run. */
  lemma {:induction false} TldTailShape(t: string, w: string) returns (j: nat)
    requires TldPattern(t) && IsWordRun(w)
    ensures TailShapeAt(t, w, j)
    decreases |t|
  {
    var k :| 3 <= k <= 4 && k <= |t| && t[0] == '.' && AllWord(t[1..k]) && (k == |t| || TldPattern(t[k..]));
    if k == |t| {
      assert t[1..k] == t[1..];
      assert w + t[..0] == w;
      j := 0;
    } else {
      ExtendWordRun(w, t[1..k]);
      assert t[..k] == ['.'] + t[1..k];
      assert w + t[..k] == w + ['.'] + t[1..k];
      var j' := TldTailShape(t[k..], w + t[..k]);
      TailShapeShift(t, w, k, j');
      j := k + j';
    }
  }

  /** Everything after the last dot, when a dot and two or three word
    * characters, matches `(\.\w{2,3})+` with a single group. */
  lemma SingleTld(t: string)
    requires 3 <= |t| <= 4 && t[0] == '.' && AllWord(t[1..])
    ensures TldPattern(t)
  {
    assert t[1..|t|] == t[1..];
  }

  lemma DomainSound(d: string)
    requires IsDomain(d)
    ensures DomainPattern(d)
  {
    var j := LastIndexOf(d, '.');
    WordRunCorrect(d[..j]);
    assert d[j..][1..] == d[j + 1..];
    SingleTld(d[j..]);
  }

  /** A domain of the shape the recogniser checks, with its last dot at `j`. */
  lemma DomainFromTailShape(d: string, j: nat)
    requires TailShapeAt(d, [], j)
    ensures IsDomain(d)
  {
    NoDotInWord(d[j + 1..]);
    LastIndexOfIs(d, '.', j);
    assert [] + d[..j] == d[..j];
  }

  lemma DomainComplete(d: string)
    requires DomainPattern(d)
    ensures IsDomain(d)
  {
    var k :| 0 <= k <= |d| && WordRunPattern(d[..k]) && TldPattern(d[k..]);
    var w := d[..k];
    assert IsWordRun(w) by {
      WordRunCorrect(w);
    }
    var jt := TldTailShape(d[k..], w);
    assert TailShapeAt(d, [], k + jt) by {
      assert [] + w == w;
      TailShapeShift(d, [], k, jt);
    }
    DomainFromTailShape(d, k + jt);
  }

  /** The domain recogniser accepts exactly what `\w+([\.-]?\w+)*(\.\w{2,3})+` matches. */
  lemma DomainCorrect(d: string)
    ensures IsDomain(d) <==> DomainPattern(d)
  {
    if IsDomain(d) { DomainSound(d); }
    if DomainPattern(d) { DomainComplete(d); }
  }

  /** What the recogniser accepts, the pattern matches. */
  lemma EmailSound(s: string)
    requires IsValidEmail(s)
    ensures EmailPattern(s)
  {
    var i := IndexOf(s, '@');
    assert WordRunPattern(s[..i]) by { WordRunCorrect(s[..i]); }
    assert DomainPattern(s[i + 1..]) by { DomainCorrect(s[i + 1..]); }
  }

  /** A match whose local part ends at `i` is accepted: the local part holds
    * no '@', so the recogniser splits at `i` as well. */
  lemma EmailComplete(s: string, i: int)
    requires 0 <= i < |s| && s[i] == '@' && WordRunPattern(s[..i]) && DomainPattern(s[i + 1..])
    ensures IsValidEmail(s)
  {
    assert IsWordRun(s[..i]) by { WordRunCorrect(s[..i]); }
    assert IsDomain(s[i + 1..]) by { DomainCorrect(s[i + 1..]); }
    assert IndexOf(s, '@') == i by {
      NoAtInWordRun(s[..i]);
      assert s[..i + 1] == s[..i] + ['@'];
    }
  }

  /** The hand-written recogniser decides the schema's email pattern. */
  lemma EmailRecogniserCorrect(s: string)
    ensures IsValidEmail(s) <==> EmailPattern(s)
  {
    if IsValidEmail(s) {
      EmailSound(s);
    }
    if EmailPattern(s) {
      var i :| 0 <= i < |s| && s[i] == '@' && WordRunPattern(s[..i]) && DomainPattern(s[i + 1..]);
      EmailComplete(s, i);
    }
  }

  // ---- schema validation on create ----

  /** The fields `register` passes to `User.create`; the rest take their defaults. */
  datatype NewUser = NewUser(
    name: string,
    email: string,
    password: string,
    verificationToken: string,
    verificationTokenExpire: int)

  const NameRequired := "Please add a name"
  const EmailRequired := "Please add an email"
  const EmailInvalid := "Please add a valid email"
  const PasswordRequired := "Please add a password"
  const PasswordTooShort := "Password must be at least 8 characters"

  /** Messages of the failing validators, one per path, in schema order. The
    * `match` validator is skipped on an empty value, and `minlength` on an
    * empty one, so each path reports at most one message. */
  function SchemaErrors(name: string, email: string, password: string): seq<string> {
    (if name == "" then [NameRequired] else []) +
    (if email == "" then [EmailRequired] else if !IsValidEmail(email) then [EmailInvalid] else []) +
    (if password == "" then [PasswordRequired] else if |password| < 8 then [PasswordTooShort] else [])
  }

  /** Each message is reported exactly when its validator fails, and the
    * list is empty exactly when every validator passes. */
  lemma SchemaErrorsExact(name: string, email: string, password: string)
    ensures var errors := SchemaErrors(name, email, password);
      (errors == [] <==> name != "" && IsValidEmail(email) && |password| >= 8) &&
      (NameRequired in errors <==> name == "") &&
      (EmailRequired in errors <==> email == "") &&
      (EmailInvalid in errors <==> email != "" && !IsValidEmail(email)) &&
      (PasswordRequired in errors <==> password == "") &&
      (PasswordTooShort in errors <==> 0 < |password| < 8)
  {
  }

  /** `User.create`: apply the setters, validate, and fill in the defaults. */
  function CreateUser(input: NewUser, now: int): (r: Result<User, seq<string>>)
    ensures r.Ok? <==>
      Trim(input.name) != "" && IsValidEmail(Normalize(input.email)) && |input.password| >= 8
    ensures r.Err? ==> r.error == SchemaErrors(Trim(input.name), Normalize(input.email), input.password)
    ensures r.Ok? ==>
      var u := r.value;
      u.name == Trim(input.name) && u.email == Normalize(input.email) && u.password == input.password &&
      u.role == UserRole && !u.isVerified && u.refreshToken == None &&
      u.resetPasswordToken == None && u.resetPasswordExpire == None &&
      u.verificationToken == Some(input.verificationToken) &&
      u.verificationTokenExpire == Some(input.verificationTokenExpire) && u.createdAt == now
  {
    var name := Trim(input.name);
    var email := Normalize(input.email);
    var errors := SchemaErrors(name, email, input.password);
    SchemaErrorsExact(name, email, input.password);
    if errors == [] then
      Ok(User(name, email, input.password, UserRole, None, None, None, false,
              Some(input.verificationToken), Some(input.verificationTokenExpire), now))
    else
      Err(errors)
  }
}

=== FILE: verification_controller.dfy ===
/**
 * Email verification: confirming the link, and sending a new one.
 */
module VerificationController {
  import opened Common
  import opened Token
  import opened UserModel
  import opened Store
  import opened Response
  import opened Errors
  import opened Handlers

  const InvalidVerificationMessage := "Invalid or expired verification token"
  const ResendUnknownMessage := "If that email exists and is unverified, a new verification email has been sent"

  /** `verifyEmail`. `mailDelivered` says whether the welcome email went out. */
  function VerifyEmail(env: Env, users: Users, inputErrors: seq<string>, token: string, now: int,
                       mailDelivered: bool): Step
  {
    if inputErrors != [] then Rejected(users, inputErrors)
    else
      match VerifyVerificationToken(env.keys, token, now)
      case Err(_) => Answer(users, Send(400, Notice(InvalidVerificationMessage)))
      case Ok(claims) =>
        match FindByToken(users, claims.id, claims.email, VerificationField, token, now)
        case CastFailure => Raise(env, users, CastError(claims.id))
        case Missing => Raise(env, users, AppError(InvalidVerificationMessage, 400))
        case Found(id, u) =>
          if u.isVerified then Raise(env, users, AppError("Email already verified", 400))
          else
            Step(Send(200, Done("Email verified successfully! You can now login.")),
                 users[id := u.(isVerified := true, verificationToken := None, verificationTokenExpire := None)],
                 Some(WelcomeMail(u.email, u.name)))
  }

  /** `resendVerification`. `mailDelivered` says whether the email went out;
    * the new link stays stored either way. */
  function ResendVerification(env: Env, users: Users, inputErrors: seq<string>, email: string, now: int,
                              mailDelivered: bool): Step
    requires EmailsUnique(users)
  {
    if inputErrors != [] then Rejected(users, inputErrors)
    else
      match FindByEmail(users, email)
      case None => Answer(users, Send(200, Done(ResendUnknownMessage)))
      case Some(id) =>
        var u := users[id];
        if u.isVerified then Answer(users, Send(400, Notice("Email already verified")))
        else
          var token := GenerateVerificationToken(env.keys, id, u.email, now);
          var users' := users[id := u.(verificationToken := Some(token), verificationTokenExpire := Some(now + VerificationWindow))];
          var mail := Some(ResentVerificationMail(u.email, token));
          if !mailDelivered then Step(Send(500, Notice("Email could not be sent")), users', mail)
          else Step(Send(200, Done("Verification email sent")), users', mail)
  }

  // ---- properties of one request ----

  /** verifyEmail answers 400 both for a token that fails verification and
    * for one no user holds live under its id and email, and changes nothing. */
  lemma VerifyRejects(env: Env, users: Users, token: string, now: int, mailDelivered: bool)
    ensures var s := VerifyEmail(env, users, [], token, now, mailDelivered);
      var v := VerifyVerificationToken(env.keys, token, now);
      (v.Err? ==> s.reply == Send(400, Notice(InvalidVerificationMessage)) && s.users == users) &&
      (v.Ok? && IsObjectIdText(v.value.id) &&
       FindByToken(users, v.value.id, v.value.email, VerificationField, token, now).Missing? ==>
         s.reply.status == 400 && s.reply.body.message == InvalidVerificationMessage && s.users == users)
  {
    AppErrorPassesThrough(InvalidVerificationMessage, 400, env.nodeEnvVar);
  }

  /** A matched user already verified gets 400 "Email already verified" and
    * nothing changes; otherwise the user becomes verified and both
    * verification fields are cleared together. */
  lemma VerifyMatched(env: Env, users: Users, token: string, now: int, mailDelivered: bool)
    requires VerifyVerificationToken(env.keys, token, now).Ok?
    requires var c := VerifyVerificationToken(env.keys, token, now).value;
      FindByToken(users, c.id, c.email, VerificationField, token, now).Found?
    ensures var c := VerifyVerificationToken(env.keys, token, now).value;
      var id := CanonicalId(c.id);
      var s := VerifyEmail(env, users, [], token, now, mailDelivered);
      (users[id].isVerified ==>
         s.reply.status == 400 && s.reply.body.message == "Email already verified" && s.users == users) &&
      (!users[id].isVerified ==>
         s.reply.status == 200 &&
         s.users == users[id := users[id].(isVerified := true, verificationToken := None,
                                           verificationTokenExpire := None)])
  {
    AppErrorPassesThrough("Email already verified", 400, env.nodeEnvVar);
  }

  /** Whether the welcome email goes out has no effect on verification. */
  lemma VerifyIgnoresWelcomeFailure(env: Env, users: Users, inputErrors: seq<string>, token: string, now: int)
    ensures VerifyEmail(env, users, inputErrors, token, now, false).reply ==
            VerifyEmail(env, users, inputErrors, token, now, true).reply
    ensures VerifyEmail(env, users, inputErrors, token, now, false).users ==
            VerifyEmail(env, users, inputErrors, token, now, true).users
  {
  }

  /** resendVerification: the generic success for an unknown email and 400
    * for a verified user, both changing nothing; for an unverified user a
    * new token and a 24-hour expiry are stored, and kept even when the mail
    * fails (then the reply is 500). */
  lemma ResendOutcomes(env: Env, users: Users, email: string, now: int, mailDelivered: bool)
    requires EmailsUnique(users)
    ensures var s := ResendVerification(env, users, [], email, now, mailDelivered);
      var found := FindByEmail(users, email);
      (found.None? ==> s.reply == Send(200, Done(ResendUnknownMessage)) && s.users == users) &&
      (found.Some? && users[found.value].isVerified ==>
         s.reply == Send(400, Notice("Email already verified")) && s.users == users) &&
      (found.Some? && !users[found.value].isVerified ==>
         var id := found.value;
         var token := GenerateVerificationToken(env.keys, id, users[id].email, now);
         s.users == users[id := users[id].(verificationToken := Some(token),
                                           verificationTokenExpire := Some(now + VerificationWindow))] &&
         s.mail == Some(ResentVerificationMail(users[id].email, token)) &&
         (s.reply.status == 200 <==> mailDelivered) && (!mailDelivered ==> s.reply.status == 500))
  {
  }
}
